=== FILE: README.md ===
# forecast_budget: a Dafny model of the budgeting backend and its transaction views

forecast_budget is a personal-budget application. Its FastAPI backend stores users,
sessions, refresh tokens, password-reset codes, incomes and expenses. It imports
bank statements from CSV files and computes a forecast from a user's history. Its
React frontend lists the transactions and turns errors into notifications.

This project models the core of both sides as pure functions over immutable
tables:

- **Authentication.** Registration, login, refreshing an access token, revoking
  and logging out a session, and the two-step password reset by SMS code
  (`Auth`, `PasswordReset`, `Sms`). The tables involved are `UserDirectory`,
  `SessionStore`, `RefreshTokenStore` and `ResetCodeStore`.
- **Profiles.** Reading, updating and deleting a user (`UserCases`), with the two
  email checks of the backend (`EmailRules`).
- **Incomes and expenses.** Their use cases and the income repository
  (`IncomeCases`, `ExpenseCases`, `IncomeStore`).
- **The forecast.** The historical window, aggregation by day and the projection
  of recurring items (`Forecast`, `Aggregation`).
- **CSV import.** The parser and the import use case with its duplicate check and
  error list (`CsvParser`, `ImportCsv`, `ImportResult`).
- **Frontend.** The unified transaction type, the transaction list's filters,
  pages and totals, and the error handler (`Transactions`, `TransactionList`,
  `ErrorHandler`).

A table is a sequence in insertion order. A lookup returns the first row that
matches, like SQL `.first()`. An insertion that breaks a primary key or unique
column fails with an integrity error. Timestamps are whole seconds since the Unix
epoch, in UTC. Amounts are exact reals.

Several things are parameters rather than part of the model:

- the clock, the random draw of a reset code and the fresh identifiers;
- the password hasher (`Security.Hasher`) and the token minter (`Security.TokenCodec`);
- the CSV reader, `strptime` and `float` (`CsvParser.Library`);
- the abstract expense repository (`ExpenseCases.ExpenseRepo`);
- the browser's reading of a date string (`TransactionList.Calendar`).

Every property proved here holds whatever those parameters compute.

Exceptions are values: `Entities.Raised` stands for a `ValueError` with its
message, an integrity error, an HTTP error with its status, or Python's
`AttributeError` on `None`.

## Model

| member | source | states |
|---|---|---|
| Sms.GenerateCode | backend/app/infrastructure/sms/mock_sms_service.py:27-35 | a draw in 0..999999 becomes a six-character string of decimal digits whose value is the draw |
| Sms.GenerateCodeInjective | backend/app/infrastructure/sms/mock_sms_service.py:34-35 | two draws give the same code exactly when they are the same draw |
| Sms.GenerateCodePadsSmallValues | backend/app/infrastructure/sms/mock_sms_service.py:35 | 42 is written "000042" and 0 is written "000000" |
| Sms.GenerateCodeLargestDraw | backend/app/infrastructure/sms/mock_sms_service.py:34-35 | the largest draw is written "999999" with no padding |
| Sms.SendSms | backend/app/infrastructure/sms/mock_sms_service.py:13-25 | the mock service always reports the message as delivered |
| Sms.ResetMessageText | backend/app/use_cases/auth/request_password_reset.py:94 | the reset SMS text contains the code |
| ResetCodeStore.Add | backend/app/infrastructure/repositories/password_reset_code_repository.py:25-46 | the insertion succeeds exactly when the id is free, appends the row and keeps ids unique; otherwise it is an integrity error |
| ResetCodeStore.GetByCode | backend/app/infrastructure/repositories/password_reset_code_repository.py:48-64 | returns the first unused row with that code; returns nothing exactly when no unused row carries it; expiry is not looked at |
| ResetCodeStore.GetByUserId | backend/app/infrastructure/repositories/password_reset_code_repository.py:66-83 | returns an unused row of the user with the greatest creation time; returns nothing exactly when the user has no unused row |
| ResetCodeStore.LatestUnusedFrom | backend/app/infrastructure/repositories/password_reset_code_repository.py:66-83 | the index of the user's latest unused row at or after a position, with the same bounds |
| ResetCodeStore.MarkAsUsed | backend/app/infrastructure/repositories/password_reset_code_repository.py:85-99 | marks the row with that id used and changes nothing else; an unknown id changes nothing |
| ResetCodeStore.DeleteExpiredCodes | backend/app/infrastructure/repositories/password_reset_code_repository.py:101-107 | keeps exactly the rows that expire at or after now |
| ResetCodeStore.MarkAsUsedIdempotent | backend/app/infrastructure/repositories/password_reset_code_repository.py:85-99 | marking the same id twice is marking it once |
| ResetCodeStore.MarkAsUsedKeepsUsed | backend/app/infrastructure/repositories/password_reset_code_repository.py:85-99 | marking never turns a used row back into an unused one and keeps ids unique |
| ResetCodeStore.AddKeepsUsed | backend/app/infrastructure/repositories/password_reset_code_repository.py:25-46 | an insertion keeps every used row used |
| ResetCodeStore.DeleteExpiredKeepsUsed | backend/app/infrastructure/repositories/password_reset_code_repository.py:101-107 | deleting expired rows keeps every remaining used row used |
| ResetCodeStore.AddThenGetByCode | backend/app/infrastructure/repositories/password_reset_code_repository.py:25-64 | after inserting an unused code that no earlier unused row carries, the lookup by that code finds it |
| ResetCodeStore.MarkAsUsedAt | backend/app/infrastructure/repositories/password_reset_code_repository.py:85-99 | with unique ids, marking row i's id marks exactly row i |
| ResetCodeStore.MarkAsUsedKeepsOneLive | backend/app/infrastructure/repositories/password_reset_code_repository.py:85-99 | marking keeps unique ids and at most one usable code per user |
| PasswordReset.Requester | backend/app/use_cases/auth/request_password_reset.py:57-61 | the email is used when one is given, otherwise the phone number |
| PasswordReset.RetireLatest | backend/app/use_cases/auth/request_password_reset.py:72-75 | the user's latest unused code is marked used when there is one; the table is otherwise unchanged |
| PasswordReset.NewCode | backend/app/use_cases/auth/request_password_reset.py:81-88 | the new row belongs to the user, carries the code, is unused and expires ten minutes after it was created |
| PasswordReset.RequestReset | backend/app/use_cases/auth/request_password_reset.py:35-100 | a missing identifier, an unknown user and a user without a phone number are refused in that order, leaving the table unchanged and sending no SMS; a request that passes all three checks succeeds unless the fresh row id is taken; success returns the "code sent" reply and the SMS carries the code |
| PasswordReset.Issue | backend/app/use_cases/auth/request_password_reset.py:72-100 | retires the old code, stores the new one and sends the SMS; fails only with an integrity error |
| PasswordReset.VerifyAndReset | backend/app/use_cases/auth/verify_and_reset_password.py:32-81 | a password under eight characters is refused with its message, and only then; with a long enough password, a code that no unused row carries or whose first unused row has expired is refused as invalid or expired, and a good code whose user is gone as owner not found, each exactly in those cases; success holds exactly when an unused code is found, unexpired, with its user present, and stores the new hash and marks the code used; a failure changes nothing |
| PasswordReset.ExpiredCodeRefused | backend/app/use_cases/auth/verify_and_reset_password.py:56-58 | a code whose unused rows have all expired is refused with the invalid-or-expired message, or the too-short message when the password is short |
| PasswordReset.CodeIsSingleUse | backend/app/use_cases/auth/verify_and_reset_password.py:60-79 | after a successful reset, the same code is refused the second time |
| PasswordReset.ResetPasswordVerifies | backend/app/use_cases/auth/verify_and_reset_password.py:70-76 | after a successful reset the new password verifies against the user's stored hash, and the user keys stay unique |
| PasswordReset.RequestRetiresOldCode | backend/app/use_cases/auth/request_password_reset.py:72-91 | after a successful request, the new code is the user's only usable code, and the table keeps its rules |
| PasswordReset.StoreNewCode | backend/app/use_cases/auth/request_password_reset.py:90-91 | appending an unused code for a user with none keeps unique ids and one usable code per user |
| PasswordReset.RetireLeavesNoLiveCode | backend/app/use_cases/auth/request_password_reset.py:72-75 | after retiring, the user has no usable code left |
| PasswordReset.RequestThenVerify | backend/app/use_cases/auth/request_password_reset.py:78-91 | entering a freshly requested code within ten minutes resets the requester's password, provided no older unused row carries the same digits |
| PasswordReset.VerifyFreshCode | backend/app/use_cases/auth/verify_and_reset_password.py:50-81 | a freshly stored code is found by its digits and accepted until it expires |
| UserDirectory.GetById | backend/app/use_cases/user/get_user.py:13-23 | finds a row with this id, and nothing exactly when no row has it |
| UserDirectory.GetByEmail | backend/app/use_cases/auth/login_user.py:40-45 | finds a row with this email, and nothing exactly when no row has it |
| UserDirectory.GetByPhoneNumber | backend/app/use_cases/auth/request_password_reset.py:60-61 | finds a row with this phone number, and nothing exactly when no row has it |
| UserDirectory.Add | backend/app/use_cases/auth/register_user.py:39-40 | the insertion succeeds exactly when id and email are free; it appends the user and keeps the keys unique |
| UserDirectory.Update | backend/app/use_cases/user/update_user.py:46 | replaces the row with this id and returns the new user; an unknown id changes nothing |
| UserDirectory.Delete | backend/app/use_cases/user/delete_user.py:12-18 | removes the rows with this id and keeps every other row |
| UserDirectory.DeleteShrinks | backend/app/use_cases/user/delete_user.py:12-18 | deleting a present id makes the table shorter |
| UserDirectory.GetByIdUnique | backend/app/use_cases/user/get_user.py:13-23 | with unique keys, the lookup by a row's id finds that row |
| UserDirectory.GetByEmailUnique | backend/app/use_cases/auth/login_user.py:40-45 | with unique keys, the lookup by a row's email finds that row |
| EmailRules.FindDot | backend/app/use_cases/auth/register_user.py:51-55 | finds a dot that the pattern accepts, and nothing exactly when there is none |
| EmailRules.MatchesRegistrationPattern | backend/app/use_cases/auth/register_user.py:51-55 | decides `re.match(r"[^@]+@[^@]+\.[^@]+", email)`: true exactly when some split of a prefix fits the pattern |
| EmailRules.LastDot | backend/app/use_cases/user/update_user.py:106-109 | the last dot of the address, and nothing exactly when it has no dot |
| EmailRules.MatchesUpdatePatternExactly | backend/app/use_cases/user/update_user.py:106-109 | decides whether the whole address fits the profile update's anchored pattern |
| EmailRules.IsValidEmail | backend/app/use_cases/user/update_user.py:106-109 | the anchored pattern as `re.match` applies it, including the allowance for a trailing newline |
| EmailRules.IsValidEmailOnStripped | backend/app/use_cases/user/update_user.py:89-94 | on stripped input the newline allowance never applies |
| EmailRules.StrictImpliesLoose | backend/app/use_cases/user/update_user.py:106-109 | every address the profile update accepts, registration accepts too |
| EmailRules.LooseDoesNotImplyStrict | backend/app/use_cases/auth/register_user.py:51-55 | registration accepts "a b@c.d" and the profile update rejects it |
| Auth.NewUser | backend/app/use_cases/auth/register_user.py:26-38 | the new user carries the form's names and email, no phone number, a hash the password verifies against, and the current time |
| Auth.Register | backend/app/use_cases/auth/register_user.py:17-55 | the first missing required field, then a malformed email, then a taken email are refused and change nothing; otherwise the new user is appended |
| Auth.RegisteredUserIsFound | backend/app/use_cases/auth/register_user.py:17-41 | after registration the keys stay unique, the lookup by email finds the user and the password verifies |
| Auth.Login | backend/app/use_cases/auth/login_user.py:17-45 | an unknown email and a wrong password are refused with the same message and store nothing; login succeeds exactly when the credentials are valid and the minted refresh token is not already stored; success stores an unrevoked refresh token for the user |
| Auth.RegisterThenLogin | backend/app/use_cases/auth/login_user.py:17-45 | a user just registered can log in with the same email and password, and gets tokens minted for their new id, when the refresh token is not already stored |
| Auth.LoginIssuesValidToken | backend/app/use_cases/auth/login_user.py:26-32 | after a successful login, the returned refresh token is valid in the table |
| Auth.RefreshAccessToken | backend/app/use_cases/auth/refresh_token.py:19-34 | a missing or revoked session gives 401 and a missing user gives 404, each exactly in those cases; success holds exactly when the session exists, is not revoked and its user exists, and gives a 15-minute access token for the session's user |
| Auth.RevokeUserSession | backend/app/use_cases/auth/revoke_user_session.py:13-24 | a missing session or one of another user gives 404 and an already revoked one gives 400; success holds exactly when the session exists, belongs to the user and is not revoked, and revokes that session only |
| Auth.RevokeTwiceRefused | backend/app/use_cases/auth/revoke_user_session.py:21-22 | revoking the same session a second time is refused with 400 |
| Auth.RevokedSessionCannotRefresh | backend/app/use_cases/auth/refresh_token.py:22-25 | a revoked session can no longer refresh an access token |
| Auth.Logout | backend/app/external_interfaces/api/auth.py:233-239 | answers the logout message; the token is no longer valid afterwards; when a row carries the token exactly one such row is marked revoked and every other row is unchanged, and otherwise the table is unchanged |
| Auth.LogoutDoesNotEndSession | backend/app/external_interfaces/api/auth.py:237-238 | after logout the token is dead in the token table, yet the session still refreshes access tokens |
| SessionStore.Add | backend/app/infrastructure/repositories/session_repository.py:15-23 | the insertion succeeds exactly when the id and the refresh token are free; it appends the row and keeps the keys unique |
| SessionStore.FindIndexByRefreshToken | backend/app/infrastructure/repositories/session_repository.py:25-33 | the first row holding the token, and nothing exactly when no row holds it |
| SessionStore.FindByRefreshToken | backend/app/infrastructure/repositories/session_repository.py:25-33 | a session holding the token, and nothing exactly when no row holds it |
| SessionStore.GetByRefreshToken | backend/app/infrastructure/repositories/session_repository.py:25-33 | the session holding the token; "Session non trouvée" exactly when there is none |
| SessionStore.Revoke | backend/app/infrastructure/repositories/session_repository.py:35-41 | revokes the session holding the token and nothing else; an unknown token raises |
| SessionStore.SessionsOf | backend/app/infrastructure/repositories/session_repository.py:43-56 | the user's sessions newest first, each as many times as it is stored and no other session |
| SessionStore.GetAllByUserId | backend/app/infrastructure/repositories/session_repository.py:43-56 | the user's sessions newest first, each as many times as it is stored and no other session; raises exactly when the user has none |
| SessionStore.FindById | backend/app/infrastructure/repositories/session_repository.py:58-66 | a session with the id, and nothing exactly when no row has it |
| SessionStore.GetById | backend/app/infrastructure/repositories/session_repository.py:58-66 | the session with the id; raises exactly when there is none |
| SessionStore.FindMatchesGet | backend/app/infrastructure/repositories/session_repository.py:25-66 | the raising lookups fail exactly where the plain ones find nothing, and otherwise return the same session |
| SessionStore.RevokeById | backend/app/infrastructure/repositories/session_repository.py:68-77 | revokes the session with this id owned by this user; raises exactly when there is none |
| SessionStore.RevokedAtKeepsKeys | backend/app/infrastructure/repositories/session_repository.py:35-41 | revoking a row keeps ids and refresh tokens unique |
| SessionStore.RevokeByIdTargetsFoundSession | backend/app/infrastructure/repositories/session_repository.py:68-77 | with unique keys, revoking by id revokes exactly the session the lookup by id finds |
| SessionStore.FindsUnique | backend/app/infrastructure/repositories/session_repository.py:25-66 | with unique keys, both lookups find a row by its own keys |
| RefreshTokenStore.Add | backend/app/infrastructure/repositories/refresh_token_repository.py:15-24 | the insertion succeeds exactly when the token is new; it appends the row and keeps tokens unique |
| RefreshTokenStore.Revoke | backend/app/infrastructure/repositories/refresh_token_repository.py:26-32 | marks the row with this token revoked; an unknown token changes nothing |
| RefreshTokenStore.IsValid | backend/app/infrastructure/repositories/refresh_token_repository.py:34-38 | true exactly when some unrevoked row carries the token |
| RefreshTokenStore.GetByToken | backend/app/infrastructure/repositories/refresh_token_repository.py:40-49 | the row with this token; an unknown token fails on reading an attribute of `None` |
| RefreshTokenStore.GetByUserId | backend/app/infrastructure/repositories/refresh_token_repository.py:51-63 | the user's tokens, each as many times as it is stored and no other token |
| RefreshTokenStore.RevokeKills | backend/app/infrastructure/repositories/refresh_token_repository.py:26-38 | revoking a stored token makes it invalid and keeps tokens unique |
| RefreshTokenStore.DeadStaysDead | backend/app/infrastructure/repositories/refresh_token_repository.py:15-38 | a revoked token stays invalid after any insertion or other revocation |
| UserCases.NormaliseEmail | backend/app/use_cases/user/update_user.py:89-90 | the stored email is no longer than the input, has no capital letter and no surrounding whitespace |
| UserCases.CheckName | backend/app/use_cases/user/update_user.py:70-85 | an absent name passes; a present name is stripped and refused when blank or over 100 characters, with the matching message |
| UserCases.CheckEmail | backend/app/use_cases/user/update_user.py:87-102 | an email is normalised and refused when empty, malformed or held by another user, each with its message |
| UserCases.ValidateAndPrepare | backend/app/use_cases/user/update_user.py:53-104 | the first name, the last name and the email are checked in that order; success returns the prepared values |
| UserCases.Rebuilt | backend/app/use_cases/user/update_user.py:111-130 | the rebuilt user keeps id, password and creation time, takes each given field, keeps each absent one, and is stamped now |
| UserCases.UpdateUser | backend/app/use_cases/user/update_user.py:17-46 | an empty id and an unknown user are refused and change nothing; otherwise the validated user replaces the stored one |
| UserCases.UpdateKeepsKeys | backend/app/use_cases/user/update_user.py:96-100 | an update keeps ids and emails unique |
| UserCases.GetUser | backend/app/use_cases/user/get_user.py:13-29 | an empty id and an unknown user are refused with their messages; it succeeds exactly when the id is non-empty and a user has it, and returns that user |
| UserCases.DeleteUser | backend/app/use_cases/user/delete_user.py:12-27 | an empty id and an unknown user are refused; it succeeds exactly when the id is non-empty and a user has it, and then removes that user's rows only |
| UserCases.DeletedUserNotFound | backend/app/use_cases/user/delete_user.py:12-18 | a deleted user can no longer be read |
| IncomeStore.Create | backend/app/infrastructure/repositories/income_repository.py:15-33 | the insertion succeeds exactly when the id is free; it appends the income and keeps ids unique |
| IncomeStore.Locate | backend/app/infrastructure/repositories/income_repository.py:35-44 | the first row with this id and owner, and nothing exactly when there is none |
| IncomeStore.GetById | backend/app/infrastructure/repositories/income_repository.py:35-44 | the income with this id and owner, and nothing exactly when there is none |
| IncomeStore.Owned | backend/app/infrastructure/repositories/income_repository.py:46-59 | the user's incomes latest date first, each as many times as it is stored and no other income |
| IncomeStore.GetAllByUserId | backend/app/infrastructure/repositories/income_repository.py:46-59 | `OFFSET skip LIMIT limit` over the user's incomes latest date first: the page's length is clipped to the list and to `limit`, and its k-th row is row `skip + k` of that list; all of them when the user has no more than a page |
| IncomeStore.WindowOfAll | backend/app/infrastructure/repositories/income_repository.py:52-55 | a page draws from the list, and a page from the start covers a short enough list |
| IncomeStore.WindowKeepsOrder | backend/app/infrastructure/repositories/income_repository.py:52-55 | a page of a list in date order is in date order |
| IncomeStore.Update | backend/app/infrastructure/repositories/income_repository.py:61-76 | replaces the row with the income's id and owner and returns it; with no such row returns nothing and changes nothing |
| IncomeStore.Delete | backend/app/infrastructure/repositories/income_repository.py:78-89 | removes the row with this id and owner and answers true; answers false and changes nothing when there is none |
| IncomeStore.CreateThenGet | backend/app/infrastructure/repositories/income_repository.py:15-44 | a created income is found by its id and owner |
| IncomeStore.OtherUserSeesNothing | backend/app/infrastructure/repositories/income_repository.py:35-44 | another user's lookup of an income finds nothing |
| IncomeStore.UpdateThenGet | backend/app/infrastructure/repositories/income_repository.py:61-76 | after an update the lookup returns the new version |
| IncomeStore.DeleteThenGet | backend/app/infrastructure/repositories/income_repository.py:78-89 | after a deletion the income is gone |
| IncomeCases.WithDerivedRecurrence | backend/app/use_cases/income/create_income.py:21-24 | an income is recurring exactly when it has a frequency other than one-time; no other field changes |
| IncomeCases.ValidateForCreate | backend/app/use_cases/income/create_income.py:44-70 | the first failing check, in the source's order, each with its message exactly when every earlier check passes and it fails, including the frequency required of a recurring income; none exactly when the income is valid |
| IncomeCases.CreateIncome | backend/app/use_cases/income/create_income.py:15-42 | an invalid income answers `None` and stores nothing; a valid one with a free id is stored with derived recurrence and fresh stamps |
| IncomeCases.ValidateForUpdate | backend/app/use_cases/income/update_income.py:29-54 | the first failing check, in the source's order, each with its message exactly when every earlier check passes and it fails, including the frequency required of a recurring income; none exactly when the income is valid |
| IncomeCases.UpdateIncome | backend/app/use_cases/income/update_income.py:13-27 | derives recurrence first, so the "frequency required" refusal never happens; invalid input, a missing caller id and an unknown income raise and change nothing; it succeeds exactly when the income is valid, the caller id is given and a row has the income's id and owner, and then replaces that row |
| IncomeCases.UpdateScopedByIncomeOwner | backend/app/use_cases/income/update_income.py:22-24 | the caller's id only has to be non-empty: the update is scoped by the owner written in the income |
| IncomeCases.DeleteIncome | backend/app/use_cases/income/delete_income.py:12-35 | an empty id or an income the user does not own changes nothing; otherwise that income is removed |
| IncomeCases.DeleteIncomeRemoves | backend/app/use_cases/income/delete_income.py:12-20 | after a deletion the income is gone, and deleting again changes nothing |
| ExpenseCases.Swallow | backend/app/use_cases/expenses/create_expense.py:15-20 | a `ValueError` becomes `None`; any other exception goes through |
| ExpenseCases.ValidateForCreate | backend/app/use_cases/expenses/create_expense.py:22-38 | the first failing check, in the source's order, each with its message exactly when every earlier check passes and it fails, the category last; none exactly when the expense is valid |
| ExpenseCases.CreateExpense | backend/app/use_cases/expenses/create_expense.py:13-20 | an invalid expense answers `None` without a write; otherwise one create call, with its `ValueError` swallowed |
| ExpenseCases.ValidateForUpdate | backend/app/use_cases/expenses/update_expense.py:22-38 | the first failing check, in the source's order, each with its message exactly when every earlier check passes and it fails, the date last; none exactly when the expense is valid |
| ExpenseCases.UpdateExpense | backend/app/use_cases/expenses/update_expense.py:13-20 | an invalid expense answers `None` without a write; otherwise one update call, with its `ValueError` swallowed |
| ExpenseCases.DeleteExpense | backend/app/use_cases/expenses/delete_expense.py:12-35 | deletes exactly when the id is given, the lookup finds the expense and the user id is given |
| Aggregation.DayStart | backend/app/domain/services/forecast_service.py:113-119 | midnight of the timestamp's day: at or before it, less than a day earlier, on a day boundary |
| Aggregation.AmountAt | backend/app/domain/services/forecast_service.py:118-121 | a day without a point has amount 0 |
| Aggregation.AggregateSpec | backend/app/domain/services/forecast_service.py:108-121 | one point per day that has items, in strictly ascending order, carrying that day's total; the points sum to the items' sum |
| Aggregation.AggregatePoints | backend/app/domain/services/forecast_service.py:118-121 | each point is a day with items and carries that day's total |
| Aggregation.AddPointDates | backend/app/domain/services/forecast_service.py:113-116 | adding an item to the series adds its day and no other |
| Aggregation.AddPointAscending | backend/app/domain/services/forecast_service.py:113-120 | adding an item keeps the series sorted |
| Aggregation.AddPointAmount | backend/app/domain/services/forecast_service.py:116 | adding raises its own day's amount only |
| Aggregation.AddPointTotal | backend/app/domain/services/forecast_service.py:116 | adding raises the series total by the amount |
| Aggregation.DayTotalSnoc | backend/app/domain/services/forecast_service.py:112-116 | a new item adds to its own day's total only |
| Forecast.ParseCode | backend/app/domain/entities/forecast.py:9-15 | a string names a period exactly when it is that period's code |
| Forecast.CodeRoundTrip | backend/app/domain/entities/forecast.py:9-15 | every period survives the trip through its code |
| Forecast.StartDate | backend/app/domain/services/forecast_service.py:75-86 | the window starts 30, 90, 180 or 365 days before its end |
| Forecast.Items | backend/app/domain/services/forecast_service.py:113 | each dated row becomes one item with its date, amount and recurring flag, in order |
| Forecast.Historical | backend/app/domain/services/forecast_service.py:88-106 | the items dated within the window, both ends included, each as many times as it occurs and no other item; a dateless row fails as `ensure_utc(None)` does, and only then |
| Forecast.HistoricalIncomesAsWritten | backend/app/domain/services/forecast_service.py:99-106 | the incomes read through the paginated listing: never more than 100 |
| Forecast.HistoricalIncomes | backend/app/domain/services/forecast_service.py:99-106 | fails exactly when an income of the user is dateless; otherwise every income of the user dated within the window, each as many times as it is stored, and nothing else |
| Forecast.OwnedItemsAreIncomes | backend/app/domain/services/forecast_service.py:103-105 | every item of the user's listing stands for one of the user's incomes |
| Forecast.IncomeSelectionsAgreeOnSmallStores | backend/app/domain/services/forecast_service.py:99-106 | with at most 100 incomes, the as-written and corrected selections agree |
| Forecast.IncomeLimitDropsRows | backend/app/infrastructure/repositories/income_repository.py:46-59 | with more than 100 incomes in the window, the as-written selection keeps 100 and the corrected one keeps all |
| Forecast.AllInWindowKept | backend/app/domain/services/forecast_service.py:104-106 | when every income is in the window, all are kept |
| Forecast.MonthlyAverageSpec | backend/app/domain/services/forecast_service.py:163-169 | the average times the count is the sum; no items average to 0 |
| Forecast.ForecastPoints | backend/app/domain/services/forecast_service.py:137-139 | one point per month ahead, the i-th 30·i days after the anchor, each carrying the average |
| Forecast.ForecastPointsTotal | backend/app/domain/services/forecast_service.py:137-139 | the projection totals the months times the average |
| Forecast.ForecastPointsAscending | backend/app/domain/services/forecast_service.py:137-139 | the projection's dates are strictly ascending |
| Forecast.ProjectionTotal | backend/app/domain/services/forecast_service.py:123-161 | a projection totals the months ahead times the average of the recurring items |
| Forecast.CalculateForecast | backend/app/domain/services/forecast_service.py:28-73 | fails exactly when a row is dateless; success carries the user, the period, the clock's end and the window's length |
| Forecast.ForecastFromHistories | backend/app/domain/services/forecast_service.py:36-73 | a successful forecast is the record built from the two selected histories |
| Forecast.AssembledHistory | backend/app/domain/services/forecast_service.py:40-50 | the series carry each day's totals; the totals and the net balance are the sums of the selected items |
| Forecast.AssembledProjectionPoints | backend/app/domain/services/forecast_service.py:44-139 | each projection has one point per month ahead |
| Forecast.AssembledProjectionTotals | backend/app/domain/services/forecast_service.py:52-54 | the projected totals are the months ahead times the recurring averages, and the net is their difference |
| Forecast.GetForecast | backend/app/use_cases/forecast/get_forecast.py:17-26 | a missing user, then a missing period, are refused; otherwise this is the service's forecast |
| ImportResult.AddError | backend/app/domain/entities/import_result.py:34-37 | appends the error, clears `success` and keeps the counters |
| ImportResult.AddErrorsSpec | backend/app/domain/entities/import_result.py:34-37 | recording several errors appends them in order; the result is successful only when it was and none were added |
| CsvParser.Category | backend/app/infrastructure/parsers/csv_parser.py:25-109 | a mapped bank category gives its mapping, an unmapped one stays itself, an empty one gives "Autres"; never empty |
| CsvParser.IsRecurringDescription | backend/app/infrastructure/parsers/csv_parser.py:135-138 | true exactly when the upper-cased description contains one of the six keywords |
| CsvParser.NormaliseAmount | backend/app/infrastructure/parsers/csv_parser.py:93-95 | the normalised amount has no space, no double quote and no comma |
| CsvParser.NormaliseAmountByCharacter | backend/app/infrastructure/parsers/csv_parser.py:93-95 | the three rewrites are one rewrite per character: spaces and quotes dropped, commas made dots |
| CsvParser.NormaliseAmountIdempotent | backend/app/infrastructure/parsers/csv_parser.py:93-95 | normalising twice is normalising once |
| CsvParser.DateText | backend/app/infrastructure/parsers/csv_parser.py:89-90 | the value date when it is non-empty, else the operation date |
| CsvParser.ParseRow | backend/app/infrastructure/parsers/csv_parser.py:85-133 | a row gives a transaction exactly when both date and amount are present and parse; it is an expense exactly when the amount is negative; the stored amount is its absolute value; category and recurrence follow the rules above |
| CsvParser.ParseRows | backend/app/infrastructure/parsers/csv_parser.py:71-81 | never more transactions than rows (order and multiplicity are stated by `CsvParser.ParseOneRow` and `CsvParser.ParseRowsAppend`) |
| CsvParser.ParseRowsMembership | backend/app/infrastructure/parsers/csv_parser.py:71-81 | a transaction is kept exactly when some row parses to it |
| CsvParser.ParseOneRow | backend/app/infrastructure/parsers/csv_parser.py:71-81 | a single row gives its transaction when it is kept and nothing otherwise |
| CsvParser.ParseRowsAppend | backend/app/infrastructure/parsers/csv_parser.py:71-81 | the transactions of two blocks of rows are those of the first block followed by those of the second: one per kept row, in row order, duplicates included |
| CsvParser.Parse | backend/app/infrastructure/parsers/csv_parser.py:49-83 | fails exactly when the reader fails on the BOM-stripped text; otherwise its transactions are exactly those the reader's rows yield, each with a non-negative amount and a category |
| CsvParser.BomIgnored | backend/app/infrastructure/parsers/csv_parser.py:62-63 | a leading byte-order mark changes nothing |
| ImportCsv.ExpensesSeen | backend/app/use_cases/imports/import_csv.py:90 | the existing expenses as the duplicate check reads them, one for one |
| ImportCsv.IncomesSeen | backend/app/use_cases/imports/import_csv.py:91 | the existing incomes as the duplicate check reads them, one for one |
| ImportCsv.AnyMatch | backend/app/use_cases/imports/import_csv.py:140-154 | with every record dated, true exactly when a record has the same day, name and amount to the cent; a dateless record fails on `None` |
| ImportCsv.AnyMatchAppend | backend/app/use_cases/imports/import_csv.py:140-154 | a match stays a match when records are appended |
| ImportCsv.AnyMatchLast | backend/app/use_cases/imports/import_csv.py:140-154 | a matching last record makes the check true |
| ImportCsv.IsDuplicate | backend/app/use_cases/imports/import_csv.py:133-154 | an expense is checked against the expenses and an income against the incomes |
| ImportCsv.ExpenseCategoryOf | backend/app/use_cases/imports/import_csv.py:161-163 | the mapped expense category, or "other" |
| ImportCsv.ParserCategoriesAreMapped | backend/app/use_cases/imports/import_csv.py:21-42 | every category the parser produces is a key of the expense mapping |
| ImportCsv.IncomeCategoryOf | backend/app/use_cases/imports/import_csv.py:192-202 | salary exactly when the description mentions a salary, freelance exactly when it mentions freelance work and no salary, otherwise other |
| ImportCsv.FrequencyOf | backend/app/use_cases/imports/import_csv.py:166-171 | monthly for a recurring transaction, one-time otherwise |
| ImportCsv.ExpenseFromTransaction | backend/app/use_cases/imports/import_csv.py:156-185 | the expense carries the transaction's date, amount, description and recurrence, and matches it in the duplicate check |
| ImportCsv.IncomeFromTransaction | backend/app/use_cases/imports/import_csv.py:187-223 | the income carries the transaction's date, amount, description and recurrence, and matches it in the duplicate check |
| ImportCsv.ImportedIncomeValid | backend/app/use_cases/imports/import_csv.py:187-223 | the built income passes creation's checks exactly when the user id, the description and the amount are non-empty |
| ImportCsv.ImportedExpenseValid | backend/app/use_cases/imports/import_csv.py:156-185 | the built expense passes creation's checks exactly when the user id, the description and the amount are non-empty |
| ImportCsv.Step | backend/app/use_cases/imports/import_csv.py:94-125 | each transaction is counted exactly once; a duplicate only raises `skipped`; created counts match the growth of the lists; the invariant holds |
| ImportCsv.Run | backend/app/use_cases/imports/import_csv.py:94-125 | over all transactions, the four counters grow by their number in total, and lists and store only grow |
| ImportCsv.Import | backend/app/use_cases/imports/import_csv.py:64-131 | an unreadable file gives one error and changes nothing; otherwise the total is the parsed count and every transaction is counted once |
| ImportCsv.CreatedExpenseIsDuplicate | backend/app/use_cases/imports/import_csv.py:101-110 | an expense just created from a transaction makes the same transaction a duplicate |
| ImportCsv.CreatedIncomeIsDuplicate | backend/app/use_cases/imports/import_csv.py:112-120 | an income just created from a transaction makes the same transaction a duplicate |
| ImportCsv.DuplicateStays | backend/app/use_cases/imports/import_csv.py:94-125 | a transaction seen as a duplicate stays one after later steps |
| Transactions.TagRoundTrip | frontend/src/types/transaction.ts:22-32 | tagging loses nothing: the entry and the kind can be read back |
| Transactions.ExpenseToTransaction | frontend/src/types/transaction.ts:23-26 | the transaction is of kind expense and carries the expense unchanged |
| Transactions.IncomeToTransaction | frontend/src/types/transaction.ts:29-32 | the transaction is of kind income and carries the income unchanged |
| Transactions.SortByDate | frontend/src/types/transaction.ts:35-37 | a permutation of the list, most recent first |
| Transactions.SortByDateSorted | frontend/src/types/transaction.ts:35-37 | a list already in date order comes back unchanged |
| Transactions.FilterTransactions | frontend/src/types/transaction.ts:40-46 | 'all' gives the list itself; a kind gives exactly the transactions of that kind, each as often as before |
| Transactions.FilterKeepsOrder | frontend/src/types/transaction.ts:44-45 | filtering a concatenation is concatenating the filtered parts |
| Transactions.FilterTransactionsIdempotent | frontend/src/types/transaction.ts:40-46 | filtering twice is filtering once |
| Transactions.FilterOwnKind | frontend/src/types/transaction.ts:44-45 | a list of one kind is unchanged by the filter for that kind |
| TransactionList.MonthCodeIsChoice | frontend/src/components/transaction/TransactionList.tsx:26-41 | each of the twelve months' padded codes is that month's value in the month select box |
| TransactionList.MonthCodeValue | frontend/src/components/transaction/TransactionList.tsx:39 | the code is two digits whose value is the one-based month, so months never share a code |
| TransactionList.Filtered | frontend/src/components/transaction/TransactionList.tsx:30-45 | exactly the transactions that pass the type, year and month filters, each as often as before, most recent first |
| TransactionList.NoFilterKeepsAll | frontend/src/components/transaction/TransactionList.tsx:30-45 | with every filter on 'all', the list is every transaction sorted |
| TransactionList.TotalPages | frontend/src/components/transaction/TransactionList.tsx:48 | the fewest pages of 20 that hold the list |
| TransactionList.Slice | frontend/src/components/transaction/TransactionList.tsx:51 | within bounds, `slice` is the subsequence between them |
| TransactionList.Page | frontend/src/components/transaction/TransactionList.tsx:49-51 | page p holds the items from (p-1)·20 on, at most 20 of them |
| TransactionList.PagesCoverList | frontend/src/components/transaction/TransactionList.tsx:48-51 | the pages in order show every item once, in the list's order |
| TransactionList.FirstPagesWindow | frontend/src/components/transaction/TransactionList.tsx:49-51 | the first k pages are the first 20·k items |
| TransactionList.PageNumbers | frontend/src/components/transaction/TransactionList.tsx:225-235 | at most five consecutive page numbers, all existing pages, including the current page when it exists |
| TransactionList.Previous | frontend/src/components/transaction/TransactionList.tsx:217 | one page back, never before the first |
| TransactionList.Next | frontend/src/components/transaction/TransactionList.tsx:254 | one page on, never past the last |
| TransactionList.ButtonsStayInRange | frontend/src/components/transaction/TransactionList.tsx:217-254 | the buttons keep the current page among the existing pages |
| TransactionList.TotalsOf | frontend/src/components/transaction/TransactionList.tsx:54-60 | the balance is the incomes' total minus the expenses' total |
| TransactionList.BalanceIsSignedSum | frontend/src/components/transaction/TransactionList.tsx:54-60 | the balance is the sum of the amounts, with incomes positive and expenses negative |
| ErrorHandler.ExtractErrorInfo | frontend/src/lib/errorHandler.ts:37-103 | no response means network; 401 means authentication; 400 and 422 mean validation with the server's detail or a default; 500 and up mean server; anything else is unknown. Network, authentication and server errors carry their fixed message and explanation; validation repeats a text detail as the explanation; other statuses show the detail, else the error's message, else a generic message; a value that is not an `Error` gets the "unknown error" message; the status is reported exactly when there was a response |
| ErrorHandler.MessagesNotEmpty | frontend/src/lib/errorHandler.ts:37-103 | every classification has a non-empty message, unless a plain error's own message is empty |
| ErrorHandler.HandleError | frontend/src/lib/errorHandler.ts:112-161 | a toast is shown exactly when not turned off and the session has not expired; it shows the custom message or the classified one |
| ErrorHandler.NoToastOnExpiredSession | frontend/src/lib/errorHandler.ts:146-158 | a 401 never produces a toast |
| ErrorHandler.HandleCrudError | frontend/src/lib/errorHandler.ts:166-181 | the toast names the operation and the entity, except on an expired session |
| ErrorHandler.CrudMessageInjective | frontend/src/lib/errorHandler.ts:166-181 | two CRUD messages are equal only for the same operation on the same entity |
| ErrorHandler.HandleSilentError | frontend/src/lib/errorHandler.ts:186-190 | classifies without a toast |
| ErrorHandler.IsErrorType | frontend/src/lib/errorHandler.ts:195-198 | true exactly when the silent classification has that kind |

## Left out

- Database sessions, transactions and commits: a repository call is one atomic step on an immutable table.
- SQL row order: `.first()` is taken as the first row in insertion order. The order of rows tied in an `ORDER BY`, and of transactions tied in the frontend's sort, is not stated by any contract; a NULL date sorts as the epoch.
- Concurrency between requests: every use case is a function from one state to the next.
- The clock, `uuid4` and `random.randint`: their values are parameters of the functions that use them.
- bcrypt and the signed-token library: they are the `Security` parameters, so nothing is proved about their internals.
- The SQL user repository, which raises instead of returning `None`, is not part of this model: the use cases are modelled against the `None`-returning interface they test for.
- The token service's `create_refresh_token` and the login route's creation of a session: the session table is a given state, which is why logout and the session table can disagree.
- UserCases.Rebuilt: the rebuilt user's phone number is `None`, as `_update_user_entity` passes none; this is modelled, not corrected.
- Type checks (`isinstance`) and enumeration members outside the listed ones: the datatypes admit only well-typed values.
- Upper- and lower-casing cover ASCII letters only; Python's Unicode case mapping is not modelled.
- Floating point: amounts are exact reals, so `0.1 + 0.2` rounding and NaN are not modelled.
- Time zones: timestamps are UTC seconds, and `ensure_utc` only fails on `None`. The frontend's `Date` readings are the `Calendar` parameters.
- Dateless incomes and expenses exist in the model only to reproduce `ensure_utc(None)` failing; the database column itself is not nullable.
- `strptime`, `float()` and `csv.DictReader` are the `CsvParser.Library` parameters. The model fixes what the parser does with their answers, not how they parse.
- Logging (`print`, `logger`, `console.error`) has no effect on any result and is left out.
- ImportCsv.Import: the income duplicate check reads incomes through the paginated listing, at most 100, as the source does. The same limit is the finding below; the import keeps the as-written behaviour.
- Forecast.CalculateForecast: reads the incomes through the corrected selection `Forecast.HistoricalIncomes`, every income of the user, and not through the 100-row page the service actually reads; the as-written selection is `Forecast.HistoricalIncomesAsWritten` and its consequence is the finding below.
- Forecast.GetForecast: inherits the corrected income selection from `Forecast.CalculateForecast`.
- RefreshTokenStore.GetByUserId and SessionStore.SessionsOf: the order the rows come back in is stated only through the sort key (newest first) for sessions, and not at all for refresh tokens, where it is table order.
- ImportCsv.Step: error messages are the `ImportError` datatype, not the formatted French strings.
- The transaction list's `availableYears`, React state, `useMemo` and the page reset when filters change: the model takes the current page and filters as inputs.
- The toast's duration and rendering: only its message and description are modelled.
- ErrorHandler.ExtractErrorInfo: a response `detail` is a string, absent, or a structured value such as the list of field errors, which is always truthy. Falsy JSON values other than the empty string (`0`, `false`, `null`) count as absent.
- PasswordReset.RequestReset: the SMS service is taken never to raise. A failing `send_sms` (request_password_reset.py:50 documents the exception) is not modelled; the code is then stored but the request would end in that exception.
- The abstract expense repository is given as the answers its calls return (`ExpenseCases.ExpenseRepo`); no SQL expense repository is modelled.

## Findings

| source | as written | input that shows it | evidently intended | confidence | as-written member | corrected member |
|---|---|---|---|---|---|---|
| backend/app/domain/services/forecast_service.py:99-106 | the historical incomes come from `get_all_by_user_id(user_id)`, which returns at most its default limit of 100 rows (income_repository.py:46-59) | a user with 101 incomes, all dated within the window: the forecast sees only 100 of them | every income of the user dated within the window, as for expenses, which are read without a limit | not executed | Forecast.HistoricalIncomesAsWritten (shown by Forecast.IncomeLimitDropsRows) | Forecast.HistoricalIncomes (used by Forecast.CalculateForecast) |

=== FILE: aggregation.dfy ===
/** Aggregation of dated amounts by calendar day, as the forecast's historical
    series: one point per day that has items, in ascending date order, carrying
    the sum of that day's amounts. */
module Aggregation {
  import opened Entities
  import opened Seqs

  /** What aggregation reads of an income or an expense. */
  datatype Item = Item(date: int, amount: real, isRecurring: bool)

  /** A point of a series: the start of a day (or a forecast instant) and an amount. */
  datatype DataPoint = DataPoint(date: int, amount: real)

  function ItemAmount(x: Item): real { x.amount }
  function PointAmount(p: DataPoint): real { p.amount }

  /** Midnight UTC of the day a timestamp falls on. */
  function DayStart(t: int): (d: int)
    ensures d <= t < d + Day && d % Day == 0
  {
    DayOf(t) * Day
  }

  /** The items dated on the day starting at `day`. */
  function OnDay(day: int): Item -> bool {
    (x: Item) => DayStart(x.date) == day
  }

  /** The sum of the amounts of the items dated on the day starting at `day`. */
  function DayTotal(items: seq<Item>, day: int): real {
    SumOf(Filter(items, OnDay(day)), ItemAmount)
  }

  /** Some point of `ps` is dated `e`. */
  predicate HasDate(ps: seq<DataPoint>, e: int) {
    ps != [] && (ps[0].date == e || HasDate(ps[1..], e))
  }

  lemma {:induction false} HasDateIndex(ps: seq<DataPoint>, e: int)
    ensures HasDate(ps, e) <==> exists i :: 0 <= i < |ps| && ps[i].date == e
    decreases |ps|
  {
    if ps != [] {
      HasDateIndex(ps[1..], e);
      if exists i :: 0 <= i < |ps| && ps[i].date == e {
        var i :| 0 <= i < |ps| && ps[i].date == e;
        if i > 0 { assert ps[1..][i - 1].date == e; }
      }
      if exists i :: 0 <= i < |ps[1..]| && ps[1..][i].date == e {
        var i :| 0 <= i < |ps[1..]| && ps[1..][i].date == e;
        assert ps[i + 1].date == e;
      }
    }
  }

  ghost predicate StrictlyAscending(ps: seq<DataPoint>) {
    forall i, j :: 0 <= i < j < |ps| ==> ps[i].date < ps[j].date
  }

  /** The amount of the point dated `e`, or 0 when there is none. */
  function AmountAt(ps: seq<DataPoint>, e: int): (r: real)
    ensures !HasDate(ps, e) ==> r == 0.0
  {
    if ps == [] then 0.0
    else if ps[0].date == e then ps[0].amount
    else AmountAt(ps[1..], e)
  }

  /** In an ascending series the amount at a point's date is that point's amount. */
  lemma {:induction false} AmountAtPoint(ps: seq<DataPoint>, i: nat)
    requires StrictlyAscending(ps) && i < |ps|
    ensures AmountAt(ps, ps[i].date) == ps[i].amount
    decreases |ps|
  {
    if i > 0 {
      assert ps[0].date < ps[i].date;
      AmountAtPoint(ps[1..], i - 1);
    }
  }

  /** In an ascending series no point before the first is dated earlier than it. */
  lemma {:induction false} NoEarlierDate(ps: seq<DataPoint>, e: int)
    requires StrictlyAscending(ps) && ps != [] && e < ps[0].date
    ensures !HasDate(ps, e)
  {
    HasDateIndex(ps, e);
    forall i | 0 < i < |ps| ensures ps[i].date != e {
      assert ps[0].date < ps[i].date;
    }
  }

  /** Adds `a` to the point dated `day`, creating it in its place when missing. */
  function AddPoint(ps: seq<DataPoint>, day: int, a: real): seq<DataPoint> {
    if ps == [] then [DataPoint(day, a)]
    else if ps[0].date == day then [DataPoint(day, ps[0].amount + a)] + ps[1..]
    else if ps[0].date > day then [DataPoint(day, a)] + ps
    else [ps[0]] + AddPoint(ps[1..], day, a)
  }

  /** The dates after adding are the old dates and `day`. */
  lemma {:induction false} AddPointDates(ps: seq<DataPoint>, day: int, a: real, e: int)
    ensures HasDate(AddPoint(ps, day, a), e) <==> HasDate(ps, e) || e == day
    decreases |ps|
  {
    var r := AddPoint(ps, day, a);
    if ps == [] {
    } else if ps[0].date == day {
      assert r[1..] == ps[1..];
    } else if ps[0].date > day {
      assert r[1..] == ps;
    } else {
      AddPointDates(ps[1..], day, a, e);
      assert r[1..] == AddPoint(ps[1..], day, a);
    }
  }

  /** Adding keeps a series ascending. */
  lemma {:induction false} AddPointAscending(ps: seq<DataPoint>, day: int, a: real)
    requires StrictlyAscending(ps)
    ensures StrictlyAscending(AddPoint(ps, day, a))
    decreases |ps|
  {
    if ps != [] && ps[0].date < day {
      var rest := AddPoint(ps[1..], day, a);
      AddPointAscending(ps[1..], day, a);
      var r := [ps[0]] + rest;
      forall j | 0 < j < |r| ensures r[0].date < r[j].date {
        assert rest[j - 1] == r[j];
        HasDateIndex(rest, r[j].date);
        AddPointDates(ps[1..], day, a, r[j].date);
        if r[j].date != day {
          HasDateIndex(ps[1..], r[j].date);
          var k :| 0 <= k < |ps[1..]| && ps[1..][k].date == r[j].date;
          assert ps[0].date < ps[k + 1].date;
        }
      }
    }
  }

  /** Adding raises the amount at `day` by `a` and no other. */
  lemma {:induction false} AddPointAmount(ps: seq<DataPoint>, day: int, a: real, e: int)
    requires StrictlyAscending(ps)
    ensures AmountAt(AddPoint(ps, day, a), e) == AmountAt(ps, e) + (if e == day then a else 0.0)
    decreases |ps|
  {
    var r := AddPoint(ps, day, a);
    if ps == [] {
    } else if ps[0].date == day {
      assert r[1..] == ps[1..];
    } else if ps[0].date > day {
      assert r[1..] == ps;
      if e == day {
        NoEarlierDate(ps, day);
      }
    } else {
      AddPointAmount(ps[1..], day, a, e);
      assert r[1..] == AddPoint(ps[1..], day, a);
    }
  }

  /** Adding raises the series total by `a`. */
  lemma {:induction false} AddPointTotal(ps: seq<DataPoint>, day: int, a: real)
    ensures SumOf(AddPoint(ps, day, a), PointAmount) == SumOf(ps, PointAmount) + a
    decreases |ps|
  {
    var r := AddPoint(ps, day, a);
    if ps == [] {
    } else if ps[0].date == day {
      assert r[1..] == ps[1..];
    } else if ps[0].date > day {
      assert r[1..] == ps;
    } else {
      AddPointTotal(ps[1..], day, a);
      assert r[1..] == AddPoint(ps[1..], day, a);
    }
  }

  /** `_aggregate_data`: the items summed per day, in ascending date order. */
  function Aggregate(items: seq<Item>): seq<DataPoint> {
    if items == [] then []
    else AddPoint(Aggregate(items[..|items| - 1]), DayStart(items[|items| - 1].date), items[|items| - 1].amount)
  }

  /** Some item falls on the day starting at `e`. */
  ghost predicate SomeItemOn(items: seq<Item>, e: int) {
    exists k :: 0 <= k < |items| && DayStart(items[k].date) == e
  }

  /** The aggregate is ascending, has a point exactly for the days that have
      items, carries each day's total, and sums to the items' total. */
  lemma {:induction false} AggregateSpec(items: seq<Item>)
    ensures StrictlyAscending(Aggregate(items))
    ensures forall e :: HasDate(Aggregate(items), e) <==> SomeItemOn(items, e)
    ensures forall e :: AmountAt(Aggregate(items), e) == DayTotal(items, e)
    ensures SumOf(Aggregate(items), PointAmount) == SumOf(items, ItemAmount)
    decreases |items|
  {
    if items != [] {
      var init := items[..|items| - 1];
      var last := items[|items| - 1];
      assert items == init + [last];
      AggregateSpec(init);
      var prev := Aggregate(init);
      var day := DayStart(last.date);
      AddPointAscending(prev, day, last.amount);
      forall e ensures HasDate(Aggregate(items), e) <==> SomeItemOn(items, e) {
        AddPointDates(prev, day, last.amount, e);
        if SomeItemOn(items, e) {
          var k :| 0 <= k < |items| && DayStart(items[k].date) == e;
          if k < |init| { assert init[k] == items[k]; }
        }
        if SomeItemOn(init, e) {
          var k :| 0 <= k < |init| && DayStart(init[k].date) == e;
          assert items[k] == init[k];
        }
      }
      forall e ensures AmountAt(Aggregate(items), e) == DayTotal(items, e) {
        AddPointAmount(prev, day, last.amount, e);
        DayTotalSnoc(init, last, e);
      }
      AddPointTotal(prev, day, last.amount);
      SumOfAppend(init, [last], ItemAmount);
    }
  }

  /** Appending an item adds its amount to its own day's total only. */
  lemma DayTotalSnoc(init: seq<Item>, last: Item, e: int)
    ensures DayTotal(init + [last], e) == DayTotal(init, e) + (if DayStart(last.date) == e then last.amount else 0.0)
  {
    FilterAppend(init, [last], OnDay(e));
    SumOfAppend(Filter(init, OnDay(e)), Filter([last], OnDay(e)), ItemAmount);
    assert Filter([last], OnDay(e)) == if DayStart(last.date) == e then [last] else [] by {
      assert [last][1..] == [];
    }
  }

  /** Each point of the aggregate is the start of a day that has items, and
      carries that day's total. */
  lemma AggregatePoints(items: seq<Item>, i: nat)
    requires i < |Aggregate(items)|
    ensures Aggregate(items)[i].amount == DayTotal(items, Aggregate(items)[i].date)
    ensures SomeItemOn(items, Aggregate(items)[i].date)
  {
    var r := Aggregate(items);
    AggregateSpec(items);
    AmountAtPoint(r, i);
    HasDateIndex(r, r[i].date);
  }
}

=== FILE: auth.dfy ===
/** The authentication use cases: registration, login, refreshing an access token,
    revoking one of a user's sessions, and logout. Each takes the tables it reads
    and returns the tables as they are afterwards with its answer or the exception
    it raises. The password hasher, the token minter, the fresh user id and the
    clock are parameters. */
module Auth {
  import opened Wrappers
  import opened Entities
  import opened Messages
  import opened Security
  import opened Seqs
  import opened EmailRules
  import Users = UserDirectory
  import Sessions = SessionStore
  import Tokens = RefreshTokenStore

  // ---------------------------------------------------------------------------
  // Registration

  /** The request body of a registration: field name to value. */
  type Form = map<string, string>

  /** The fields registration requires, in the order they are checked. */
  const RegistrationFields: seq<string> := ["first_name", "last_name", "email", "password"]

  /** A field is provided when it is present and non-empty. */
  predicate Provided(data: Form, field: string) {
    field in data && data[field] != ""
  }

  /** Every required field is provided. */
  predicate AllProvided(data: Form) {
    Provided(data, "first_name") && Provided(data, "last_name") && Provided(data, "email") && Provided(data, "password")
  }

  /** Registration creates users without a phone number. */
  function NewUser(data: Form, hasher: Hasher, id: string, now: int): (u: User)
    requires AllProvided(data)
    ensures u.id == id && u.email == data["email"] && u.phoneNumber.None?
    ensures u.firstName == data["first_name"] && u.lastName == data["last_name"]
    ensures hasher.Verify(data["password"], u.password)
    ensures u.createdAt == now && u.updatedAt == now
  {
    User(id, data["first_name"], data["last_name"], data["email"], None,
         hasher.hash(data["password"]), now, now)
  }

  datatype Registered = Registered(users: Users.Directory, result: Result<User, Raised>)

  /** `RegisterUser.execute`: the first missing field, then the email shape, then a
      taken email are refused in that order; otherwise the user is stored with
      the hashed password. */
  function Register(users: Users.Directory, data: Form, hasher: Hasher, freshId: string, now: int): (o: Registered)
    ensures o.result.Failure? ==> o.users == users
    ensures forall k :: 0 <= k < |RegistrationFields| ==>
      (o.result == Failure(ValueError(FieldRequired(RegistrationFields[k]))) <==>
        !Provided(data, RegistrationFields[k]) && forall j :: 0 <= j < k ==> Provided(data, RegistrationFields[j]))
    ensures o.result == Failure(ValueError(InvalidEmail)) <==>
      AllProvided(data) && !MatchesRegistrationPattern(data["email"])
    ensures o.result == Failure(ValueError(UserAlreadyExists)) <==>
      AllProvided(data) && MatchesRegistrationPattern(data["email"]) && Users.HasEmail(users, data["email"])
    ensures o.result.Success? <==>
      AllProvided(data) && MatchesRegistrationPattern(data["email"]) && !Users.HasEmail(users, data["email"])
      && !Users.HasId(users, freshId)
    ensures o.result.Success? ==> o.users == users + [o.result.value]
    ensures o.result.Success? ==> o.result.value == NewUser(data, hasher, freshId, now)
  {
    match FindFirst(RegistrationFields, (f: string) => !Provided(data, f))
    case Some(k) => Registered(users, Failure(ValueError(FieldRequired(RegistrationFields[k]))))
    case None =>
      assert AllProvided(data) by {
        assert RegistrationFields[0] == "first_name" && RegistrationFields[1] == "last_name";
        assert RegistrationFields[2] == "email" && RegistrationFields[3] == "password";
      }
      if !MatchesRegistrationPattern(data["email"]) then Registered(users, Failure(ValueError(InvalidEmail)))
      else if Users.GetByEmail(users, data["email"]).Some? then Registered(users, Failure(ValueError(UserAlreadyExists)))
      else
        var u := NewUser(data, hasher, freshId, now);
        match Users.Add(users, u)
        case Failure(e) => Registered(users, Failure(e))
        case Success(stored) => Registered(stored, Success(u))
  }

  /** A registered user can log in: the lookup by email finds them and their
      password verifies. */
  lemma RegisteredUserIsFound(users: Users.Directory, data: Form, hasher: Hasher, freshId: string, now: int)
    requires Users.Keys(users)
    requires Register(users, data, hasher, freshId, now).result.Success?
    ensures Users.Keys(Register(users, data, hasher, freshId, now).users)
    ensures Users.GetByEmail(Register(users, data, hasher, freshId, now).users, data["email"])
            == Some(Register(users, data, hasher, freshId, now).result.value)
    ensures hasher.Verify(data["password"], Register(users, data, hasher, freshId, now).result.value.password)
  {
    var o := Register(users, data, hasher, freshId, now);
    Users.GetByEmailUnique(o.users, |users|);
  }

  // ---------------------------------------------------------------------------
  // Login

  /** The `{"access_token", "refresh_token", "token_type"}` dictionary of a login. */
  datatype TokenPair = TokenPair(accessToken: string, refreshToken: string, tokenType: string)

  datatype LoggedIn = LoggedIn(tokens: Tokens.Store, result: Result<TokenPair, Raised>)

  /** `LoginUser.validate_credentials`: a user with this email exists and the
      password verifies against their stored hash. */
  predicate ValidCredentials(users: Users.Directory, hasher: Hasher, email: string, password: string) {
    Users.GetByEmail(users, email).Some? && hasher.Verify(password, Users.GetByEmail(users, email).value.password)
  }

  /** `LoginUser.execute`: refuses unknown emails and wrong passwords with the same
      message and stores nothing; otherwise mints an access token valid for thirty
      minutes and a refresh token for the user, and stores the refresh token
      unrevoked. */
  function Login(users: Users.Directory, tokens: Tokens.Store, hasher: Hasher, codec: TokenCodec,
                 email: string, password: string, now: int): (o: LoggedIn)
    ensures o.result.Failure? ==> o.tokens == tokens
    ensures o.result == Failure(ValueError(InvalidCredentials)) <==> !ValidCredentials(users, hasher, email, password)
    ensures o.result.Failure? ==> o.result.error == ValueError(InvalidCredentials) || o.result.error == IntegrityError
    ensures o.result.Success? ==> ValidCredentials(users, hasher, email, password)
    // Valid credentials succeed unless the minted refresh token is already stored.
    ensures o.result.Success? <==>
      ValidCredentials(users, hasher, email, password)
      && !Tokens.HasToken(tokens, codec.refresh(Users.GetByEmail(users, email).value.id, now))
    ensures o.result.Success? ==>
      var u := Users.GetByEmail(users, email).value;
      && o.result.value == TokenPair(codec.access(u.id, now + AccessTokenMinutes * Minute), codec.refresh(u.id, now), "Bearer")
      && o.tokens == tokens + [RefreshToken(o.result.value.refreshToken, u.id, now, false)]
  {
    if !ValidCredentials(users, hasher, email, password) then LoggedIn(tokens, Failure(ValueError(InvalidCredentials)))
    else
      var u := Users.GetByEmail(users, email).value;
      var access := codec.access(u.id, now + AccessTokenMinutes * Minute);
      var refresh := codec.refresh(u.id, now);
      match Tokens.Add(tokens, RefreshToken(refresh, u.id, now, false))
      case Failure(e) => LoggedIn(tokens, Failure(e))
      case Success(stored) => LoggedIn(stored, Success(TokenPair(access, refresh, "Bearer")))
  }

  /** A successful login leaves the returned refresh token valid in the table. */
  lemma LoginIssuesValidToken(users: Users.Directory, tokens: Tokens.Store, hasher: Hasher, codec: TokenCodec,
                              email: string, password: string, now: int)
    requires Tokens.Keys(tokens)
    requires Login(users, tokens, hasher, codec, email, password, now).result.Success?
    ensures Tokens.Keys(Login(users, tokens, hasher, codec, email, password, now).tokens)
    ensures Tokens.IsValid(Login(users, tokens, hasher, codec, email, password, now).tokens,
                           Login(users, tokens, hasher, codec, email, password, now).result.value.refreshToken)
  {
    var o := Login(users, tokens, hasher, codec, email, password, now);
    assert o.tokens[|tokens|].token == o.result.value.refreshToken;
  }

  /** Registering and then logging in with the same email and password succeeds,
      as long as the refresh token minted for the new user is not already stored,
      and the tokens are minted for the new user's id. */
  lemma RegisterThenLogin(users: Users.Directory, tokens: Tokens.Store, data: Form, hasher: Hasher,
                          codec: TokenCodec, freshId: string, registeredAt: int, now: int)
    requires Users.Keys(users)
    requires Register(users, data, hasher, freshId, registeredAt).result.Success?
    requires !Tokens.HasToken(tokens, codec.refresh(freshId, now))
    ensures var o := Login(Register(users, data, hasher, freshId, registeredAt).users, tokens, hasher, codec,
                           data["email"], data["password"], now);
      && o.result.Success?
      && o.result.value == TokenPair(codec.access(freshId, now + AccessTokenMinutes * Minute), codec.refresh(freshId, now), "Bearer")
  {
    RegisteredUserIsFound(users, data, hasher, freshId, registeredAt);
  }

  // ---------------------------------------------------------------------------
  // Refreshing an access token

  /** `RefreshToken.refresh_access_token`: the session holding the refresh token
      must exist and not be revoked (401), and its owner must exist (404); the
      answer is a fifteen-minute access token for that owner. Nothing is stored
      and the refresh token is not rotated. */
  function RefreshAccessToken(sessions: Sessions.Store, users: Users.Directory, codec: TokenCodec,
                              refreshToken: string, now: int): (r: Result<string, Raised>)
    ensures var s := Sessions.FindByRefreshToken(sessions, refreshToken);
      r == Failure(HttpError(401, SessionExpiredOrInvalid)) <==> s.None? || s.value.revoked
    ensures var s := Sessions.FindByRefreshToken(sessions, refreshToken);
      r == Failure(HttpError(404, OwnerNotFound)) <==> s.Some? && !s.value.revoked && !Users.HasId(users, s.value.userId)
    ensures var s := Sessions.FindByRefreshToken(sessions, refreshToken);
      r.Success? <==> s.Some? && !s.value.revoked && Users.HasId(users, s.value.userId)
    ensures r.Success? ==>
      var s := Sessions.FindByRefreshToken(sessions, refreshToken);
      r.value == codec.access(s.value.userId, now + RefreshedAccessTokenMinutes * Minute)
  {
    match Sessions.FindByRefreshToken(sessions, refreshToken)
    case None => Failure(HttpError(401, SessionExpiredOrInvalid))
    case Some(s) =>
      if s.revoked then Failure(HttpError(401, SessionExpiredOrInvalid))
      else
        match Users.GetById(users, s.userId)
        case None => Failure(HttpError(404, OwnerNotFound))
        case Some(u) => Success(codec.access(u.id, now + RefreshedAccessTokenMinutes * Minute))
  }

  // ---------------------------------------------------------------------------
  // Revoking a session

  /** `RevokeUserSession.execute`: a missing session or one owned by someone else
      is 404, an already revoked one is 400; otherwise exactly that session is
      revoked. */
  function RevokeUserSession(sessions: Sessions.Store, sessionId: string, userId: string): (r: Result<Sessions.Store, Raised>)
    ensures var s := Sessions.FindById(sessions, sessionId);
      r == Failure(HttpError(404, SessionNotFound)) <==> s.None? || s.value.userId != userId
    ensures var s := Sessions.FindById(sessions, sessionId);
      r == Failure(HttpError(400, SessionAlreadyRevoked)) <==> s.Some? && s.value.userId == userId && s.value.revoked
    ensures var s := Sessions.FindById(sessions, sessionId);
      r.Success? <==> s.Some? && s.value.userId == userId && !s.value.revoked
    ensures r.Success? ==>
      exists i :: Sessions.RevokedAt(sessions, r.value, i) && sessions[i].id == sessionId && sessions[i].userId == userId
    ensures r.Success? ==> Sessions.NeverUnrevokes(sessions, r.value)
  {
    match Sessions.FindById(sessions, sessionId)
    case None => Failure(HttpError(404, SessionNotFound))
    case Some(s) =>
      if s.userId != userId then Failure(HttpError(404, SessionNotFound))
      else if s.revoked then Failure(HttpError(400, SessionAlreadyRevoked))
      else
        match Sessions.RevokeById(sessions, sessionId, userId)
        case Success(revoked) => Success(revoked)
        case Failure(_) =>
          assert false;
          Failure(HttpError(404, SessionNotFound))
  }

  /** Revoking the same session twice: the second attempt is refused with 400. */
  lemma RevokeTwiceRefused(sessions: Sessions.Store, sessionId: string, userId: string)
    requires Sessions.Keys(sessions)
    requires RevokeUserSession(sessions, sessionId, userId).Success?
    ensures RevokeUserSession(RevokeUserSession(sessions, sessionId, userId).value, sessionId, userId)
            == Failure(HttpError(400, SessionAlreadyRevoked))
  {
    var r := RevokeUserSession(sessions, sessionId, userId).value;
    var i :| Sessions.RevokedAt(sessions, r, i) && sessions[i].id == sessionId && sessions[i].userId == userId;
    Sessions.RevokedAtKeepsKeys(sessions, r, i);
    Sessions.FindsUnique(r, i);
  }

  /** A revoked session can no longer refresh an access token. */
  lemma RevokedSessionCannotRefresh(sessions: Sessions.Store, sessionId: string, userId: string,
                                    users: Users.Directory, codec: TokenCodec, now: int)
    requires Sessions.Keys(sessions)
    requires RevokeUserSession(sessions, sessionId, userId).Success?
    ensures Sessions.FindById(sessions, sessionId).Some?
    ensures RefreshAccessToken(RevokeUserSession(sessions, sessionId, userId).value, users, codec,
                               Sessions.FindById(sessions, sessionId).value.refreshToken, now)
            == Failure(HttpError(401, SessionExpiredOrInvalid))
  {
    var r := RevokeUserSession(sessions, sessionId, userId).value;
    var i :| Sessions.RevokedAt(sessions, r, i) && sessions[i].id == sessionId && sessions[i].userId == userId;
    Sessions.FindsUnique(sessions, i);
    Sessions.RevokedAtKeepsKeys(sessions, r, i);
    Sessions.FindsUnique(r, i);
  }

  // ---------------------------------------------------------------------------
  // Logout

  const LoggedOut := "Déconnexion réussie"

  /** The logout route: revokes the refresh token in the token table and answers
      with a confirmation; the session table is not touched. */
  function Logout(tokens: Tokens.Store, refreshToken: string): (r: (Tokens.Store, string))
    ensures r.1 == LoggedOut
    ensures !Tokens.IsValid(r.0, refreshToken) <== Tokens.Keys(tokens)
    ensures |r.0| == |tokens|
    // Only one row carrying the token changes, and only its revoked flag.
    ensures !Tokens.HasToken(tokens, refreshToken) ==> r.0 == tokens
    ensures Tokens.HasToken(tokens, refreshToken) ==>
      exists i :: 0 <= i < |tokens| && tokens[i].token == refreshToken
        && forall k :: 0 <= k < |tokens| ==> r.0[k] == if k == i then tokens[k].(revoked := true) else tokens[k]
  {
    var revoked := Tokens.Revoke(tokens, refreshToken);
    assert Tokens.Keys(tokens) ==> !Tokens.IsValid(revoked, refreshToken) by {
      if Tokens.Keys(tokens) && Tokens.HasToken(tokens, refreshToken) {
        Tokens.RevokeKills(tokens, refreshToken);
      }
    }
    (revoked, LoggedOut)
  }

  /** Logout does not end the session: after a login's refresh token is revoked by
      logout, the token is dead in the token table, yet refreshing with it still
      succeeds as long as its session is unrevoked and its owner exists. */
  lemma LogoutDoesNotEndSession(tokens: Tokens.Store, sessions: Sessions.Store, users: Users.Directory,
                                codec: TokenCodec, i: nat, now: int)
    requires Tokens.Keys(tokens) && Sessions.Keys(sessions)
    requires i < |sessions| && !sessions[i].revoked && Users.HasId(users, sessions[i].userId)
    requires Tokens.HasToken(tokens, sessions[i].refreshToken)
    ensures Tokens.Dead(Logout(tokens, sessions[i].refreshToken).0, sessions[i].refreshToken)
    ensures RefreshAccessToken(sessions, users, codec, sessions[i].refreshToken, now).Success?
  {
    Tokens.RevokeKills(tokens, sessions[i].refreshToken);
    Sessions.FindsUnique(sessions, i);
  }
}

=== FILE: csv_parser.dfy ===
/** The bank-statement parser: a semicolon-separated export, one transaction
    per row, with French number formatting. Splitting the text into rows, and
    reading dates and numbers, are library calls and come in as a `Library`;
    everything the parser decides itself is modelled here. */
module CsvParser {
  import opened Wrappers
  import opened Entities
  import opened Text
  import opened ImportResult
  import opened Seqs

  /** A row as the dictionary reader yields it: every header key is present;
      a value is `None` when the row has fewer cells than the header. */
  type Row = map<string, Option<string>>

  /** The library calls the parser makes: reading the rows (which fails on
      malformed input), `datetime.strptime(_, '%Y-%m-%d')` and `float`. */
  datatype Library = Library(
    readRows: string -> Option<seq<Row>>,
    parseDate: string -> Option<int>,
    parseFloat: string -> Option<real>)

  /** `row.get(key, default)`. */
  function Get(row: Row, key: string, default: Option<string>): Option<string> {
    if key in row then row[key] else default
  }

  // ---------------------------------------------------------------------------
  // Tables

  const RecurringKeywords: seq<string> := ["PRLV SEPA", "PRLV", "PRELEVEMENT", "ABONNEMENT", "VIR SEPA", "VIR INST"]

  /** The bank's categories and the application's names for them. */
  const CategoryMapping: map<string, string> := map[
    "Alimentation" := "Alimentation",
    "Restaurants, bars, discothèques…" := "Restaurants",
    "Transports quotidiens (métro, bus…)" := "Transport",
    "Carburant" := "Carburant",
    "Téléphonie (fixe et mobile)" := "Téléphonie",
    "Multimedia à domicile (TV, internet, téléphonie…)" := "Abonnements",
    "Crédit conso" := "Crédit",
    "Complémentaires santé" := "Santé",
    "Assurances (Auto/Moto)" := "Assurance",
    "Divertissement - culture (ciné, théâtre, concerts…)" := "Loisirs",
    "Electronique et informatique" := "Electronique",
    "Bricolage et jardinage" := "Bricolage",
    "Club / association (sport, hobby, art…)" := "Sport",
    "Etudes (formation, fournitures, cantines…)" := "Education",
    "Frais bancaires et de gestion (dont agios)" := "Frais bancaires",
    "Livres, CD/DVD, bijoux, jouets…" := "Shopping",
    "Mobilier, électroménager, décoration…" := "Equipement maison",
    "Dépenses Jeux et paris" := "Jeux",
    "Epargne financière (retraite, prévoyance, PEA, assurance-vie…)" := "Epargne",
    "Vie Quotidienne - Autres" := "Autres",
    "Non catégorisé" := "Autres"
  ]

  const DefaultCategory: string := "Autres"

  /** `CATEGORY_MAPPING.get(raw, raw or "Autres")`. */
  function Category(raw: string): (r: string)
    ensures raw in CategoryMapping ==> r == CategoryMapping[raw]
    ensures raw !in CategoryMapping && raw != "" ==> r == raw
    ensures raw == "" ==> r == DefaultCategory
    ensures r != ""
  {
    if raw in CategoryMapping then CategoryMapping[raw]
    else if raw == "" then DefaultCategory
    else raw
  }

  /** `_is_recurring`: the upper-cased description contains a keyword. */
  function IsRecurringDescription(description: string): (r: bool)
    ensures r <==> exists k :: 0 <= k < |RecurringKeywords| && Contains(ToUpper(description), RecurringKeywords[k])
  {
    ContainsAny(ToUpper(description), RecurringKeywords)
  }

  // ---------------------------------------------------------------------------
  // Amounts

  /** The amount text as the parser rewrites it: spaces and double quotes
      removed, then the decimal comma turned into a point. */
  function NormaliseAmount(s: string): (r: string)
    ensures ' ' !in r && '"' !in r && ',' !in r
  {
    var unquoted := RemoveChar(RemoveChar(s, ' '), '"');
    assert multiset(RemoveChar(s, ' '))[' '] == 0;
    assert multiset(unquoted)[' '] == 0;
    ReplaceCharKeepsAbsent(unquoted, ',', '.', ' ');
    ReplaceCharKeepsAbsent(unquoted, ',', '.', '"');
    ReplaceChar(unquoted, ',', '.')
  }

  /** Replacing `a` by `b` brings in no character other than `b`. */
  lemma ReplaceCharKeepsAbsent(s: string, a: char, b: char, c: char)
    requires c !in s && c != b
    ensures c !in ReplaceChar(s, a, b)
  {
    var r := ReplaceChar(s, a, b);
    forall i | 0 <= i < |r| ensures r[i] != c {
      assert s[i] in s;
    }
  }

  /** The same rewriting, one character at a time. */
  function NormaliseChars(s: string): string {
    if s == [] then []
    else (if s[0] == ' ' || s[0] == '"' then [] else [if s[0] == ',' then '.' else s[0]]) + NormaliseChars(s[1..])
  }

  lemma {:induction false} RemoveCharAppend(a: string, b: string, c: char)
    ensures RemoveChar(a + b, c) == RemoveChar(a, c) + RemoveChar(b, c)
    decreases |a|
  {
    if a != [] {
      assert (a + b)[1..] == a[1..] + b;
      RemoveCharAppend(a[1..], b, c);
    } else {
      assert a + b == b;
    }
  }

  lemma ReplaceCharAppend(a: string, b: string, x: char, y: char)
    ensures ReplaceChar(a + b, x, y) == ReplaceChar(a, x, y) + ReplaceChar(b, x, y)
  {
  }

  /** Rewriting a concatenation rewrites each part. */
  lemma NormaliseAmountAppend(a: string, b: string)
    ensures NormaliseAmount(a + b) == NormaliseAmount(a) + NormaliseAmount(b)
  {
    RemoveCharAppend(a, b, ' ');
    RemoveCharAppend(RemoveChar(a, ' '), RemoveChar(b, ' '), '"');
    ReplaceCharAppend(RemoveChar(RemoveChar(a, ' '), '"'), RemoveChar(RemoveChar(b, ' '), '"'), ',', '.');
  }

  lemma NormaliseOne(x: char)
    ensures NormaliseAmount([x]) == if x == ' ' || x == '"' then [] else [if x == ',' then '.' else x]
  {
    assert [x][1..] == [];
  }

  /** The three passes agree with the one-character reading: every space and
      quote goes, every comma becomes a point, everything else stays in order. */
  lemma {:induction false} NormaliseAmountByCharacter(s: string)
    ensures NormaliseAmount(s) == NormaliseChars(s)
    decreases |s|
  {
    if s != [] {
      assert s == [s[0]] + s[1..];
      NormaliseAmountAppend([s[0]], s[1..]);
      NormaliseOne(s[0]);
      NormaliseAmountByCharacter(s[1..]);
    }
  }

  /** Rewriting twice is rewriting once. */
  lemma NormaliseAmountIdempotent(s: string)
    ensures NormaliseAmount(NormaliseAmount(s)) == NormaliseAmount(s)
  {
    var r := NormaliseAmount(s);
    NormaliseAmountByCharacter(r);
    NoRewriteNeeded(r);
  }

  lemma {:induction false} NoRewriteNeeded(s: string)
    requires ' ' !in s && '"' !in s && ',' !in s
    ensures NormaliseChars(s) == s
    decreases |s|
  {
    if s != [] {
      var tail := s[1..];
      assert s[0] in s;
      assert ' ' !in tail && '"' !in tail && ',' !in tail by {
        assert forall k :: 0 <= k < |tail| ==> tail[k] == s[k + 1];
      }
      NoRewriteNeeded(tail);
      assert NormaliseChars(s) == [s[0]] + NormaliseChars(tail);
      assert s == [s[0]] + tail;
    }
  }

  // ---------------------------------------------------------------------------
  // Rows

  /** The row has a non-empty operation date and amount; other rows are skipped. */
  predicate HasDateAndAmount(row: Row) {
    Truthy(Get(row, "dateOp", None)) && Truthy(Get(row, "amount", None))
  }

  /** `row.get('dateVal') or row.get('dateOp')`. */
  function DateText(row: Row): (r: Option<string>)
    ensures Truthy(Get(row, "dateVal", None)) ==> r == Get(row, "dateVal", None)
    ensures !Truthy(Get(row, "dateVal", None)) ==> r == Get(row, "dateOp", None)
  {
    var dateVal := Get(row, "dateVal", None);
    if Truthy(dateVal) then dateVal else Get(row, "dateOp", None)
  }

  /** The amount as `float` reads the rewritten text, when it can. */
  function ParsedAmount(row: Row, lib: Library): Option<real> {
    match Get(row, "amount", Some("0"))
    case None => None
    case Some(text) => lib.parseFloat(NormaliseAmount(text))
  }

  /** A text field with its surrounding quotes removed; a missing cell is
      `None`, whose `strip` raises. */
  function Cell(row: Row, key: string): Option<string> {
    match Get(row, key, Some(""))
    case None => None
    case Some(text) => Some(StripQuotes(text))
  }

  /** `_parse_row`, with `None` where it raises. */
  function ParseRow(row: Row, lib: Library): (r: Option<ImportedTransaction>)
    ensures r.Some? <==>
      && DateText(row).Some? && lib.parseDate(DateText(row).value).Some?
      && ParsedAmount(row, lib).Some?
      && Cell(row, "label").Some? && Cell(row, "category").Some? && Cell(row, "categoryParent").Some?
      && Cell(row, "supplierFound").Some? && Cell(row, "accountLabel").Some?
    ensures r.Some? ==> r.value.date == lib.parseDate(DateText(row).value).value
    ensures r.Some? ==> (r.value.isExpense <==> ParsedAmount(row, lib).value < 0.0)
    ensures r.Some? ==> r.value.amount >= 0.0
    ensures r.Some? ==> (r.value.amount == ParsedAmount(row, lib).value || r.value.amount == -ParsedAmount(row, lib).value)
    ensures r.Some? ==> r.value.description == Cell(row, "label").value
    ensures r.Some? ==> r.value.category == Category(Cell(row, "category").value)
    ensures r.Some? ==> r.value.isRecurring == IsRecurringDescription(r.value.description)
  {
    var dateText := DateText(row);
    var amount := ParsedAmount(row, lib);
    var labelCell := Cell(row, "label");
    var category := Cell(row, "category");
    var parent := Cell(row, "categoryParent");
    var supplier := Cell(row, "supplierFound");
    var account := Cell(row, "accountLabel");
    if dateText.None? || lib.parseDate(dateText.value).None? || amount.None? || labelCell.None? || category.None?
       || parent.None? || supplier.None? || account.None? then None
    else
      var a := amount.value;
      Some(ImportedTransaction(
        lib.parseDate(dateText.value).value,
        labelCell.value,
        if a < 0.0 then -a else a,
        Category(category.value),
        parent.value,
        supplier.value,
        a < 0.0,
        IsRecurringDescription(labelCell.value),
        account.value))
  }

  /** The row's transaction, when the row has a date and an amount and
      parsing it does not raise. */
  function Kept(row: Row, lib: Library): Option<ImportedTransaction> {
    if HasDateAndAmount(row) then ParseRow(row, lib) else None
  }

  /** The loop over rows: rows without a date or an amount are skipped, and so
      are rows whose parsing raises; the others are kept in order. */
  function ParseRows(rows: seq<Row>, lib: Library): (r: seq<ImportedTransaction>)
    ensures |r| <= |rows|
  {
    Collect(rows, (row: Row) => Kept(row, lib))
  }

  /** A transaction is in the result exactly when some row yields it. */
  lemma ParseRowsMembership(rows: seq<Row>, lib: Library, t: ImportedTransaction)
    ensures t in ParseRows(rows, lib) <==> exists k :: 0 <= k < |rows| && Kept(rows[k], lib) == Some(t)
  {
    CollectMembership(rows, (row: Row) => Kept(row, lib), t);
  }

  /** One row gives its transaction when it is kept, and nothing otherwise. */
  lemma ParseOneRow(row: Row, lib: Library)
    ensures ParseRows([row], lib) == if Kept(row, lib).Some? then [Kept(row, lib).value] else []
  {
    assert [row][1..] == [];
  }

  /** The transactions of consecutive blocks of rows are those of each block,
      in order: one transaction per kept row, in row order, duplicates included. */
  lemma ParseRowsAppend(a: seq<Row>, b: seq<Row>, lib: Library)
    ensures ParseRows(a + b, lib) == ParseRows(a, lib) + ParseRows(b, lib)
  {
    CollectAppend(a, b, (row: Row) => Kept(row, lib));
  }

  const Bom: char := '\U{FEFF}'

  /** Removes one leading byte-order mark. */
  function StripBom(content: string): string {
    if |content| > 0 && content[0] == Bom then content[1..] else content
  }

  /** `parse`: the transactions of the statement, or `None` when reading the
      rows raises. */
  function Parse(content: string, lib: Library): (r: Option<seq<ImportedTransaction>>)
    ensures r.None? <==> lib.readRows(StripBom(content)).None?
    ensures r.Some? ==> forall t :: t in r.value ==> t.amount >= 0.0 && t.category != ""
    // The transactions are those the rows yield.
    ensures r.Some? ==> forall t :: t in r.value <==>
      exists k :: 0 <= k < |lib.readRows(StripBom(content)).value| && Kept(lib.readRows(StripBom(content)).value[k], lib) == Some(t)
  {
    match lib.readRows(StripBom(content))
    case None => None
    case Some(rows) =>
      var ts := ParseRows(rows, lib);
      assert forall t :: t in ts <==> exists k :: 0 <= k < |rows| && Kept(rows[k], lib) == Some(t) by {
        forall t ensures t in ts <==> exists k :: 0 <= k < |rows| && Kept(rows[k], lib) == Some(t) {
          ParseRowsMembership(rows, lib, t);
        }
      }
      Some(ts)
  }

  /** A leading byte-order mark makes no difference to the result. */
  lemma BomIgnored(content: string, lib: Library)
    requires !(|content| > 0 && content[0] == Bom)
    ensures Parse([Bom] + content, lib) == Parse(content, lib)
  {
    assert ([Bom] + content)[1..] == content;
  }
}

=== FILE: email_rules.dfy ===
/** The two email checks of the backend, as decision procedures proved equal to
    the regular expressions they stand for.

    Registration uses `re.match(r"[^@]+@[^@]+\.[^@]+", email)`: some PREFIX of the
    address must have the shape "name@domain.x" where no part contains '@'.

    Profile update uses `re.match(r"^[a-zA-Z0-9._%+-]+@[a-zA-Z0-9.-]+\.[a-zA-Z]{2,}$", email)`:
    the whole address must have the shape "local@domain.tld" with restricted
    alphabets and a top-level domain of at least two letters. Python's `$` also
    matches just before a final newline, so an address followed by one "\n" passes. */
module EmailRules {
  import opened Wrappers
  import opened Text
  import opened Seqs

  // ---------------------------------------------------------------------------
  // The registration pattern  [^@]+@[^@]+\.[^@]+  matched at the start.

  /** Positions `at` and `dot` split a prefix of `s` as the registration pattern
      requires: a non-empty run without '@', the '@' at `at`, a non-empty run
      without '@', the '.' at `dot`, and one more character that is not '@'. */
  ghost predicate LooseSplit(s: string, at: int, dot: int) {
    && 0 < at && at + 1 < dot && dot + 1 < |s|
    && s[at] == '@' && s[dot] == '.' && s[dot + 1] != '@'
    && (forall k :: 0 <= k < at ==> s[k] != '@')
    && (forall k :: at < k < dot ==> s[k] != '@')
  }

  /** A '.' at `dot`, at or after `from`, followed by a character that is not '@',
      with no '@' from `from` up to the dot. */
  ghost predicate DotAfter(s: string, from: int, dot: int) {
    && 0 <= from <= dot && dot + 1 < |s| && s[dot] == '.' && s[dot + 1] != '@'
    && forall k :: from <= k < dot ==> s[k] != '@'
  }

  /** The first dot `DotAfter` accepts, if any. */
  function FindDot(s: string, from: nat): (r: Option<nat>)
    ensures r.Some? ==> DotAfter(s, from, r.value)
    ensures r.None? ==> forall dot :: !DotAfter(s, from, dot)
    decreases |s| - from
  {
    if from + 1 >= |s| then None
    else if s[from] == '@' then None
    else if s[from] == '.' && s[from + 1] != '@' then Some(from)
    else
      var r := FindDot(s, from + 1);
      assert forall dot :: DotAfter(s, from, dot) ==> DotAfter(s, from + 1, dot);
      r
  }

  /** `re.match(r"[^@]+@[^@]+\.[^@]+", email) is not None`. */
  function MatchesRegistrationPattern(s: string): (r: bool)
    ensures r <==> exists at, dot :: LooseSplit(s, at, dot)
  {
    match FindFirst(s, (c: char) => c == '@')
    case None =>
      assert forall at, dot :: !LooseSplit(s, at, dot) by {
        forall at, dot | LooseSplit(s, at, dot) ensures false {
        }
      }
      false
    case Some(at) =>
      if at > 0 && at + 1 < |s| && s[at + 1] != '@' then
        match FindDot(s, at + 2)
        case Some(dot) =>
          assert LooseSplit(s, at, dot);
          true
        case None =>
          assert forall a, d :: !LooseSplit(s, a, d) by {
            forall a, d | LooseSplit(s, a, d) ensures false {
              // Any split's '@' is the first one, because nothing before it is '@'.
              assert a == at;
              assert DotAfter(s, at + 2, d);
            }
          }
          false
      else
        assert forall a, d :: !LooseSplit(s, a, d) by {
          forall a, d | LooseSplit(s, a, d) ensures false {
          }
        }
        false
  }

  // ---------------------------------------------------------------------------
  // The profile-update pattern  ^[a-zA-Z0-9._%+-]+@[a-zA-Z0-9.-]+\.[a-zA-Z]{2,}$

  predicate IsLocalChar(c: char) {
    IsAsciiLetter(c) || IsAsciiDigit(c) || c == '.' || c == '_' || c == '%' || c == '+' || c == '-'
  }

  predicate IsDomainChar(c: char) {
    IsAsciiLetter(c) || IsAsciiDigit(c) || c == '.' || c == '-'
  }

  /** Positions `at` and `dot` split all of `s` as the update pattern requires. */
  ghost predicate StrictSplit(s: string, at: int, dot: int) {
    && 0 < at && at + 1 < dot && dot + 2 < |s|
    && s[at] == '@' && s[dot] == '.'
    && (forall k :: 0 <= k < at ==> IsLocalChar(s[k]))
    && (forall k :: at < k < dot ==> IsDomainChar(s[k]))
    && (forall k :: dot < k < |s| ==> IsAsciiLetter(s[k]))
  }

  /** The whole of `s` matches the update pattern, without the trailing-newline allowance. */
  ghost predicate MatchesStrictly(s: string) {
    exists at, dot :: StrictSplit(s, at, dot)
  }

  /** Index of the last '.' of `s`. */
  function LastDot(s: string): (r: Option<nat>)
    ensures r.Some? ==> r.value < |s| && s[r.value] == '.'
    ensures r.Some? ==> forall k :: r.value < k < |s| ==> s[k] != '.'
    ensures r.None? <==> forall k :: 0 <= k < |s| ==> s[k] != '.'
  {
    if s == [] then None
    else if s[|s| - 1] == '.' then Some(|s| - 1)
    else LastDot(s[..|s| - 1])
  }

  predicate AllIn(s: string, lo: nat, hi: nat, p: char -> bool)
    requires lo <= hi <= |s|
  {
    forall k :: lo <= k < hi ==> p(s[k])
  }

  /** Decides `MatchesStrictly`: the '@' must be the first one (no local character
      is '@') and the '.' the last one (no letter is '.'). */
  function MatchesUpdatePatternExactly(s: string): (r: bool)
    ensures r <==> MatchesStrictly(s)
  {
    var firstAt := FindFirst(s, (c: char) => c == '@');
    var lastDot := LastDot(s);
    if firstAt.None? || lastDot.None? then
      assert !MatchesStrictly(s) by {
        forall at, dot | StrictSplit(s, at, dot) ensures false {
        }
      }
      false
    else
      var at := firstAt.value;
      var dot := lastDot.value;
      var r := 0 < at && at + 1 < dot && dot + 2 < |s|
        && AllIn(s, 0, at, IsLocalChar) && AllIn(s, at + 1, dot, IsDomainChar)
        && AllIn(s, dot + 1, |s|, IsAsciiLetter);
      assert r <==> MatchesStrictly(s) by {
        if r {
          assert StrictSplit(s, at, dot);
        } else {
          forall a, d | StrictSplit(s, a, d) ensures false {
          }
        }
      }
      r
  }

  /** `re.match(email_regex, email) is not None` for the update pattern: the
      address matches, or it is a matching address followed by one newline. */
  function IsValidEmail(s: string): (r: bool)
    ensures r <==> MatchesStrictly(s) || (|s| > 0 && s[|s| - 1] == '\n' && MatchesStrictly(s[..|s| - 1]))
  {
    MatchesUpdatePatternExactly(s)
      || (|s| > 0 && s[|s| - 1] == '\n' && MatchesUpdatePatternExactly(s[..|s| - 1]))
  }

  /** The update check sees stripped input, on which the newline allowance never applies. */
  lemma IsValidEmailOnStripped(x: string)
    ensures IsValidEmail(Strip(x)) <==> MatchesStrictly(Strip(x))
  {
    var s := Strip(x);
    if |s| > 0 {
      assert IsPyWhitespace('\n');
      assert s[|s| - 1] != '\n';
    }
  }

  /** Every address the profile update accepts, registration accepts too. */
  lemma StrictImpliesLoose(s: string)
    requires MatchesStrictly(s)
    ensures MatchesRegistrationPattern(s)
  {
    var at, dot :| StrictSplit(s, at, dot);
    assert LooseSplit(s, at, dot);
  }

  /** The converse fails: registration accepts a space, which the profile update rejects. */
  lemma LooseDoesNotImplyStrict()
    ensures MatchesRegistrationPattern("a b@c.d")
    ensures !MatchesUpdatePatternExactly("a b@c.d")
  {
    assert LooseSplit("a b@c.d", 3, 5);
  }
}

=== FILE: entities.dfy ===
/** The records the backend stores: users, password-reset codes, sessions, refresh
    tokens, incomes and expenses, with their enumerations. Timestamps are whole
    seconds since the Unix epoch in UTC; amounts are exact reals. */
module Entities {
  import opened Wrappers
  import opened Messages

  /** Seconds in a minute and in a day. */
  const Minute: int := 60
  const Day: int := 86400

  /** A registered user. `phoneNumber` is optional: only users with a phone
      number can receive a reset code. */
  datatype User = User(
    id: string,
    firstName: string,
    lastName: string,
    email: string,
    phoneNumber: Option<string>,
    password: string,
    createdAt: int,
    updatedAt: int)

  /** A one-time password-reset code sent by SMS. */
  datatype PasswordResetCode = PasswordResetCode(
    id: string,
    userId: string,
    code: string,
    expiresAt: int,
    createdAt: int,
    used: bool)

  /** One login of a user on one device. */
  datatype Session = Session(
    id: string,
    userId: string,
    refreshToken: string,
    userAgent: string,
    ipAddress: string,
    createdAt: int,
    revoked: bool)

  /** A refresh token issued at login. */
  datatype RefreshToken = RefreshToken(
    token: string,
    userId: string,
    createdAt: int,
    revoked: bool)

  datatype IncomeCategory =
    | Salary | Freelance | Investment | Rental | Business
    | Bonus | Commission | Royalties | Pension | OtherIncome

  datatype ExpenseCategory =
    | Food | Transport | Entertainment | Shopping | Health
    | Housing | Utilities | Insurance | Subscriptions | OtherExpense

  /** The members shared by the income and the expense frequency enumerations. */
  datatype Frequency = Weekly | Monthly | Yearly | OneTime

  /** An income. `date` is `None` only when a caller passes Python's `None`: a
      datetime object is always truthy. */
  datatype Income = Income(
    id: string,
    userId: string,
    name: string,
    amount: real,
    date: Option<int>,
    createdAt: int,
    updatedAt: int,
    category: Option<IncomeCategory>,
    description: Option<string>,
    isRecurring: bool,
    frequency: Option<Frequency>)

  /** An expense, with the same shape as an income. */
  datatype Expense = Expense(
    id: string,
    userId: string,
    name: string,
    amount: real,
    date: Option<int>,
    createdAt: int,
    updatedAt: int,
    category: Option<ExpenseCategory>,
    description: Option<string>,
    isRecurring: bool,
    frequency: Option<Frequency>)

  /** Python truthiness of an optional string: present and non-empty. */
  predicate Truthy(s: Option<string>) {
    s.Some? && s.value != ""
  }

  /** The calendar day (days since the epoch) a timestamp falls on. */
  function DayOf(t: int): int {
    t / Day
  }

  /** The exceptions the backend raises: `ValueError` with its message, a
      database constraint violation (a duplicate primary or unique key), an
      `HTTPException` with its status code and detail, or the `AttributeError` of
      reading a field of a lookup that found nothing. */
  datatype Raised =
    | ValueError(message: Message)
    | IntegrityError
    | HttpError(status: int, detail: Message)
    | AttributeOfNone
}

=== FILE: error_handler.dfy ===
/** The browser's error handling: what is thrown is classified into one of
    five kinds with a user-facing message, and a notification ("toast") is
    shown unless the caller turns it off or the user's session has expired
    (the redirection to the login page says enough then). */
module ErrorHandler {
  import opened Wrappers

  datatype ErrorType = Network | Authentication | Validation | ServerError | Unknown

  /** The `detail` field of an error response: a string, or some other JSON
      value (the list of field errors a validation failure carries). Only the
      empty string is falsy. */
  datatype Detail = TextDetail(text: string) | StructuredDetail

  predicate TruthyDetail(d: Option<Detail>) {
    d.Some? && d.value != TextDetail("")
  }

  datatype Response = Response(status: int, detail: Option<Detail>)

  /** What reaches the handler: an Axios error (with the server's response
      when there was one), any other `Error`, or some other value. */
  datatype Thrown =
    | AxiosError(response: Option<Response>, message: string)
    | PlainError(message: string)
    | OtherValue

  /** What a message can be: a text, or the non-string detail passed through
      unchanged. */
  datatype Shown = Says(text: string) | ShowsDetail

  function ShownDetail(d: Detail): Shown {
    match d
    case TextDetail(s) => Says(s)
    case StructuredDetail => ShowsDetail
  }

  datatype ErrorInfo = ErrorInfo(kind: ErrorType, message: Shown, details: Option<string>, statusCode: Option<int>)

  const NetworkMessage: string := "Impossible de se connecter au serveur"
  const NetworkDetails: string := "Vérifiez votre connexion internet ou contactez le support"
  const SessionExpired: string := "Session expirée"
  const LoginAgain: string := "Veuillez vous reconnecter"
  const InvalidData: string := "Données invalides"
  const ServerMessage: string := "Erreur du serveur"
  const ServerDetails: string := "Une erreur inattendue s'est produite. Veuillez réessayer plus tard."
  const SomethingWrong: string := "Une erreur est survenue"
  const UnknownError: string := "Une erreur inconnue est survenue"

  /** `extractErrorInfo`. */
  function ExtractErrorInfo(e: Thrown): (r: ErrorInfo)
    ensures r.kind == Network <==> e.AxiosError? && e.response.None?
    ensures r.kind == Authentication <==> e.AxiosError? && e.response.Some? && e.response.value.status == 401
    ensures r.kind == Validation <==> e.AxiosError? && e.response.Some? && e.response.value.status in {400, 422}
    ensures r.kind == ServerError <==> e.AxiosError? && e.response.Some? && e.response.value.status >= 500
    ensures r.kind == Unknown <==>
      !e.AxiosError? || (e.response.Some? && e.response.value.status !in {400, 401, 422} && e.response.value.status < 500)
    // A lost connection, an expired session and a server fault each have their
    // own fixed message and explanation.
    ensures r.kind == Network ==> r.message == Says(NetworkMessage) && r.details == Some(NetworkDetails)
    ensures r.kind == Authentication ==> r.message == Says(SessionExpired) && r.details == Some(LoginAgain)
    ensures r.kind == ServerError ==> r.message == Says(ServerMessage) && r.details == Some(ServerDetails)
    // A refused request shows the server's detail, or a default; only a text
    // detail is repeated as the explanation.
    ensures r.kind == Validation ==>
      r.message == if TruthyDetail(e.response.value.detail) then ShownDetail(e.response.value.detail.value) else Says(InvalidData)
    ensures r.kind == Validation ==>
      var d := e.response.value.detail;
      r.details == if d.Some? && d.value.TextDetail? then Some(d.value.text) else None
    // Any other HTTP status: the server's detail, else the error's own message,
    // else a generic one, and no explanation.
    ensures r.kind == Unknown && e.AxiosError? ==>
      var d := e.response.value.detail;
      && r.message == (if TruthyDetail(d) then ShownDetail(d.value) else if e.message != "" then Says(e.message) else Says(SomethingWrong))
      && r.details.None?
    ensures r.statusCode.Some? <==> e.AxiosError? && e.response.Some?
    ensures r.statusCode.Some? ==> r.statusCode.value == e.response.value.status
    ensures e.PlainError? ==> r == ErrorInfo(Unknown, Says(e.message), None, None)
    ensures e.OtherValue? ==> r == ErrorInfo(Unknown, Says(UnknownError), None, None)
  {
    match e
    case AxiosError(None, _) => ErrorInfo(Network, Says(NetworkMessage), Some(NetworkDetails), None)
    case AxiosError(Some(response), message) =>
      var status := response.status;
      var detail := response.detail;
      if status == 401 then ErrorInfo(Authentication, Says(SessionExpired), Some(LoginAgain), Some(status))
      else if status == 400 || status == 422 then
        ErrorInfo(Validation,
          if TruthyDetail(detail) then ShownDetail(detail.value) else Says(InvalidData),
          if detail.Some? && detail.value.TextDetail? then Some(detail.value.text) else None,
          Some(status))
      else if status != 0 && status >= 500 then ErrorInfo(ServerError, Says(ServerMessage), Some(ServerDetails), Some(status))
      else
        ErrorInfo(Unknown,
          if TruthyDetail(detail) then ShownDetail(detail.value)
          else if message != "" then Says(message)
          else Says(SomethingWrong),
          None,
          Some(status))
    case PlainError(message) => ErrorInfo(Unknown, Says(message), None, None)
    case OtherValue => ErrorInfo(Unknown, Says(UnknownError), None, None)
  }

  /** Every error gets a message that is not an empty text, except a plain
      `Error` whose own message is empty. */
  lemma MessagesNotEmpty(e: Thrown)
    requires !(e.PlainError? && e.message == "")
    ensures ExtractErrorInfo(e).message != Says("")
  {
  }

  /** The options a caller may pass; `None` is an option left out. */
  datatype Config = Config(showToast: Option<bool>, customMessage: Option<string>)

  datatype Toast = Toast(message: Shown, description: Option<string>)

  /** The message a toast shows: the caller's own when it is a non-empty text,
      else the classified message. */
  function ToastMessage(info: ErrorInfo, config: Config): Shown {
    if config.customMessage.Some? && config.customMessage.value != "" then Says(config.customMessage.value)
    else info.message
  }

  /** `handleError`: the classification, and the toast it shows, if any. Logging
      to the console is left out. */
  function HandleError(e: Thrown, config: Config): (r: (ErrorInfo, Option<Toast>))
    ensures r.0 == ExtractErrorInfo(e)
    ensures r.1.Some? <==> config.showToast != Some(false) && r.0.kind != Authentication
    ensures r.1.Some? ==> r.1.value == Toast(ToastMessage(r.0, config), r.0.details)
  {
    var info := ExtractErrorInfo(e);
    var show := if config.showToast.Some? then config.showToast.value else true;
    if show && info.kind != Authentication then (info, Some(Toast(ToastMessage(info, config), info.details)))
    else (info, None)
  }

  /** An expired session never produces a toast, whatever the caller asks. */
  lemma NoToastOnExpiredSession(response: Response, message: string, config: Config)
    requires response.status == 401
    ensures HandleError(AxiosError(Some(response), message), config).1.None?
  {
  }

  datatype Operation = Create | Read | Update | Delete

  function OperationLabel(op: Operation): string {
    match op
    case Create => "création"
    case Read => "récupération"
    case Update => "modification"
    case Delete => "suppression"
  }

  /** The labels start with four different letters. */
  function InitialOf(op: Operation): char {
    match op
    case Create => 'c'
    case Read => 'r'
    case Update => 'm'
    case Delete => 's'
  }

  /** The message of a failed CRUD operation on `entity`. */
  function CrudMessage(op: Operation, entity: string): string {
    "Erreur lors de la " + OperationLabel(op) + " de " + entity
  }

  /** `handleCrudError`: the toast, when there is one, names the operation and
      the entity instead of the classified message. */
  function HandleCrudError(op: Operation, entity: string, e: Thrown): (r: (ErrorInfo, Option<Toast>))
    ensures r.0 == ExtractErrorInfo(e)
    ensures r.1.Some? <==> r.0.kind != Authentication
    ensures r.1.Some? ==> r.1.value.message == Says(CrudMessage(op, entity))
  {
    HandleError(e, Config(None, Some(CrudMessage(op, entity))))
  }

  /** The CRUD message tells the operation and the entity apart: two messages
      are equal only for the same operation on the same entity. */
  lemma CrudMessageInjective(op1: Operation, entity1: string, op2: Operation, entity2: string)
    requires CrudMessage(op1, entity1) == CrudMessage(op2, entity2)
    ensures op1 == op2 && entity1 == entity2
  {
    var prefix := "Erreur lors de la ";
    var a := CrudMessage(op1, entity1);
    var b := CrudMessage(op2, entity2);
    assert a[|prefix|] == OperationLabel(op1)[0];
    assert b[|prefix|] == OperationLabel(op2)[0];
    assert OperationLabel(op1)[0] == InitialOf(op1) && OperationLabel(op2)[0] == InitialOf(op2);
    var n := |prefix| + |OperationLabel(op1)| + |" de "|;
    assert a[n..] == entity1;
    assert b[n..] == entity2;
  }

  /** `handleSilentError`: classifies without ever showing a toast. */
  function HandleSilentError(e: Thrown): (r: (ErrorInfo, Option<Toast>))
    ensures r.0 == ExtractErrorInfo(e) && r.1.None?
  {
    HandleError(e, Config(Some(false), None))
  }

  /** `isErrorType`. */
  function IsErrorType(e: Thrown, kind: ErrorType): (r: bool)
    ensures r <==> HandleSilentError(e).0.kind == kind
  {
    ExtractErrorInfo(e).kind == kind
  }
}

=== FILE: expense_cases.dfy ===
/** The expense use cases: creating, updating and deleting an expense. The
    expense repository is abstract: it is given as the answers its calls return,
    and each use case reports the writes it asks of it. Every use case swallows
    `ValueError`, from its own checks or from the repository, and answers `None`;
    any other exception goes through. */
module ExpenseCases {
  import opened Wrappers
  import opened Entities
  import opened Messages

  /** What the repository's calls answer: the stored or updated expense, the
      lookup by id (`None` when nothing is found, or a raised `ValueError`), the
      deletion, and the listing of a user's expenses. */
  datatype ExpenseRepo = ExpenseRepo(
    create: Expense -> Result<Expense, Raised>,
    update: Expense -> Result<Expense, Raised>,
    getById: string -> Result<Option<Expense>, Raised>,
    delete: (string, string) -> Result<(), Raised>,
    getByUserId: string -> Result<seq<Expense>, Raised>)

  /** A write asked of the repository. */
  datatype Call = CreateCall(expense: Expense) | UpdateCall(expense: Expense) | DeleteCall(expenseId: string, userId: string)

  /** The writes a use case asks for, and its answer or the exception it lets through. */
  datatype Outcome<T> = Outcome(calls: seq<Call>, result: Result<T, Raised>)

  /** `except ValueError: return None`. */
  function Swallow<T>(r: Result<T, Raised>): (s: Result<Option<T>, Raised>)
    ensures r.Success? ==> s == Success(Some(r.value))
    ensures r.Failure? && r.error.ValueError? ==> s == Success(None)
    ensures r.Failure? && !r.error.ValueError? ==> s == Failure(r.error)
  {
    match r
    case Success(v) => Success(Some(v))
    case Failure(e) => if e.ValueError? then Success(None) else Failure(e)
  }

  /** What creation requires of an expense. */
  predicate CreateValid(e: Expense) {
    e.userId != "" && e.name != "" && e.amount != 0.0 && e.date.Some? && e.category.Some?
  }

  /** `CreateExpense.validate_expense`: the first failed check, in source order. */
  function ValidateForCreate(e: Expense): (r: Option<Message>)
    ensures r.None? <==> CreateValid(e)
    ensures r == Some(UserRequired) <==> e.userId == ""
    ensures r == Some(NameRequired) <==> e.userId != "" && e.name == ""
    ensures r == Some(AmountRequired) <==> e.userId != "" && e.name != "" && e.amount == 0.0
    ensures r == Some(DateRequired) <==> e.userId != "" && e.name != "" && e.amount != 0.0 && e.date.None?
    ensures r == Some(CategoryRequired) <==>
      e.userId != "" && e.name != "" && e.amount != 0.0 && e.date.Some? && e.category.None?
  {
    if e.userId == "" then Some(UserRequired)
    else if e.name == "" then Some(NameRequired)
    else if e.amount == 0.0 then Some(AmountRequired)
    else if e.date.None? then Some(DateRequired)
    else if e.category.None? then Some(CategoryRequired)
    else None
  }

  /** `CreateExpense.execute`: an invalid expense answers `None` without a write;
      otherwise exactly one creation is asked for and its answer returned. */
  function CreateExpense(repo: ExpenseRepo, e: Expense): (o: Outcome<Option<Expense>>)
    ensures o.calls == [] <==> !CreateValid(e)
    ensures !CreateValid(e) ==> o.result == Success(None)
    ensures CreateValid(e) ==> o.calls == [CreateCall(e)] && o.result == Swallow(repo.create(e))
    ensures o.result.Failure? ==> !o.result.error.ValueError?
  {
    if ValidateForCreate(e).Some? then Outcome([], Success(None))
    else Outcome([CreateCall(e)], Swallow(repo.create(e)))
  }

  /** What the update requires of an expense. */
  predicate UpdateValid(e: Expense) {
    e.id != "" && e.userId != "" && e.name != "" && e.amount != 0.0 && e.date.Some?
  }

  /** `UpdateExpense.validate_expense`: the first failed check, in source order. */
  function ValidateForUpdate(e: Expense): (r: Option<Message>)
    ensures r.None? <==> UpdateValid(e)
    ensures r == Some(ExpenseIdRequired) <==> e.id == ""
    ensures r == Some(UserRequired) <==> e.id != "" && e.userId == ""
    ensures r == Some(ExpenseNameRequired) <==> e.id != "" && e.userId != "" && e.name == ""
    ensures r == Some(ExpenseAmountRequired) <==> e.id != "" && e.userId != "" && e.name != "" && e.amount == 0.0
    ensures r == Some(ExpenseDateRequired) <==>
      e.id != "" && e.userId != "" && e.name != "" && e.amount != 0.0 && e.date.None?
  {
    if e.id == "" then Some(ExpenseIdRequired)
    else if e.userId == "" then Some(UserRequired)
    else if e.name == "" then Some(ExpenseNameRequired)
    else if e.amount == 0.0 then Some(ExpenseAmountRequired)
    else if e.date.None? then Some(ExpenseDateRequired)
    else None
  }

  /** `UpdateExpense.execute`: an invalid expense answers `None` without a write;
      otherwise exactly one update is asked for, and a `ValueError` it raises (an
      unknown expense) becomes `None`. */
  function UpdateExpense(repo: ExpenseRepo, e: Expense): (o: Outcome<Option<Expense>>)
    ensures o.calls == [] <==> !UpdateValid(e)
    ensures !UpdateValid(e) ==> o.result == Success(None)
    ensures UpdateValid(e) ==> o.calls == [UpdateCall(e)] && o.result == Swallow(repo.update(e))
    ensures o.result.Failure? ==> !o.result.error.ValueError?
  {
    if ValidateForUpdate(e).Some? then Outcome([], Success(None))
    else Outcome([UpdateCall(e)], Swallow(repo.update(e)))
  }

  /** The lookup `validate_expense_id` makes found the expense. */
  predicate Found(lookup: Result<Option<Expense>, Raised>) {
    lookup.Success? && lookup.value.Some?
  }

  /** `DeleteExpense.execute`: checks the expense id, then that the lookup finds
      the expense, then the user id; only when all pass is exactly one deletion
      asked for. It answers `None` in every case that does not raise something
      other than `ValueError`. */
  function DeleteExpense(repo: ExpenseRepo, expenseId: string, userId: string): (o: Outcome<()>)
    ensures o.calls != [] <==> expenseId != "" && Found(repo.getById(expenseId)) && userId != ""
    ensures o.calls != [] ==> o.calls == [DeleteCall(expenseId, userId)]
    ensures o.result.Failure? ==> !o.result.error.ValueError?
    ensures expenseId != "" && repo.getById(expenseId).Failure? && !repo.getById(expenseId).error.ValueError? ==>
      o.result == Failure(repo.getById(expenseId).error)
  {
    if expenseId == "" then Outcome([], Success(()))
    else
      match repo.getById(expenseId)
      case Failure(e) => Outcome([], if e.ValueError? then Success(()) else Failure(e))
      case Success(found) =>
        if found.None? || userId == "" then Outcome([], Success(()))
        else
          var answer := match repo.delete(expenseId, userId)
            case Success(_) => Success(())
            case Failure(e) => if e.ValueError? then Success(()) else Failure(e);
          Outcome([DeleteCall(expenseId, userId)], answer)
  }
}

=== FILE: forecast.dfy ===
/** The forecast service: the user's incomes and expenses dated within the
    look-back window of a period, aggregated per day, and a projection of the
    recurring ones over the months ahead.

    The service reads the clock five times (the window's end, the anchor of
    each projection, and the two record stamps); `Clock` carries the five
    readings, so the model is a function of them. */
module Forecast {
  import opened Wrappers
  import opened Messages
  import opened Entities
  import opened Seqs
  import opened Aggregation
  import IncomeStore

  // ---------------------------------------------------------------------------
  // Periods

  datatype Period = OneMonth | ThreeMonths | SixMonths | OneYear

  /** The period's wire code, the value of the `ForecastPeriod` enumeration. */
  function Code(p: Period): string {
    match p
    case OneMonth => "1m"
    case ThreeMonths => "3m"
    case SixMonths => "6m"
    case OneYear => "1y"
  }

  /** `ForecastPeriod(code)`: the period with this code, or `None` for any other string. */
  function ParseCode(s: string): (r: Option<Period>)
    ensures r.Some? ==> Code(r.value) == s
    ensures r.None? <==> forall p: Period :: Code(p) != s
  {
    if s == "1m" then Some(OneMonth)
    else if s == "3m" then Some(ThreeMonths)
    else if s == "6m" then Some(SixMonths)
    else if s == "1y" then Some(OneYear)
    else None
  }

  /** Every period survives the trip through its code. */
  lemma CodeRoundTrip(p: Period)
    ensures ParseCode(Code(p)) == Some(p)
  {
  }

  /** How many days before the end the historical window starts. */
  function LookbackDays(p: Period): nat {
    match p
    case OneMonth => 30
    case ThreeMonths => 90
    case SixMonths => 180
    case OneYear => 365
  }

  /** How many monthly points the projection has. */
  function MonthsAhead(p: Period): nat {
    match p
    case OneMonth => 1
    case ThreeMonths => 3
    case SixMonths => 6
    case OneYear => 12
  }

  /** The projection steps thirty days per "month". */
  const StepDays: nat := 30

  /** The start of the historical window. */
  function StartDate(end: int, p: Period): (r: int)
    ensures r < end
    ensures end - r == LookbackDays(p) * Day
  {
    end - LookbackDays(p) * Day
  }

  // ---------------------------------------------------------------------------
  // Historical selection

  /** What the service reads of an income or an expense row. */
  datatype Row = Row(date: Option<int>, amount: real, isRecurring: bool)

  function IncomeRows(s: seq<Income>): seq<Row> {
    seq(|s|, k requires 0 <= k < |s| => Row(s[k].date, s[k].amount, s[k].isRecurring))
  }

  function ExpenseRows(s: seq<Expense>): seq<Row> {
    seq(|s|, k requires 0 <= k < |s| => Row(s[k].date, s[k].amount, s[k].isRecurring))
  }

  predicate AllDated(rows: seq<Row>) {
    forall k :: 0 <= k < |rows| ==> rows[k].date.Some?
  }

  /** The rows as dated items, in the same order. */
  function Items(rows: seq<Row>): (r: seq<Item>)
    requires AllDated(rows)
    ensures |r| == |rows|
    ensures forall k :: 0 <= k < |r| ==> r[k] == Item(rows[k].date.value, rows[k].amount, rows[k].isRecurring)
  {
    seq(|rows|, k requires 0 <= k < |rows| => Item(rows[k].date.value, rows[k].amount, rows[k].isRecurring))
  }

  /** The items dated within `[start, end]`, both ends included. */
  function Within(start: int, end: int): Item -> bool {
    (x: Item) => start <= x.date <= end
  }

  /** `_get_historical_*`: the rows dated within the window, in order. Comparing
      a row's date reads it first, so a dateless row raises. */
  function Historical(rows: seq<Row>, start: int, end: int): (r: Result<seq<Item>, Raised>)
    ensures r.Failure? <==> !AllDated(rows)
    ensures r.Failure? ==> r.error == AttributeOfNone
    ensures r.Success? ==> forall x :: x in r.value <==> x in Items(rows) && start <= x.date <= end
    // Each item in the window is kept as often as it occurs, every other item dropped.
    ensures r.Success? ==> forall x :: multiset(r.value)[x] == if start <= x.date <= end then multiset(Items(rows))[x] else 0
    ensures r.Success? ==> |r.value| <= |rows|
  {
    if !AllDated(rows) then Failure(AttributeOfNone)
    else
      var r := Filter(Items(rows), Within(start, end));
      assert forall x :: x in r <==> x in Items(rows) && start <= x.date <= end by {
        forall x ensures x in r <==> x in Items(rows) && start <= x.date <= end {
          FilterMembership(Items(rows), Within(start, end), x);
        }
      }
      Success(r)
  }

  /** The expenses the repository returned for the user, within the window. */
  function HistoricalExpenses(expenses: seq<Expense>, start: int, end: int): Result<seq<Item>, Raised> {
    Historical(ExpenseRows(expenses), start, end)
  }

  /** The incomes as the service reads them: through the paginated listing with
      its default page, the 100 latest-dated incomes of the user. */
  function HistoricalIncomesAsWritten(s: IncomeStore.Store, userId: string, start: int, end: int): (r: Result<seq<Item>, Raised>)
    ensures r.Success? ==> |r.value| <= IncomeStore.DefaultLimit
  {
    Historical(IncomeRows(IncomeStore.GetAllByUserId(s, userId, 0, IncomeStore.DefaultLimit)), start, end)
  }

  /** The incomes as the forecast needs them: every income of the user. A
      dateless income of the user raises; otherwise each of the user's incomes
      dated within the window is kept as often as it is stored. */
  function HistoricalIncomes(s: IncomeStore.Store, userId: string, start: int, end: int): (r: Result<seq<Item>, Raised>)
    ensures r.Failure? <==> exists y :: y in s && y.userId == userId && y.date.None?
    ensures r.Success? ==> forall x :: x in r.value ==> start <= x.date <= end
    ensures r.Success? ==> forall x :: x in r.value ==> IncomeOf(s, userId, x)
    ensures r.Success? ==>
      var stored := multiset(Map(Filter(s, (y: Income) => y.userId == userId), IncomeItem));
      forall x :: multiset(r.value)[x] == if start <= x.date <= end then stored[x] else 0
  {
    var r := Historical(IncomeRows(IncomeStore.Owned(s, userId)), start, end);
    OwnedAllDated(s, userId);
    if r.Success? then
      OwnedItemsAreIncomes(s, userId);
      OwnedItemsPermute(s, userId);
      r
    else r
  }

  /** The item an income stands for once its date is known. */
  function IncomeItem(y: Income): Item {
    Item(y.date.GetOr(0), y.amount, y.isRecurring)
  }

  /** The user's incomes can be read as items exactly when none of them lacks a date. */
  lemma OwnedAllDated(s: IncomeStore.Store, userId: string)
    ensures AllDated(IncomeRows(IncomeStore.Owned(s, userId)))
            <==> forall y :: y in s && y.userId == userId ==> y.date.Some?
  {
    var owned := IncomeStore.Owned(s, userId);
    if AllDated(IncomeRows(owned)) {
      forall y | y in s && y.userId == userId ensures y.date.Some? {
        var k :| 0 <= k < |owned| && owned[k] == y;
        assert IncomeRows(owned)[k].date == y.date;
      }
    } else {
      var k :| 0 <= k < |owned| && IncomeRows(owned)[k].date.None?;
      assert owned[k] in owned;
    }
  }

  /** The items read from the sorted listing are, up to order, the items of the
      user's incomes in table order. */
  lemma OwnedItemsPermute(s: IncomeStore.Store, userId: string)
    requires AllDated(IncomeRows(IncomeStore.Owned(s, userId)))
    ensures multiset(Items(IncomeRows(IncomeStore.Owned(s, userId))))
            == multiset(Map(Filter(s, (y: Income) => y.userId == userId), IncomeItem))
  {
    var owned := IncomeStore.Owned(s, userId);
    var mine := Filter(s, (y: Income) => y.userId == userId);
    assert Items(IncomeRows(owned)) == Map(owned, IncomeItem);
    assert multiset(owned) == multiset(mine) by {
      forall x ensures multiset(owned)[x] == multiset(mine)[x] {
      }
    }
    MapPermutation(owned, mine, IncomeItem);
  }

  /** Item `x` stands for an income of the user: same date and amount. */
  ghost predicate IncomeOf(s: IncomeStore.Store, userId: string, x: Item) {
    exists y :: y in s && y.userId == userId && y.date == Some(x.date) && y.amount == x.amount
  }

  lemma OwnedItemsAreIncomes(s: IncomeStore.Store, userId: string)
    requires AllDated(IncomeRows(IncomeStore.Owned(s, userId)))
    ensures forall x :: x in Items(IncomeRows(IncomeStore.Owned(s, userId))) ==> IncomeOf(s, userId, x)
  {
    var owned := IncomeStore.Owned(s, userId);
    var items := Items(IncomeRows(owned));
    forall x | x in items ensures IncomeOf(s, userId, x) {
      var k :| 0 <= k < |items| && items[k] == x;
      assert owned[k] in owned;
    }
  }

  /** When the user has at most a page of incomes, the two selections agree. */
  lemma IncomeSelectionsAgreeOnSmallStores(s: IncomeStore.Store, userId: string, start: int, end: int)
    requires |IncomeStore.Owned(s, userId)| <= IncomeStore.DefaultLimit
    ensures HistoricalIncomesAsWritten(s, userId, start, end) == HistoricalIncomes(s, userId, start, end)
  {
  }

  /** With more than a page of incomes, all dated within the window, the
      service's selection loses the oldest ones: it keeps exactly a page while
      every one of them belongs to the window. */
  lemma IncomeLimitDropsRows(s: IncomeStore.Store, userId: string, start: int, end: int)
    requires forall k :: 0 <= k < |s| && s[k].userId == userId ==>
      (s[k].date.Some? && start <= s[k].date.value <= end)
    requires |IncomeStore.Owned(s, userId)| > IncomeStore.DefaultLimit
    ensures HistoricalIncomesAsWritten(s, userId, start, end).Success?
    ensures HistoricalIncomes(s, userId, start, end).Success?
    ensures |HistoricalIncomesAsWritten(s, userId, start, end).value| == IncomeStore.DefaultLimit
    ensures |HistoricalIncomes(s, userId, start, end).value| == |IncomeStore.Owned(s, userId)|
  {
    var owned := IncomeStore.Owned(s, userId);
    var page := IncomeStore.GetAllByUserId(s, userId, 0, IncomeStore.DefaultLimit);
    forall k | 0 <= k < |owned| ensures InWindow(owned[k], start, end) {
      assert owned[k] in owned;
    }
    forall k | 0 <= k < |page| ensures InWindow(page[k], start, end) {
      assert page[k] in s;
    }
    AllInWindowKept(owned, start, end);
    AllInWindowKept(page, start, end);
  }

  predicate InWindow(x: Income, start: int, end: int) {
    x.date.Some? && start <= x.date.value <= end
  }

  /** When every income is dated within the window, the selection keeps them all. */
  lemma AllInWindowKept(s: seq<Income>, start: int, end: int)
    requires forall k :: 0 <= k < |s| ==> InWindow(s[k], start, end)
    ensures Historical(IncomeRows(s), start, end).Success?
    ensures |Historical(IncomeRows(s), start, end).value| == |s|
  {
    var rows := IncomeRows(s);
    FilterAll(Items(rows), Within(start, end));
  }

  // ---------------------------------------------------------------------------
  // Projection

  function IsRecurring(x: Item): bool { x.isRecurring }

  /** `_calculate_monthly_average`: the mean amount, or 0 for no items. */
  function MonthlyAverage(items: seq<Item>): real {
    if items == [] then 0.0 else SumOf(items, ItemAmount) / |items| as real
  }

  /** The average times the count gives back the sum; no items average to 0. */
  lemma MonthlyAverageSpec(items: seq<Item>)
    ensures items == [] ==> MonthlyAverage(items) == 0.0
    ensures MonthlyAverage(items) * |items| as real == SumOf(items, ItemAmount)
  {
  }

  /** The first `months` points of the projection: point `i` lies `30 * i` days
      after the anchor and carries the average. */
  function ForecastPoints(anchor: int, months: nat, average: real): (r: seq<DataPoint>)
    ensures |r| == months
    ensures forall i :: 0 <= i < months ==> r[i] == DataPoint(anchor + StepDays * i * Day, average)
  {
    if months == 0 then []
    else ForecastPoints(anchor, months - 1, average) + [DataPoint(anchor + StepDays * (months - 1) * Day, average)]
  }

  /** The projection totals `months` times the average. */
  lemma ForecastPointsTotal(anchor: int, months: nat, average: real)
    ensures SumOf(ForecastPoints(anchor, months, average), PointAmount) == months as real * average
  {
    SumOfConstant(ForecastPoints(anchor, months, average), PointAmount, average);
  }

  /** The projection's points are strictly ascending in date. */
  lemma ForecastPointsAscending(anchor: int, months: nat, average: real)
    ensures StrictlyAscending(ForecastPoints(anchor, months, average))
  {
  }

  /** The average amount of the recurring items of a history. */
  function RecurringAverage(history: seq<Item>): real {
    MonthlyAverage(Filter(history, IsRecurring))
  }

  /** `_calculate_*_forecast`: the projection of the recurring items. */
  function Projection(history: seq<Item>, anchor: int, p: Period): seq<DataPoint> {
    ForecastPoints(anchor, MonthsAhead(p), RecurringAverage(history))
  }

  /** A projection totals the number of months ahead times the average of
      the recurring items. */
  lemma ProjectionTotal(history: seq<Item>, anchor: int, p: Period, average: real)
    requires average == RecurringAverage(history)
    ensures SumOf(Projection(history, anchor, p), PointAmount) == MonthsAhead(p) as real * average
  {
    ForecastPointsTotal(anchor, MonthsAhead(p), average);
  }

  // ---------------------------------------------------------------------------
  // The forecast

  datatype Clock = Clock(end: int, expenseAnchor: int, incomeAnchor: int, createdAt: int, updatedAt: int)

  datatype ForecastData = ForecastData(
    userId: string,
    period: Period,
    startDate: int,
    endDate: int,
    expensesData: seq<DataPoint>,
    incomeData: seq<DataPoint>,
    forecastExpenses: seq<DataPoint>,
    forecastIncome: seq<DataPoint>,
    totalExpenses: real,
    totalIncome: real,
    netBalance: real,
    forecastTotalExpenses: real,
    forecastTotalIncome: real,
    forecastNetBalance: real,
    createdAt: int,
    updatedAt: int)

  /** The record built from the two selected histories. */
  function Assemble(userId: string, p: Period, clock: Clock, expenses: seq<Item>, incomes: seq<Item>): ForecastData {
    var expensesData := Aggregate(expenses);
    var incomeData := Aggregate(incomes);
    var forecastExpenses := Projection(expenses, clock.expenseAnchor, p);
    var forecastIncome := Projection(incomes, clock.incomeAnchor, p);
    var totalExpenses := SumOf(expensesData, PointAmount);
    var totalIncome := SumOf(incomeData, PointAmount);
    var forecastTotalExpenses := SumOf(forecastExpenses, PointAmount);
    var forecastTotalIncome := SumOf(forecastIncome, PointAmount);
    ForecastData(userId, p, StartDate(clock.end, p), clock.end,
      expensesData, incomeData, forecastExpenses, forecastIncome,
      totalExpenses, totalIncome, totalIncome - totalExpenses,
      forecastTotalExpenses, forecastTotalIncome, forecastTotalIncome - forecastTotalExpenses,
      clock.createdAt, clock.updatedAt)
  }

  /** `calculate_forecast`, over the expenses the repository returned for the
      user and the income table. */
  function CalculateForecast(userId: string, p: Period, expenses: seq<Expense>, incomes: IncomeStore.Store, clock: Clock): (r: Result<ForecastData, Raised>)
    ensures r.Failure? <==> !AllDated(ExpenseRows(expenses)) || !AllDated(IncomeRows(IncomeStore.Owned(incomes, userId)))
    ensures r.Failure? ==> r.error == AttributeOfNone
    ensures r.Success? ==> r.value.userId == userId && r.value.period == p && r.value.endDate == clock.end
    ensures r.Success? ==> r.value.endDate - r.value.startDate == LookbackDays(p) * Day
  {
    var start := StartDate(clock.end, p);
    match HistoricalExpenses(expenses, start, clock.end)
    case Failure(e) => Failure(e)
    case Success(hexp) =>
      match HistoricalIncomes(incomes, userId, start, clock.end)
      case Failure(e) => Failure(e)
      case Success(hinc) => Success(Assemble(userId, p, clock, hexp, hinc))
  }

  /** A successful forecast is the record assembled from the two selections. */
  lemma ForecastFromHistories(userId: string, p: Period, expenses: seq<Expense>, incomes: IncomeStore.Store, clock: Clock)
    requires CalculateForecast(userId, p, expenses, incomes, clock).Success?
    ensures HistoricalExpenses(expenses, StartDate(clock.end, p), clock.end).Success?
    ensures HistoricalIncomes(incomes, userId, StartDate(clock.end, p), clock.end).Success?
    ensures CalculateForecast(userId, p, expenses, incomes, clock).value
      == Assemble(userId, p, clock,
           HistoricalExpenses(expenses, StartDate(clock.end, p), clock.end).value,
           HistoricalIncomes(incomes, userId, StartDate(clock.end, p), clock.end).value)
  {
  }

  /** The historical series carry each day's total of the selected items, and
      the totals equal the sums of those items; the net balance is income
      minus expenses. */
  lemma AssembledHistory(userId: string, p: Period, clock: Clock, expenses: seq<Item>, incomes: seq<Item>)
    ensures var d := Assemble(userId, p, clock, expenses, incomes);
      && (forall e :: AmountAt(d.expensesData, e) == DayTotal(expenses, e))
      && (forall e :: AmountAt(d.incomeData, e) == DayTotal(incomes, e))
      && d.totalExpenses == SumOf(expenses, ItemAmount)
      && d.totalIncome == SumOf(incomes, ItemAmount)
      && d.netBalance == d.totalIncome - d.totalExpenses
  {
    AggregateSpec(expenses);
    AggregateSpec(incomes);
  }

  /** The projections have one point per month ahead, `30 * i` days after
      their anchor, carrying the recurring average. */
  lemma AssembledProjectionPoints(userId: string, p: Period, clock: Clock, expenses: seq<Item>, incomes: seq<Item>)
    ensures var d := Assemble(userId, p, clock, expenses, incomes);
      && |d.forecastExpenses| == MonthsAhead(p) && |d.forecastIncome| == MonthsAhead(p)
      && (forall i :: 0 <= i < MonthsAhead(p) ==>
            d.forecastExpenses[i] == DataPoint(clock.expenseAnchor + StepDays * i * Day, RecurringAverage(expenses)))
      && (forall i :: 0 <= i < MonthsAhead(p) ==>
            d.forecastIncome[i] == DataPoint(clock.incomeAnchor + StepDays * i * Day, RecurringAverage(incomes)))
  {
  }

  /** The projections total the months ahead times the recurring averages;
      the forecast balance is income minus expenses. */
  lemma AssembledProjectionTotals(userId: string, p: Period, clock: Clock, expenses: seq<Item>, incomes: seq<Item>,
                                  expenseAverage: real, incomeAverage: real)
    requires expenseAverage == RecurringAverage(expenses) && incomeAverage == RecurringAverage(incomes)
    ensures var d := Assemble(userId, p, clock, expenses, incomes);
      && d.forecastTotalExpenses == MonthsAhead(p) as real * expenseAverage
      && d.forecastTotalIncome == MonthsAhead(p) as real * incomeAverage
      && d.forecastNetBalance == d.forecastTotalIncome - d.forecastTotalExpenses
  {
    ProjectionTotal(expenses, clock.expenseAnchor, p, expenseAverage);
    ProjectionTotal(incomes, clock.incomeAnchor, p, incomeAverage);
  }

  /** `GetForecast.execute`: a user and a period are required, in that order. */
  function GetForecast(userId: string, period: Option<Period>, expenses: seq<Expense>, incomes: IncomeStore.Store, clock: Clock): (r: Result<ForecastData, Raised>)
    ensures userId == "" ==> r == Failure(ValueError(UserRequired))
    ensures userId != "" && period.None? ==> r == Failure(ValueError(PeriodRequired))
    ensures r.Success? ==> period.Some? && r.value.userId == userId && r.value.period == period.value
    ensures userId != "" && period.Some? ==> r == CalculateForecast(userId, period.value, expenses, incomes, clock)
  {
    if userId == "" then Failure(ValueError(UserRequired))
    else if period.None? then Failure(ValueError(PeriodRequired))
    else CalculateForecast(userId, period.value, expenses, incomes, clock)
  }
}

=== FILE: import_csv.dfy ===
/** The bank-statement import: every parsed transaction that is not already
    recorded becomes an expense or an income through the creation use cases.
    The duplicate check compares a transaction with the user's expenses and
    incomes read once at the start, plus those created so far. Identifiers are
    drawn from `ids` by the transaction's position, and `now` is the clock
    reading the new records carry. */
module ImportCsv {
  import opened Wrappers
  import opened Entities
  import opened Text
  import opened ImportResult
  import CsvParser
  import ExpenseCases
  import IncomeCases
  import Incomes = IncomeStore

  // ---------------------------------------------------------------------------
  // Duplicates

  /** What the duplicate check reads of a stored record. */
  datatype Seen = Seen(date: Option<int>, amount: real, name: string)

  function ExpenseSeen(e: Expense): Seen {
    Seen(e.date, e.amount, e.name)
  }

  function IncomeSeen(x: Income): Seen {
    Seen(x.date, x.amount, x.name)
  }

  function ExpensesSeen(es: seq<Expense>): (r: seq<Seen>)
    ensures |r| == |es| && forall i :: 0 <= i < |es| ==> r[i] == ExpenseSeen(es[i])
  {
    seq(|es|, i requires 0 <= i < |es| => ExpenseSeen(es[i]))
  }

  function IncomesSeen(xs: seq<Income>): (r: seq<Seen>)
    ensures |r| == |xs| && forall i :: 0 <= i < |xs| ==> r[i] == IncomeSeen(xs[i])
  {
    seq(|xs|, i requires 0 <= i < |xs| => IncomeSeen(xs[i]))
  }

  /** Same calendar day, amounts less than a cent apart, same name. */
  predicate Matches(s: Seen, t: ImportedTransaction) {
    && s.date.Some? && DayOf(s.date.value) == DayOf(t.date)
    && -0.01 < s.amount - t.amount < 0.01
    && s.name == t.description
  }

  predicate AllDated(items: seq<Seen>) {
    forall i :: 0 <= i < |items| ==> items[i].date.Some?
  }

  /** `any(...)` over the records: it stops at the first match, and reading the
      date of a dateless record before any match raises. */
  function AnyMatch(items: seq<Seen>, t: ImportedTransaction): (r: Result<bool, Raised>)
    ensures r.Failure? ==> r.error == AttributeOfNone
    ensures r == Success(true) ==> exists i :: 0 <= i < |items| && Matches(items[i], t)
    ensures AllDated(items) ==> r == Success(exists i :: 0 <= i < |items| && Matches(items[i], t))
    decreases |items|
  {
    if items == [] then Success(false)
    else if items[0].date.None? then Failure(AttributeOfNone)
    else if Matches(items[0], t) then Success(true)
    else
      var r := AnyMatch(items[1..], t);
      assert forall i :: 1 <= i < |items| ==> items[i] == items[1..][i - 1];
      assert AllDated(items) ==> AllDated(items[1..]);
      r
  }

  /** A match stays a match when more records are appended. */
  lemma {:induction false} AnyMatchAppend(items: seq<Seen>, more: seq<Seen>, t: ImportedTransaction)
    requires AnyMatch(items, t) == Success(true)
    ensures AnyMatch(items + more, t) == Success(true)
    decreases |items|
  {
    assert (items + more)[0] == items[0];
    if !Matches(items[0], t) {
      assert (items + more)[1..] == items[1..] + more;
      AnyMatchAppend(items[1..], more, t);
    }
  }

  /** A matching record at the end is found when every earlier record is dated. */
  lemma {:induction false} AnyMatchLast(items: seq<Seen>, s: Seen, t: ImportedTransaction)
    requires AllDated(items) && Matches(s, t)
    ensures AnyMatch(items + [s], t) == Success(true)
  {
    var all := items + [s];
    assert AllDated(all) by {
      assert forall i :: 0 <= i < |items| ==> all[i] == items[i];
    }
    assert Matches(all[|items|], t);
  }

  /** `_is_duplicate`: an expense is compared with the expenses only, an income
      with the incomes only. */
  function IsDuplicate(t: ImportedTransaction, expenses: seq<Seen>, incomes: seq<Seen>): (r: Result<bool, Raised>)
    ensures t.isExpense ==> r == AnyMatch(expenses, t)
    ensures !t.isExpense ==> r == AnyMatch(incomes, t)
  {
    AnyMatch(if t.isExpense then expenses else incomes, t)
  }

  // ---------------------------------------------------------------------------
  // Building the records

  /** The import's table from the parser's category names to expense categories. */
  const ExpenseCategoryMapping: map<string, ExpenseCategory> := map[
    "Alimentation" := Food,
    "Restaurants" := Food,
    "Transport" := Transport,
    "Carburant" := Transport,
    "Téléphonie" := Subscriptions,
    "Abonnements" := Subscriptions,
    "Crédit" := OtherExpense,
    "Santé" := Health,
    "Assurance" := Insurance,
    "Loisirs" := Entertainment,
    "Electronique" := Shopping,
    "Bricolage" := Housing,
    "Sport" := Entertainment,
    "Education" := OtherExpense,
    "Frais bancaires" := OtherExpense,
    "Shopping" := Shopping,
    "Equipement maison" := Housing,
    "Jeux" := Entertainment,
    "Epargne" := OtherExpense,
    "Autres" := OtherExpense
  ]

  /** The mapped category, or "other" for a name the table does not know. */
  function ExpenseCategoryOf(category: string): (r: ExpenseCategory)
    ensures category in ExpenseCategoryMapping ==> r == ExpenseCategoryMapping[category]
    ensures category !in ExpenseCategoryMapping ==> r == OtherExpense
  {
    if category in ExpenseCategoryMapping then ExpenseCategoryMapping[category] else OtherExpense
  }

  /** Every name the parser's table produces has its own row in the import's
      table, so none of them falls through to the default. */
  lemma ParserCategoriesAreMapped()
    ensures forall raw :: raw in CsvParser.CategoryMapping ==> CsvParser.CategoryMapping[raw] in ExpenseCategoryMapping
  {
  }

  /** The income category read from the upper-cased description: a salary
      keyword wins over a freelance keyword; anything else is "other". */
  function IncomeCategoryOf(description: string): (r: IncomeCategory)
    ensures var d := ToUpper(description);
      r == Salary <==> Contains(d, "SALAIRE") || Contains(d, "SALARY")
    ensures var d := ToUpper(description);
      r == Freelance <==> !(Contains(d, "SALAIRE") || Contains(d, "SALARY")) && (Contains(d, "FREELANCE") || Contains(d, "TRAVAIL"))
    ensures r == Salary || r == Freelance || r == OtherIncome
  {
    var d := ToUpper(description);
    if Contains(d, "SALAIRE") || Contains(d, "SALARY") then Salary
    else if Contains(d, "FREELANCE") || Contains(d, "TRAVAIL") then Freelance
    else if Contains(d, "ALLOCATION") || Contains(d, "CHOMAGE") then OtherIncome
    else if Contains(d, "REMBOURSEMENT") then OtherIncome
    else OtherIncome
  }

  /** Recurring transactions are taken as monthly, the others as one-time. */
  function FrequencyOf(isRecurring: bool): (r: Frequency)
    ensures r == Monthly <==> isRecurring
    ensures r == OneTime <==> !isRecurring
  {
    if isRecurring then Monthly else OneTime
  }

  const ImportNote: string := "Importé depuis CSV - "

  function ExpenseFromTransaction(userId: string, t: ImportedTransaction, id: string, now: int): (e: Expense)
    ensures e.userId == userId && e.name == t.description && e.amount == t.amount && e.date == Some(t.date)
    ensures e.category == Some(ExpenseCategoryOf(t.category))
    ensures e.isRecurring == t.isRecurring && e.frequency == Some(FrequencyOf(t.isRecurring))
    ensures Matches(ExpenseSeen(e), t)
  {
    Expense(id, userId, t.description, t.amount, Some(t.date), now, now,
      Some(ExpenseCategoryOf(t.category)), Some(ImportNote + t.supplier), t.isRecurring, Some(FrequencyOf(t.isRecurring)))
  }

  function IncomeFromTransaction(userId: string, t: ImportedTransaction, id: string, now: int): (x: Income)
    ensures x.userId == userId && x.name == t.description && x.amount == t.amount && x.date == Some(t.date)
    ensures x.category == Some(IncomeCategoryOf(t.description))
    ensures x.isRecurring == t.isRecurring && x.frequency == Some(FrequencyOf(t.isRecurring))
    ensures Matches(IncomeSeen(x), t)
  {
    Income(id, userId, t.description, t.amount, Some(t.date), now, now,
      Some(IncomeCategoryOf(t.description)), Some(ImportNote + t.supplier), t.isRecurring, Some(FrequencyOf(t.isRecurring)))
  }

  /** The creation use case accepts an imported income exactly when the user is
      known, the label is non-empty and the amount is not zero. */
  lemma ImportedIncomeValid(userId: string, t: ImportedTransaction, id: string, now: int)
    ensures IncomeCases.CreateValid(IncomeFromTransaction(userId, t, id, now)) <==>
      userId != "" && t.description != "" && t.amount != 0.0
  {
  }

  /** The same for an imported expense. */
  lemma ImportedExpenseValid(userId: string, t: ImportedTransaction, id: string, now: int)
    ensures ExpenseCases.CreateValid(ExpenseFromTransaction(userId, t, id, now)) <==>
      userId != "" && t.description != "" && t.amount != 0.0
  {
  }

  // ---------------------------------------------------------------------------
  // The loop

  /** The import's running state: the result so far, the records the duplicate
      check compares with, the income table, and the writes asked of the
      expense repository. */
  datatype State = State(
    result: ImportResult,
    expenses: seq<Seen>,
    incomes: seq<Seen>,
    store: Incomes.Store,
    calls: seq<ExpenseCases.Call>)

  /** Counters and errors together: every transaction adds exactly one. */
  function Tally(r: ImportResult): nat {
    r.skipped + r.expensesCreated + r.incomesCreated + |r.errors|
  }

  /** One pass of the loop body for transaction `t` at position `k`. */
  function Step(repo: ExpenseCases.ExpenseRepo, userId: string, ids: nat -> string, now: int,
                st: State, t: ImportedTransaction, k: nat): (r: State)
    ensures Tally(r.result) == Tally(st.result) + 1
    ensures r.result.totalTransactions == st.result.totalTransactions
    ensures Consistent(st.result) ==> Consistent(r.result)
    ensures r.result.expensesCreated == st.result.expensesCreated + |r.expenses| - |st.expenses|
    ensures r.result.incomesCreated == st.result.incomesCreated + |r.incomes| - |st.incomes|
    ensures st.expenses <= r.expenses && st.incomes <= r.incomes && st.store <= r.store
    ensures IsDuplicate(t, st.expenses, st.incomes) == Success(true) ==> r == st.(result := st.result.(skipped := st.result.skipped + 1))
  {
    match IsDuplicate(t, st.expenses, st.incomes)
    case Failure(e) => st.(result := AddError(st.result, TransactionFailed(t.description, e)))
    case Success(duplicate) =>
      if duplicate then st.(result := st.result.(skipped := st.result.skipped + 1))
      else if t.isExpense then
        var o := ExpenseCases.CreateExpense(repo, ExpenseFromTransaction(userId, t, ids(k), now));
        var st' := st.(calls := st.calls + o.calls);
        match o.result
        case Failure(e) => st'.(result := AddError(st.result, TransactionFailed(t.description, e)))
        case Success(None) => st'.(result := AddError(st.result, ExpenseNotCreated(t.description)))
        case Success(Some(created)) =>
          st'.(result := st.result.(expensesCreated := st.result.expensesCreated + 1),
               expenses := st.expenses + [ExpenseSeen(created)])
      else
        var o := IncomeCases.CreateIncome(st.store, IncomeFromTransaction(userId, t, ids(k), now), now);
        match o.result
        case Failure(e) => st.(result := AddError(st.result, TransactionFailed(t.description, e)))
        case Success(None) => st.(result := AddError(st.result, IncomeNotCreated(t.description)))
        case Success(Some(created)) =>
          st.(result := st.result.(incomesCreated := st.result.incomesCreated + 1),
              incomes := st.incomes + [IncomeSeen(created)],
              store := o.incomes)
  }

  /** The loop over the transactions, the first at position `k`. */
  function Run(repo: ExpenseCases.ExpenseRepo, userId: string, ids: nat -> string, now: int,
               st: State, ts: seq<ImportedTransaction>, k: nat): (r: State)
    ensures Tally(r.result) == Tally(st.result) + |ts|
    ensures r.result.totalTransactions == st.result.totalTransactions
    ensures Consistent(st.result) ==> Consistent(r.result)
    ensures r.result.expensesCreated == st.result.expensesCreated + |r.expenses| - |st.expenses|
    ensures r.result.incomesCreated == st.result.incomesCreated + |r.incomes| - |st.incomes|
    ensures st.expenses <= r.expenses && st.incomes <= r.incomes && st.store <= r.store
    decreases |ts|
  {
    if ts == [] then st
    else Run(repo, userId, ids, now, Step(repo, userId, ids, now, st, ts[0], k), ts[1..], k + 1)
  }

  /** What the import leaves behind: its report, the income table and the
      writes asked of the expense repository. */
  datatype Imported = Imported(result: ImportResult, incomes: Incomes.Store, calls: seq<ExpenseCases.Call>)

  /** `ImportCSV.execute`. A file the reader rejects, or a failing read of the
      user's expenses, ends the import with one file-level error. */
  function Import(repo: ExpenseCases.ExpenseRepo, store: Incomes.Store, lib: CsvParser.Library,
                  ids: nat -> string, now: int, userId: string, content: string): (r: Imported)
    ensures CsvParser.Parse(content, lib).None? ==> r == Imported(AddError(Initial, FileFailed), store, [])
    ensures CsvParser.Parse(content, lib).Some? ==> r.result.totalTransactions == |CsvParser.Parse(content, lib).value|
    ensures CsvParser.Parse(content, lib).Some? && repo.getByUserId(userId).Failure? ==>
      r.result.errors == [FileFailed] && !r.result.success && r.incomes == store && r.calls == []
    ensures CsvParser.Parse(content, lib).Some? && repo.getByUserId(userId).Success? ==>
      Tally(r.result) == r.result.totalTransactions && Consistent(r.result) && store <= r.incomes
  {
    match CsvParser.Parse(content, lib)
    case None => Imported(AddError(Initial, FileFailed), store, [])
    case Some(ts) =>
      var counted := Initial.(totalTransactions := |ts|);
      match repo.getByUserId(userId)
      case Failure(_) => Imported(AddError(counted, FileFailed), store, [])
      case Success(existing) =>
        var listed := Incomes.GetAllByUserId(store, userId, 0, Incomes.DefaultLimit);
        var st := State(counted, ExpensesSeen(existing), IncomesSeen(listed), store, []);
        var r := Run(repo, userId, ids, now, st, ts, 0);
        Imported(r.result, r.store, r.calls)
  }

  /** An expense created by the import makes a later identical transaction a
      duplicate, provided the repository stores what it is given and the
      records compared so far are dated. */
  lemma CreatedExpenseIsDuplicate(repo: ExpenseCases.ExpenseRepo, userId: string, ids: nat -> string, now: int,
                                  st: State, t: ImportedTransaction, k: nat)
    requires t.isExpense && AllDated(st.expenses)
    requires IsDuplicate(t, st.expenses, st.incomes) == Success(false)
    requires userId != "" && t.description != "" && t.amount != 0.0
    requires var e := ExpenseFromTransaction(userId, t, ids(k), now); repo.create(e) == Success(e)
    ensures var r := Step(repo, userId, ids, now, st, t, k);
      r.result.expensesCreated == st.result.expensesCreated + 1 && IsDuplicate(t, r.expenses, r.incomes) == Success(true)
  {
    var e := ExpenseFromTransaction(userId, t, ids(k), now);
    ImportedExpenseValid(userId, t, ids(k), now);
    AnyMatchLast(st.expenses, ExpenseSeen(e), t);
  }

  /** The same for an income, provided its identifier is free. */
  lemma CreatedIncomeIsDuplicate(repo: ExpenseCases.ExpenseRepo, userId: string, ids: nat -> string, now: int,
                                 st: State, t: ImportedTransaction, k: nat)
    requires !t.isExpense && AllDated(st.incomes)
    requires IsDuplicate(t, st.expenses, st.incomes) == Success(false)
    requires userId != "" && t.description != "" && t.amount != 0.0
    requires !Incomes.HasId(st.store, ids(k))
    ensures var r := Step(repo, userId, ids, now, st, t, k);
      r.result.incomesCreated == st.result.incomesCreated + 1 && IsDuplicate(t, r.expenses, r.incomes) == Success(true)
  {
    var x := IncomeFromTransaction(userId, t, ids(k), now);
    ImportedIncomeValid(userId, t, ids(k), now);
    var o := IncomeCases.CreateIncome(st.store, x, now);
    var n := o.result.value.value;
    assert IncomeSeen(n) == IncomeSeen(x);
    AnyMatchLast(st.incomes, IncomeSeen(n), t);
  }

  /** Once a transaction is a duplicate, it stays one for the rest of the import. */
  lemma {:induction false} DuplicateStays(repo: ExpenseCases.ExpenseRepo, userId: string, ids: nat -> string, now: int,
                                          st: State, ts: seq<ImportedTransaction>, k: nat, t: ImportedTransaction)
    requires IsDuplicate(t, st.expenses, st.incomes) == Success(true)
    ensures var r := Run(repo, userId, ids, now, st, ts, k); IsDuplicate(t, r.expenses, r.incomes) == Success(true)
    decreases |ts|
  {
    if ts != [] {
      var next := Step(repo, userId, ids, now, st, ts[0], k);
      if t.isExpense {
        AnyMatchAppend(st.expenses, next.expenses[|st.expenses|..], t);
        assert st.expenses + next.expenses[|st.expenses|..] == next.expenses;
      } else {
        AnyMatchAppend(st.incomes, next.incomes[|st.incomes|..], t);
        assert st.incomes + next.incomes[|st.incomes|..] == next.incomes;
      }
      DuplicateStays(repo, userId, ids, now, next, ts[1..], k + 1, t);
    }
  }
}

=== FILE: import_result.dfy ===
/** The records of a bank-statement import: one parsed transaction, and the
    import's counters and error list. */
module ImportResult {
  import opened Entities

  /** A transaction read from the statement. `amount` is never negative; the
      sign went into `isExpense`. */
  datatype ImportedTransaction = ImportedTransaction(
    date: int,
    description: string,
    amount: real,
    category: string,
    categoryParent: string,
    supplier: string,
    isExpense: bool,
    isRecurring: bool,
    accountLabel: string)

  /** An entry of the error list: a creation the use case refused ("Échec de
      création de la dépense" / "du revenu"), an exception while importing one
      transaction, or an exception before the loop ("Erreur lors du parsing du
      CSV"). */
  datatype ImportError =
    | ExpenseNotCreated(description: string)
    | IncomeNotCreated(description: string)
    | TransactionFailed(description: string, cause: Raised)
    | FileFailed

  datatype ImportResult = ImportResult(
    totalTransactions: nat,
    expensesCreated: nat,
    incomesCreated: nat,
    errors: seq<ImportError>,
    skipped: nat,
    success: bool)

  /** The result an import starts from. */
  const Initial: ImportResult := ImportResult(0, 0, 0, [], 0, true)

  /** `add_error`: records the error at the end of the list and marks the
      import as failed; nothing else changes. */
  function AddError(r: ImportResult, e: ImportError): (s: ImportResult)
    ensures s.errors == r.errors + [e] && |s.errors| == |r.errors| + 1
    ensures !s.success
    ensures s.totalTransactions == r.totalTransactions && s.skipped == r.skipped
    ensures s.expensesCreated == r.expensesCreated && s.incomesCreated == r.incomesCreated
  {
    r.(errors := r.errors + [e], success := false)
  }

  /** Several errors recorded one after the other. */
  function AddErrors(r: ImportResult, es: seq<ImportError>): ImportResult
    decreases |es|
  {
    if es == [] then r else AddErrors(AddError(r, es[0]), es[1..])
  }

  /** Recording errors appends them in order, keeps the counters, and leaves
      the import successful only if there was nothing to record: success never
      comes back once lost. */
  lemma {:induction false} AddErrorsSpec(r: ImportResult, es: seq<ImportError>)
    ensures AddErrors(r, es).errors == r.errors + es
    ensures AddErrors(r, es).success <==> r.success && es == []
    ensures AddErrors(r, es) == r.(errors := r.errors + es, success := r.success && es == [])
    decreases |es|
  {
    if es != [] {
      AddErrorsSpec(AddError(r, es[0]), es[1..]);
      assert r.errors + [es[0]] + es[1..] == r.errors + es;
    }
  }

  /** The import's invariant: it is successful exactly when no error was recorded. */
  predicate Consistent(r: ImportResult) {
    r.success <==> r.errors == []
  }
}

=== FILE: income_cases.dfy ===
/** The income use cases: creating, updating and deleting an income. Creation and
    deletion swallow their own `ValueError`s and answer `None`; the update lets
    them through. Creation checks the recurring flag it was given and only then
    derives it from the frequency; the update derives it first. */
module IncomeCases {
  import opened Wrappers
  import opened Entities
  import opened Messages
  import Incomes = IncomeStore

  /** The income with `is_recurring` derived from its frequency: recurring exactly
      when a frequency is given and it is not one-time. */
  function WithDerivedRecurrence(x: Income): (r: Income)
    ensures r.isRecurring <==> x.frequency.Some? && x.frequency.value != OneTime
    ensures r == x.(isRecurring := r.isRecurring)
  {
    x.(isRecurring := x.frequency.Some? && x.frequency.value != OneTime)
  }

  /** What creation requires of an income. */
  predicate CreateValid(x: Income) {
    && x.userId != "" && x.name != "" && x.amount != 0.0 && x.date.Some? && x.category.Some?
    && !(x.isRecurring && x.frequency.None?)
  }

  /** `CreateIncome.validate_income`: the first failed check, in source order. */
  function ValidateForCreate(x: Income): (r: Option<Message>)
    ensures r.None? <==> CreateValid(x)
    ensures r == Some(UserRequired) <==> x.userId == ""
    ensures r == Some(NameRequired) <==> x.userId != "" && x.name == ""
    ensures r == Some(AmountRequired) <==> x.userId != "" && x.name != "" && x.amount == 0.0
    ensures r == Some(DateRequired) <==> x.userId != "" && x.name != "" && x.amount != 0.0 && x.date.None?
    ensures r == Some(CategoryRequired) <==>
      x.userId != "" && x.name != "" && x.amount != 0.0 && x.date.Some? && x.category.None?
    ensures r == Some(FrequencyRequiredForRecurring) <==>
      x.userId != "" && x.name != "" && x.amount != 0.0 && x.date.Some? && x.category.Some?
      && x.isRecurring && x.frequency.None?
  {
    if x.userId == "" then Some(UserRequired)
    else if x.name == "" then Some(NameRequired)
    else if x.amount == 0.0 then Some(AmountRequired)
    else if x.date.None? then Some(DateRequired)
    else if x.category.None? then Some(CategoryRequired)
    else if x.isRecurring && x.frequency.None? then Some(FrequencyRequiredForRecurring)
    else None
  }

  datatype Created = Created(incomes: Incomes.Store, result: Result<Option<Income>, Raised>)

  /** `CreateIncome.execute`: an invalid income answers `None` and stores nothing;
      otherwise the income, with its recurring flag derived and both timestamps
      set to `now`, is stored and returned. A taken id is not a `ValueError` and
      is raised. */
  function CreateIncome(incomes: Incomes.Store, x: Income, now: int): (o: Created)
    ensures !CreateValid(x) ==> o == Created(incomes, Success(None))
    ensures CreateValid(x) && Incomes.HasId(incomes, x.id) ==> o == Created(incomes, Failure(IntegrityError))
    ensures o.result.Success? && o.result.value.Some? ==>
      var n := o.result.value.value;
      && CreateValid(x) && !Incomes.HasId(incomes, x.id)
      && o.incomes == incomes + [n]
      && n == x.(isRecurring := n.isRecurring, createdAt := now, updatedAt := now)
      && (n.isRecurring <==> x.frequency.Some? && x.frequency.value != OneTime)
    ensures CreateValid(x) && !Incomes.HasId(incomes, x.id) ==> o.result.Success? && o.result.value.Some?
  {
    if ValidateForCreate(x).Some? then Created(incomes, Success(None))
    else
      var n := WithDerivedRecurrence(x).(createdAt := now, updatedAt := now);
      match Incomes.Create(incomes, n)
      case Failure(e) => Created(incomes, Failure(e))
      case Success(stored) => Created(stored, Success(Some(n)))
  }

  /** What the update requires of an income once its recurring flag is derived. */
  predicate UpdateValid(x: Income) {
    x.id != "" && x.userId != "" && x.name != "" && x.amount != 0.0 && x.date.Some?
  }

  /** `UpdateIncome.validate_income`: the first failed check, in source order. */
  function ValidateForUpdate(x: Income): (r: Option<Message>)
    ensures r.None? <==> UpdateValid(x) && !(x.isRecurring && x.frequency.None?)
    ensures r == Some(IncomeIdRequired) <==> x.id == ""
    ensures r == Some(UserRequired) <==> x.id != "" && x.userId == ""
    ensures r == Some(NameRequired) <==> x.id != "" && x.userId != "" && x.name == ""
    ensures r == Some(AmountRequired) <==> x.id != "" && x.userId != "" && x.name != "" && x.amount == 0.0
    ensures r == Some(DateRequired) <==> x.id != "" && x.userId != "" && x.name != "" && x.amount != 0.0 && x.date.None?
    ensures r == Some(FrequencyRequiredForRecurring) <==> UpdateValid(x) && x.isRecurring && x.frequency.None?
  {
    if x.id == "" then Some(IncomeIdRequired)
    else if x.userId == "" then Some(UserRequired)
    else if x.name == "" then Some(NameRequired)
    else if x.amount == 0.0 then Some(AmountRequired)
    else if x.date.None? then Some(DateRequired)
    else if x.isRecurring && x.frequency.None? then Some(FrequencyRequiredForRecurring)
    else None
  }

  datatype Updated = Updated(incomes: Incomes.Store, result: Result<Income, Raised>)

  /** `UpdateIncome.execute`: derives the recurring flag, validates the income,
      then the caller's id, then replaces the row the income's own id and owner
      address. Every refusal is raised and leaves the table unchanged. */
  function UpdateIncome(incomes: Incomes.Store, x: Income, userId: string): (o: Updated)
    ensures o.result.Failure? ==> o.incomes == incomes && o.result.error.ValueError?
    ensures o.result != Failure(ValueError(FrequencyRequiredForRecurring))
    ensures !UpdateValid(x) ==> o.result == Failure(ValueError(ValidateForUpdate(x).value))
    ensures UpdateValid(x) && userId == "" ==> o.result == Failure(ValueError(OwnerIdRequired))
    ensures o.result == Failure(ValueError(IncomeNotUpdated)) <==>
      UpdateValid(x) && userId != "" && forall k :: 0 <= k < |incomes| ==> !Incomes.Addresses(incomes[k], x.id, x.userId)
    // A valid income, a caller id and an addressed row: the update goes through.
    ensures o.result.Success? <==>
      UpdateValid(x) && userId != "" && exists k :: 0 <= k < |incomes| && Incomes.Addresses(incomes[k], x.id, x.userId)
    ensures o.result.Success? ==>
      && UpdateValid(x) && userId != ""
      && o.result.value == WithDerivedRecurrence(x)
      && exists i :: 0 <= i < |incomes| && Incomes.Addresses(incomes[i], x.id, x.userId)
                     && o.incomes == incomes[i := o.result.value]
  {
    var n := WithDerivedRecurrence(x);
    match ValidateForUpdate(n)
    case Some(m) => Updated(incomes, Failure(ValueError(m)))
    case None =>
      if userId == "" then Updated(incomes, Failure(ValueError(OwnerIdRequired)))
      else
        match Incomes.Update(incomes, n)
        case (_, None) => Updated(incomes, Failure(ValueError(IncomeNotUpdated)))
        case (stored, Some(u)) => Updated(stored, Success(u))
  }

  /** The update is scoped by the owner written in the income, not by the caller's
      id, which only has to be non-empty. */
  lemma UpdateScopedByIncomeOwner(incomes: Incomes.Store, x: Income, caller: string, other: string)
    requires caller != "" && other != ""
    ensures UpdateIncome(incomes, x, caller) == UpdateIncome(incomes, x, other)
  {
  }

  /** `DeleteIncome.execute`: an empty user id, an empty income id or an income
      the user does not own leaves the table alone; otherwise that one row is
      deleted. Nothing is raised either way. */
  function DeleteIncome(incomes: Incomes.Store, incomeId: string, userId: string): (r: Incomes.Store)
    ensures userId == "" || incomeId == "" || Incomes.GetById(incomes, incomeId, userId).None? ==> r == incomes
    ensures userId != "" && incomeId != "" && Incomes.GetById(incomes, incomeId, userId).Some? ==>
      |r| == |incomes| - 1 && exists i :: 0 <= i < |incomes| && Incomes.Addresses(incomes[i], incomeId, userId) && r == incomes[..i] + incomes[i + 1..]
  {
    if userId == "" || incomeId == "" || Incomes.GetById(incomes, incomeId, userId).None? then incomes
    else Incomes.Delete(incomes, incomeId, userId).0
  }

  /** After a deletion the user's income is gone, and it is still gone after the
      same deletion is repeated. */
  lemma DeleteIncomeRemoves(incomes: Incomes.Store, incomeId: string, userId: string)
    requires Incomes.UniqueIds(incomes)
    ensures Incomes.GetById(DeleteIncome(incomes, incomeId, userId), incomeId, userId).None?
            || userId == "" || incomeId == ""
    ensures DeleteIncome(DeleteIncome(incomes, incomeId, userId), incomeId, userId) == DeleteIncome(incomes, incomeId, userId)
  {
    if userId != "" && incomeId != "" {
      Incomes.DeleteThenGet(incomes, incomeId, userId);
    }
  }
}

=== FILE: income_store.dfy ===
/** The income repository as an in-memory table in insertion order, keyed by the
    income id. Every lookup, update and deletion is scoped by the owner: a row is
    addressed by its id and its user id together. */
module IncomeStore {
  import opened Wrappers
  import opened Entities
  import opened Seqs
  import opened Sorting

  type Store = seq<Income>

  /** The table's key constraint: the id is the primary key. */
  ghost predicate UniqueIds(s: Store) {
    forall i, j :: 0 <= i < j < |s| ==> s[i].id != s[j].id
  }

  predicate HasId(s: Store, id: string) {
    exists i :: 0 <= i < |s| && s[i].id == id
  }

  /** The row is the income `id` of user `userId`. */
  predicate Addresses(x: Income, id: string, userId: string) {
    x.id == id && x.userId == userId
  }

  /** `create`: inserts the income; a taken id is an integrity error. */
  function Create(s: Store, x: Income): (r: Result<Store, Raised>)
    ensures r.Success? <==> !HasId(s, x.id)
    ensures r.Success? ==> r.value == s + [x]
    ensures r.Failure? ==> r.error == IntegrityError
    ensures UniqueIds(s) && r.Success? ==> UniqueIds(r.value)
  {
    match FindFirst(s, (y: Income) => y.id == x.id)
    case Some(_) => Failure(IntegrityError)
    case None => Success(s + [x])
  }

  function Locate(s: Store, id: string, userId: string): (r: Option<nat>)
    ensures r.Some? ==> r.value < |s| && Addresses(s[r.value], id, userId)
    ensures r.Some? ==> forall k :: 0 <= k < r.value ==> !Addresses(s[k], id, userId)
    ensures r.None? <==> forall k :: 0 <= k < |s| ==> !Addresses(s[k], id, userId)
  {
    FindFirst(s, (y: Income) => Addresses(y, id, userId))
  }

  /** `get_by_id`: the user's income with this id, or `None`. */
  function GetById(s: Store, id: string, userId: string): (r: Option<Income>)
    ensures r.Some? ==> r.value in s && Addresses(r.value, id, userId)
    ensures r.None? <==> forall k :: 0 <= k < |s| ==> !Addresses(s[k], id, userId)
  {
    match Locate(s, id, userId)
    case None => None
    case Some(i) => Some(s[i])
  }

  /** The key a row is ordered by: its date, with a missing date ordered as the epoch. */
  function DateKey(x: Income): int {
    x.date.GetOr(0)
  }

  /** The user's incomes, latest date first. */
  function Owned(s: Store, userId: string): (r: seq<Income>)
    ensures SortedDesc(r, DateKey)
    ensures forall x :: x in r <==> x in s && x.userId == userId
    // Each of the user's rows appears as often as in the table, no other row at all.
    ensures forall x :: multiset(r)[x] == if x.userId == userId then multiset(s)[x] else 0
  {
    var mine := Filter(s, (x: Income) => x.userId == userId);
    var sorted := SortDesc(mine, DateKey);
    assert forall x :: x in sorted <==> x in s && x.userId == userId by {
      forall x ensures x in sorted <==> x in s && x.userId == userId {
        FilterMembership(s, (x: Income) => x.userId == userId, x);
        SortDescMembership(mine, DateKey, x);
      }
    }
    sorted
  }

  /** The default page size of `get_all_by_user_id`. */
  const DefaultLimit: nat := 100

  /** `get_all_by_user_id`: the page of the user's incomes, latest date first,
      that starts `skip` rows in and holds at most `limit` rows. */
  function GetAllByUserId(s: Store, userId: string, skip: nat, limit: nat): (r: seq<Income>)
    ensures |r| <= limit
    // `OFFSET skip LIMIT limit` over the user's date-ordered incomes.
    ensures var n := |Owned(s, userId)|;
      |r| == if skip >= n then 0 else if n - skip < limit then n - skip else limit
    ensures forall k :: 0 <= k < |r| ==> skip + k < |Owned(s, userId)| && r[k] == Owned(s, userId)[skip + k]
    ensures forall k :: 0 <= k < |r| ==> r[k] in s && r[k].userId == userId
    ensures SortedDesc(r, DateKey)
    ensures skip == 0 && |Owned(s, userId)| <= limit ==> r == Owned(s, userId)
  {
    var owned := Owned(s, userId);
    PageOf(owned, s, userId, skip, limit);
    Window(owned, skip, limit)
  }

  /** A page of a date-ordered list of the user's incomes is a date-ordered
      run of the user's incomes. */
  lemma PageOf(owned: seq<Income>, s: Store, userId: string, skip: nat, limit: nat)
    requires SortedDesc(owned, DateKey)
    requires forall x :: x in owned ==> x in s && x.userId == userId
    ensures var r := Window(owned, skip, limit);
      && (forall k :: 0 <= k < |r| ==> r[k] in s && r[k].userId == userId)
      && SortedDesc(r, DateKey)
      && (skip == 0 && |owned| <= limit ==> r == owned)
  {
    var r := Window(owned, skip, limit);
    WindowKeepsOrder(owned, skip, limit);
    WindowOfAll(owned, skip, limit);
  }

  /** The window draws from the list, and from the start of a short enough
      list it is the whole list. */
  lemma WindowOfAll(s: seq<Income>, skip: nat, limit: nat)
    ensures forall k :: 0 <= k < |Window(s, skip, limit)| ==> Window(s, skip, limit)[k] in s
    ensures skip == 0 && |s| <= limit ==> Window(s, skip, limit) == s
  {
    var r := Window(s, skip, limit);
    assert forall k :: 0 <= k < |r| ==> r[k] == s[skip + k];
  }

  /** A window of a list in date order is in date order. */
  lemma WindowKeepsOrder(s: seq<Income>, skip: nat, limit: nat)
    requires SortedDesc(s, DateKey)
    ensures SortedDesc(Window(s, skip, limit), DateKey)
  {
    var r := Window(s, skip, limit);
    forall i, j | 0 <= i < j < |r| ensures DateKey(r[i]) >= DateKey(r[j]) {
      assert r[i] == s[skip + i] && r[j] == s[skip + j];
    }
  }

  /** `update`: replaces every field of the row addressed by the income's own id
      and user id, and returns it; `None` and no change when there is no such row. */
  function Update(s: Store, x: Income): (r: (Store, Option<Income>))
    ensures |r.0| == |s|
    ensures r.1.None? <==> forall k :: 0 <= k < |s| ==> !Addresses(s[k], x.id, x.userId)
    ensures r.1.None? ==> r.0 == s
    ensures r.1.Some? ==> r.1.value == x
    ensures r.1.Some? ==> exists i :: 0 <= i < |s| && Addresses(s[i], x.id, x.userId) && r.0 == s[i := x]
    ensures UniqueIds(s) ==> UniqueIds(r.0)
  {
    match Locate(s, x.id, x.userId)
    case None => (s, None)
    case Some(i) =>
      var r := s[i := x];
      assert UniqueIds(s) ==> UniqueIds(r) by {
        if UniqueIds(s) {
          forall a, b | 0 <= a < b < |r| ensures r[a].id != r[b].id {
            assert r[a].id == s[a].id && r[b].id == s[b].id;
          }
        }
      }
      (r, Some(x))
  }

  /** `delete`: removes the row addressed by id and user id and answers `true`;
      answers `false` and changes nothing when there is no such row. */
  function Delete(s: Store, id: string, userId: string): (r: (Store, bool))
    ensures r.1 <==> exists k :: 0 <= k < |s| && Addresses(s[k], id, userId)
    ensures !r.1 ==> r.0 == s
    ensures r.1 ==> exists i :: 0 <= i < |s| && Addresses(s[i], id, userId) && r.0 == s[..i] + s[i + 1..]
    ensures r.1 ==> |r.0| == |s| - 1
  {
    match Locate(s, id, userId)
    case None => (s, false)
    case Some(i) => (s[..i] + s[i + 1..], true)
  }

  /** A created income is found again by its id and owner. */
  lemma CreateThenGet(s: Store, x: Income)
    requires Create(s, x).Success?
    ensures GetById(Create(s, x).value, x.id, x.userId) == Some(x)
  {
    var r := Create(s, x).value;
    assert Addresses(r[|s|], x.id, x.userId);
    var i := Locate(r, x.id, x.userId).value;
    if i < |s| {
      assert false;
    }
  }

  /** Another user cannot read an income: under the key constraint, the lookup
      with any other user id finds nothing. */
  lemma OtherUserSeesNothing(s: Store, i: nat, userId: string)
    requires UniqueIds(s) && i < |s| && s[i].userId != userId
    ensures GetById(s, s[i].id, userId).None?
  {
  }

  /** After an update, the lookup returns the new version. */
  lemma UpdateThenGet(s: Store, x: Income)
    requires UniqueIds(s)
    requires Update(s, x).1.Some?
    ensures GetById(Update(s, x).0, x.id, x.userId) == Some(x)
  {
    var r := Update(s, x).0;
    var i :| 0 <= i < |s| && Addresses(s[i], x.id, x.userId) && r == s[i := x];
    assert Addresses(r[i], x.id, x.userId);
    var j := Locate(r, x.id, x.userId).value;
    if j != i {
      assert false;
    }
  }

  /** After a deletion, under the key constraint, the income is gone. */
  lemma DeleteThenGet(s: Store, id: string, userId: string)
    requires UniqueIds(s)
    ensures GetById(Delete(s, id, userId).0, id, userId).None?
  {
    var r := Delete(s, id, userId);
    if r.1 {
      var i :| 0 <= i < |s| && Addresses(s[i], id, userId) && r.0 == s[..i] + s[i + 1..];
      forall k | 0 <= k < |r.0| ensures !Addresses(r.0[k], id, userId) {
        if k < i {
          assert r.0[k] == s[k];
        } else {
          assert r.0[k] == s[k + 1];
        }
      }
    }
  }
}

=== FILE: messages.dfy ===
/** The error messages the backend raises. Each message is a constructor, so the
    model compares messages by identity; `Text` gives the French wording the
    backend uses. */
module Messages {

  datatype Message =
    // Password reset
    | IdentifierRequired
    | NoUserWithIdentifiers
    | NoPhoneNumber
    | PasswordTooShort
    | InvalidOrExpiredCode
    | OwnerNotFound
    // Sessions and tokens
    | SessionExpiredOrInvalid
    | SessionNotFound
    | SessionAlreadyRevoked
    | NoSessionFound
    // Login and registration
    | InvalidCredentials
    | FieldRequired(field: string)
    | InvalidEmail
    | UserAlreadyExists
    // User profile
    | UserIdRequired
    | UserDoesNotExist
    | UserNotFound
    | FirstNameEmpty
    | FirstNameTooLong
    | LastNameEmpty
    | LastNameTooLong
    | EmailEmpty
    | EmailTaken
    // Incomes and expenses
    | UserRequired
    | NameRequired
    | AmountRequired
    | DateRequired
    | CategoryRequired
    | FrequencyRequiredForRecurring
    | IncomeIdRequired
    | IncomeNotFound
    | IncomeNotUpdated
    | OwnerIdRequired
    | ExpenseIdRequired
    | ExpenseNameRequired
    | ExpenseAmountRequired
    | ExpenseDateRequired
    | ExpenseNotFound
    // Forecast
    | PeriodRequired
  {
    function Text(): string {
      match this
      case IdentifierRequired => "Email ou numéro de téléphone requis"
      case NoUserWithIdentifiers => "Aucun utilisateur trouvé avec ces identifiants"
      case NoPhoneNumber => "Cet utilisateur n'a pas de numéro de téléphone configuré"
      case PasswordTooShort => "Le mot de passe doit contenir au moins 8 caractères"
      case InvalidOrExpiredCode => "Code invalide ou expiré"
      case OwnerNotFound => "Utilisateur introuvable"
      case SessionExpiredOrInvalid => "Session expirée ou invalide"
      case SessionNotFound => "Session non trouvée"
      case SessionAlreadyRevoked => "Session déjà revoquée"
      case NoSessionFound => "Aucune session trouvée"
      case InvalidCredentials => "Vos identifiants sont invalides"
      case FieldRequired(field) => "Le champ " + field + " est requis"
      case InvalidEmail => "L'email est invalide"
      case UserAlreadyExists => "L'utilisateur existe déjà"
      case UserIdRequired => "L'identifiant de l'utilisateur est requis"
      case UserDoesNotExist => "L'utilisateur n'existe pas"
      case UserNotFound => "Utilisateur non trouvé"
      case FirstNameEmpty => "Le prénom ne peut pas être vide"
      case FirstNameTooLong => "Le prénom est trop long"
      case LastNameEmpty => "Le nom ne peut pas être vide"
      case LastNameTooLong => "Le nom est trop long"
      case EmailEmpty => "L'email ne peut pas être vide"
      case EmailTaken => "Cet email est déjà utilisé"
      case UserRequired => "L'utilisateur est requis"
      case NameRequired => "Le nom est requis"
      case AmountRequired => "Le montant est requis"
      case DateRequired => "La date est requise"
      case CategoryRequired => "La catégorie est requise"
      case FrequencyRequiredForRecurring => "La fréquence est requise pour un revenu récurrent"
      case IncomeIdRequired => "L'id du revenu est requis"
      case IncomeNotFound => "Le revenu n'existe pas"
      case IncomeNotUpdated => "Le revenu n'existe pas ou n'a pas pu être mis à jour"
      case OwnerIdRequired => "L'id de l'utilisateur est requis"
      case ExpenseIdRequired => "L'id de la dépense est requis"
      case ExpenseNameRequired => "Le nom de la dépense est requis"
      case ExpenseAmountRequired => "Le montant de la dépense est requis"
      case ExpenseDateRequired => "La date de la dépense est requise"
      case ExpenseNotFound => "La dépense n'existe pas"
      case PeriodRequired => "La période est requise"
    }
  }
}

=== FILE: password_reset.dfy ===
/** The two steps of the SMS password reset: requesting a code, then verifying it
    while choosing a new password. Each step takes the stores it reads and returns
    the stores as they are afterwards, together with its answer or the exception
    it raises. The fresh row id (`uuid4`) and the clock are parameters, and so is
    the code the SMS service generates: any service may be plugged in, and the
    mock service's codes are described in `Sms`. Sending the SMS is taken never
    to raise. */
module PasswordReset {
  import opened Wrappers
  import opened Entities
  import opened Messages
  import opened Text
  import opened Security
  import opened Sms
  import Users = UserDirectory
  import Codes = ResetCodeStore

  /** A reset code is valid for ten minutes. */
  const CodeLifetime: int := 10 * Minute

  /** Passwords shorter than this are refused. */
  const MinPasswordLength: int := 8

  /** The success messages of the two steps. */
  const CodeSent := "Un code de vérification a été envoyé par SMS"
  const PasswordChanged := "Mot de passe réinitialisé avec succès"

  /** The `{"success": ..., "message": ...}` dictionary both steps return. */
  datatype Reply = Reply(success: bool, message: string)

  /** What a reset request leaves behind: the code table, the SMS handed to the
      service (if any), and the reply or the exception. */
  datatype RequestOutcome = RequestOutcome(
    codes: Codes.Store,
    sms: Option<SmsMessage>,
    result: Result<Reply, Raised>)

  /** What a verification leaves behind: both tables and the reply or the exception. */
  datatype VerifyOutcome = VerifyOutcome(
    users: Users.Directory,
    codes: Codes.Store,
    result: Result<Reply, Raised>)

  /** The user the request designates: by email when one is given, otherwise by phone. */
  function Requester(users: Users.Directory, email: Option<string>, phone: Option<string>): (r: Option<User>)
    requires Truthy(email) || Truthy(phone)
    ensures Truthy(email) ==> r == Users.GetByEmail(users, email.value)
    ensures !Truthy(email) ==> r == Users.GetByPhoneNumber(users, phone.value)
  {
    if Truthy(email) then Users.GetByEmail(users, email.value)
    else Users.GetByPhoneNumber(users, phone.value)
  }

  /** The code table once the user's latest unused code, if any, is retired. */
  function RetireLatest(codes: Codes.Store, userId: string): (r: Codes.Store)
    ensures Codes.GetByUserId(codes, userId).None? ==> r == codes
    ensures Codes.GetByUserId(codes, userId).Some? ==> r == Codes.MarkAsUsed(codes, Codes.GetByUserId(codes, userId).value.id)
    ensures |r| == |codes| && forall i :: 0 <= i < |r| ==> r[i] == codes[i] || r[i] == codes[i].(used := true)
  {
    match Codes.GetByUserId(codes, userId)
    case None => codes
    case Some(prev) =>
      var r := Codes.MarkAsUsed(codes, prev.id);
      assert forall i :: 0 <= i < |r| ==> r[i] == codes[i] || r[i] == codes[i].(used := true) by {
        if Codes.HasId(codes, prev.id) {
          var i :| 0 <= i < |codes| && codes[i].id == prev.id && r[i] == codes[i].(used := true)
            && forall k :: 0 <= k < |codes| && k != i ==> r[k] == codes[k];
        }
      }
      r
  }

  /** The row recorded for a new code. */
  function NewCode(id: string, userId: string, code: string, now: int): (c: PasswordResetCode)
    ensures c.userId == userId && c.code == code && !c.used
    ensures c.createdAt == now && c.expiresAt - c.createdAt == CodeLifetime
  {
    PasswordResetCode(id, userId, code, now + CodeLifetime, now, false)
  }

  /** `RequestPasswordReset.execute`. */
  function RequestReset(users: Users.Directory, codes: Codes.Store, email: Option<string>,
                        phone: Option<string>, freshId: string, code: string, now: int): (o: RequestOutcome)
    // Refusals leave the code table alone and send nothing.
    ensures o.result.Failure? && o.result.error.ValueError? ==> o.codes == codes && o.sms.None?
    ensures !Truthy(email) && !Truthy(phone) <==> o.result == Failure(ValueError(IdentifierRequired))
    ensures (Truthy(email) || Truthy(phone)) && Requester(users, email, phone).None?
      <==> o.result == Failure(ValueError(NoUserWithIdentifiers))
    ensures o.result == Failure(ValueError(NoPhoneNumber)) <==>
      (Truthy(email) || Truthy(phone)) && Requester(users, email, phone).Some?
      && !Truthy(Requester(users, email, phone).value.phoneNumber)
    // Past the checks, the user's latest code is retired and the new one stored;
    // only a taken fresh id (a database key clash) stops the SMS.
    ensures o.result.Success? ==> o.result.value == Reply(true, CodeSent)
    ensures o.result.Success? || o.result == Failure(IntegrityError) ==>
      && (Truthy(email) || Truthy(phone))
      && var u := Requester(users, email, phone);
      && u.Some? && Truthy(u.value.phoneNumber)
      && var retired := RetireLatest(codes, u.value.id);
      && (o.result.Success? <==> !Codes.HasId(retired, freshId))
      && var c := NewCode(freshId, u.value.id, code, now);
      && o.codes == (if o.result.Success? then retired + [c] else retired)
      && o.sms == (if o.result.Success? then Some(SmsMessage(u.value.phoneNumber.value, ResetMessageText(c.code))) else None)
    // The text sent carries the code.
    ensures o.sms.Some? ==> Contains(o.sms.value.text, code)
    // A request that passes all three checks goes on to store the code and send
    // it: it fails only when the fresh row id is already taken.
    ensures (Truthy(email) || Truthy(phone)) && Requester(users, email, phone).Some?
            && Truthy(Requester(users, email, phone).value.phoneNumber) ==>
      o.result.Success? || o.result == Failure(IntegrityError)
  {
    if !Truthy(email) && !Truthy(phone) then
      RequestOutcome(codes, None, Failure(ValueError(IdentifierRequired)))
    else
      match Requester(users, email, phone)
      case None => RequestOutcome(codes, None, Failure(ValueError(NoUserWithIdentifiers)))
      case Some(user) =>
        if !Truthy(user.phoneNumber) then
          RequestOutcome(codes, None, Failure(ValueError(NoPhoneNumber)))
        else
          Issue(codes, user, freshId, code, now)
  }

  /** The part of a request past the checks: retire the user's latest code, store
      the new one and text it. */
  function Issue(codes: Codes.Store, user: User, freshId: string, code: string, now: int): (o: RequestOutcome)
    requires Truthy(user.phoneNumber)
    ensures o.result.Success? || o.result == Failure(IntegrityError)
    ensures
      var retired := RetireLatest(codes, user.id);
      && (o.result.Success? <==> !Codes.HasId(retired, freshId))
      && var c := NewCode(freshId, user.id, code, now);
      && o.codes == (if o.result.Success? then retired + [c] else retired)
      && o.sms == (if o.result.Success? then Some(SmsMessage(user.phoneNumber.value, ResetMessageText(code))) else None)
    ensures o.result.Success? ==> o.result.value == Reply(true, CodeSent)
  {
    var retired := RetireLatest(codes, user.id);
    match Codes.Add(retired, NewCode(freshId, user.id, code, now))
    case Failure(e) => RequestOutcome(retired, None, Failure(e))
    case Success(stored) =>
      // The result of `send_sms` is not looked at.
      var sms := SmsMessage(user.phoneNumber.value, ResetMessageText(code));
      RequestOutcome(stored, Some(sms), Success(Reply(true, CodeSent)))
  }

  /** `VerifyAndResetPassword.execute`. */
  function VerifyAndReset(users: Users.Directory, codes: Codes.Store, hasher: Hasher,
                          code: string, newPassword: string, now: int): (o: VerifyOutcome)
    // Every refusal leaves both tables as they were.
    ensures o.result.Failure? ==> o.users == users && o.codes == codes
    ensures o.result == Failure(ValueError(PasswordTooShort)) <==> |newPassword| < MinPasswordLength
    // A long enough password meets a code that no unused row carries, or whose
    // first such row has expired.
    ensures o.result == Failure(ValueError(InvalidOrExpiredCode)) <==>
      && |newPassword| >= MinPasswordLength
      && (Codes.GetByCode(codes, code).None? || Codes.GetByCode(codes, code).value.expiresAt < now)
    // The row is good but its user is gone.
    ensures o.result == Failure(ValueError(OwnerNotFound)) <==>
      && |newPassword| >= MinPasswordLength
      && Codes.GetByCode(codes, code).Some?
      && Codes.GetByCode(codes, code).value.expiresAt >= now
      && !Users.HasId(users, Codes.GetByCode(codes, code).value.userId)
    ensures o.result.Success? ==> o.result.value == Reply(true, PasswordChanged)
    // Success consumes the first unused, unexpired row carrying the code and
    // stores the new password's hash for that row's user.
    ensures o.result.Success? <==>
      && |newPassword| >= MinPasswordLength
      && Codes.GetByCode(codes, code).Some?
      && Codes.GetByCode(codes, code).value.expiresAt >= now
      && Users.HasId(users, Codes.GetByCode(codes, code).value.userId)
    ensures o.result.Success? ==>
      var row := Codes.GetByCode(codes, code).value;
      var user := Users.GetById(users, row.userId).value;
      && o.codes == Codes.MarkAsUsed(codes, row.id)
      && o.users == Users.Update(users, user.id, user.(password := hasher.hash(newPassword), updatedAt := now)).0
  {
    if |newPassword| < MinPasswordLength then
      VerifyOutcome(users, codes, Failure(ValueError(PasswordTooShort)))
    else
      match Codes.GetByCode(codes, code)
      case None => VerifyOutcome(users, codes, Failure(ValueError(InvalidOrExpiredCode)))
      case Some(row) =>
        if row.expiresAt < now then
          VerifyOutcome(users, codes, Failure(ValueError(InvalidOrExpiredCode)))
        else if row.used then
          VerifyOutcome(users, codes, Failure(ValueError(InvalidOrExpiredCode)))
        else
          match Users.GetById(users, row.userId)
          case None => VerifyOutcome(users, codes, Failure(ValueError(OwnerNotFound)))
          case Some(user) =>
            var updated := user.(password := hasher.hash(newPassword), updatedAt := now);
            var (users', _) := Users.Update(users, user.id, updated);
            VerifyOutcome(users', Codes.MarkAsUsed(codes, row.id), Success(Reply(true, PasswordChanged)))
  }

  /** A code whose every unused row has expired is refused, whatever the password. */
  lemma ExpiredCodeRefused(users: Users.Directory, codes: Codes.Store, hasher: Hasher,
                           code: string, newPassword: string, now: int)
    requires forall i :: 0 <= i < |codes| && Codes.IsUnusedWithCode(codes[i], code) ==> codes[i].expiresAt < now
    ensures VerifyAndReset(users, codes, hasher, code, newPassword, now).result ==
      if |newPassword| < MinPasswordLength then Failure(ValueError(PasswordTooShort))
      else Failure(ValueError(InvalidOrExpiredCode))
  {
  }

  /** A code works once: after a successful reset, the same code is refused unless
      another unused row happens to carry the same six digits. */
  lemma CodeIsSingleUse(users: Users.Directory, codes: Codes.Store, hasher: Hasher,
                        code: string, p1: string, p2: string, t1: int, t2: int)
    requires Codes.UniqueIds(codes)
    requires forall i, j :: 0 <= i < j < |codes| && Codes.IsUnusedWithCode(codes[i], code)
               ==> !Codes.IsUnusedWithCode(codes[j], code)
    requires VerifyAndReset(users, codes, hasher, code, p1, t1).result.Success?
    ensures
      var o := VerifyAndReset(users, codes, hasher, code, p1, t1);
      VerifyAndReset(o.users, o.codes, hasher, code, p2, t2).result.Failure?
  {
    var o := VerifyAndReset(users, codes, hasher, code, p1, t1);
    var row := Codes.GetByCode(codes, code).value;
    var i :| 0 <= i < |codes| && codes[i] == row
      && forall k :: 0 <= k < i ==> !Codes.IsUnusedWithCode(codes[k], code);
    Codes.MarkAsUsedAt(codes, i);
    assert o.codes == codes[i := row.(used := true)];
    assert Codes.GetByCode(o.codes, code).None? by {
      forall k | 0 <= k < |o.codes| ensures !Codes.IsUnusedWithCode(o.codes[k], code) {
        if k < i {
          assert o.codes[k] == codes[k];
        } else if k > i {
          assert o.codes[k] == codes[k];
          assert Codes.IsUnusedWithCode(codes[i], code);
        }
      }
    }
  }

  /** After a successful reset, the new password verifies against the stored hash
      of the code's owner. */
  lemma ResetPasswordVerifies(users: Users.Directory, codes: Codes.Store, hasher: Hasher,
                              code: string, newPassword: string, now: int)
    requires Users.Keys(users)
    requires VerifyAndReset(users, codes, hasher, code, newPassword, now).result.Success?
    ensures
      var o := VerifyAndReset(users, codes, hasher, code, newPassword, now);
      var owner := Codes.GetByCode(codes, code).value.userId;
      && Users.GetById(o.users, owner).Some?
      && hasher.Verify(newPassword, Users.GetById(o.users, owner).value.password)
  {
    var o := VerifyAndReset(users, codes, hasher, code, newPassword, now);
    var owner := Codes.GetByCode(codes, code).value.userId;
    var user := Users.GetById(users, owner).value;
    var updated := user.(password := hasher.hash(newPassword), updatedAt := now);
    var i :| 0 <= i < |users| && users[i].id == owner && o.users == users[i := updated];
    assert user == users[i] by {
      Users.GetByIdUnique(users, i);
    }
    assert Users.Keys(o.users) by {
      forall a, b | 0 <= a < b < |o.users|
        ensures o.users[a].id != o.users[b].id && o.users[a].email != o.users[b].email
      {
        assert a != i ==> o.users[a] == users[a];
        assert b != i ==> o.users[b] == users[b];
      }
    }
    Users.GetByIdUnique(o.users, i);
  }

  /** A successful request leaves the user with exactly one usable code, the new
      one, and keeps at most one usable code per user overall. */
  lemma RequestRetiresOldCode(users: Users.Directory, codes: Codes.Store, email: Option<string>,
                              phone: Option<string>, freshId: string, code: string, now: int)
    requires Codes.UniqueIds(codes) && Codes.OneLiveCodePerUser(codes)
    ensures
      var o := RequestReset(users, codes, email, phone, freshId, code, now);
      Codes.UniqueIds(o.codes) && Codes.OneLiveCodePerUser(o.codes)
    ensures
      var o := RequestReset(users, codes, email, phone, freshId, code, now);
      o.result.Success? ==>
        var uid := Requester(users, email, phone).value.id;
        forall i :: 0 <= i < |o.codes| && Codes.IsUnusedOf(o.codes[i], uid) ==> i == |o.codes| - 1
  {
    var o := RequestReset(users, codes, email, phone, freshId, code, now);
    if o.result.Success? || o.result == Failure(IntegrityError) {
      var uid := Requester(users, email, phone).value.id;
      var retired := RetireLatest(codes, uid);
      RetireLeavesNoLiveCode(codes, uid);
      if o.result.Success? {
        var c := NewCode(freshId, uid, code, now);
        assert o.codes == retired + [c];
        StoreNewCode(retired, c);
      } else {
        assert o.codes == retired;
      }
    } else {
      assert o.codes == codes;
    }
  }

  /** Appending an unused code for a user who has none keeps both table rules and
      makes it the user's only usable code. */
  lemma StoreNewCode(retired: Codes.Store, c: PasswordResetCode)
    requires Codes.UniqueIds(retired) && Codes.OneLiveCodePerUser(retired)
    requires forall i :: 0 <= i < |retired| ==> !Codes.IsUnusedOf(retired[i], c.userId)
    requires !Codes.HasId(retired, c.id)
    ensures Codes.UniqueIds(retired + [c]) && Codes.OneLiveCodePerUser(retired + [c])
    ensures forall i :: 0 <= i < |retired + [c]| && Codes.IsUnusedOf((retired + [c])[i], c.userId) ==> i == |retired|
  {
    var r := retired + [c];
    forall i, j | 0 <= i < j < |r| && !r[i].used && !r[j].used ensures r[i].userId != r[j].userId {
      if j == |retired| {
        assert r[i] == retired[i];
        assert !Codes.IsUnusedOf(retired[i], c.userId);
      }
    }
    forall i, j | 0 <= i < j < |r| ensures r[i].id != r[j].id {
      if j == |retired| {
        assert r[i] == retired[i];
      }
    }
  }

  /** Retiring the latest unused code leaves the user with none, when the user had
      at most one. */
  lemma RetireLeavesNoLiveCode(codes: Codes.Store, uid: string)
    requires Codes.UniqueIds(codes) && Codes.OneLiveCodePerUser(codes)
    ensures Codes.UniqueIds(RetireLatest(codes, uid)) && Codes.OneLiveCodePerUser(RetireLatest(codes, uid))
    ensures forall i :: 0 <= i < |RetireLatest(codes, uid)| ==> !Codes.IsUnusedOf(RetireLatest(codes, uid)[i], uid)
  {
    var r := RetireLatest(codes, uid);
    match Codes.GetByUserId(codes, uid)
    case None =>
    case Some(prev) =>
      var i :| 0 <= i < |codes| && codes[i] == prev;
      Codes.MarkAsUsedAt(codes, i);
      Codes.MarkAsUsedKeepsOneLive(codes, prev.id);
      forall k | 0 <= k < |r| ensures !Codes.IsUnusedOf(r[k], uid) {
        if k != i {
          assert r[k] == codes[k];
        }
      }
  }

  /** Requesting a code and then entering it before it expires resets the
      requester's password, provided no older unused row carries the same digits. */
  lemma RequestThenVerify(users: Users.Directory, codes: Codes.Store, email: Option<string>,
                          phone: Option<string>, freshId: string, code: string, now: int,
                          hasher: Hasher, newPassword: string, later: int)
    requires forall i :: 0 <= i < |codes| ==> !Codes.IsUnusedWithCode(codes[i], code)
    requires RequestReset(users, codes, email, phone, freshId, code, now).result.Success?
    requires |newPassword| >= MinPasswordLength
    requires now <= later <= now + CodeLifetime
    ensures
      var o := RequestReset(users, codes, email, phone, freshId, code, now);
      var v := VerifyAndReset(users, o.codes, hasher, code, newPassword, later);
      && v.result.Success?
      && Codes.GetByCode(o.codes, code).value.userId == Requester(users, email, phone).value.id
  {
    var o := RequestReset(users, codes, email, phone, freshId, code, now);
    var u := Requester(users, email, phone).value;
    var c := NewCode(freshId, u.id, code, now);
    var retired := RetireLatest(codes, u.id);
    assert o.codes == retired + [c];
    assert Users.HasId(users, c.userId) by {
      var k :| 0 <= k < |users| && users[k] == u;
    }
    VerifyFreshCode(users, retired, c, hasher, newPassword, later);
  }

  /** A freshly stored code whose digits no other unused row carries is accepted until it
      expires. */
  lemma VerifyFreshCode(users: Users.Directory, retired: Codes.Store, c: PasswordResetCode,
                        hasher: Hasher, newPassword: string, later: int)
    requires !Codes.HasId(retired, c.id) && !c.used
    requires forall i :: 0 <= i < |retired| ==> !Codes.IsUnusedWithCode(retired[i], c.code)
    requires Users.HasId(users, c.userId)
    requires |newPassword| >= MinPasswordLength && later <= c.expiresAt
    ensures Codes.GetByCode(retired + [c], c.code) == Some(c)
    ensures VerifyAndReset(users, retired + [c], hasher, c.code, newPassword, later).result.Success?
  {
    Codes.AddThenGetByCode(retired, c);
  }
}

=== FILE: refresh_token_store.dfy ===
/** The refresh-token repository as an in-memory table in insertion order, keyed
    by the token string. Revoking an unknown token does nothing; a token is valid
    while some row carries it unrevoked. */
module RefreshTokenStore {
  import opened Wrappers
  import opened Entities
  import opened Seqs

  type Store = seq<RefreshToken>

  /** The table's key constraint: the token is the primary key. */
  ghost predicate Keys(s: Store) {
    forall i, j :: 0 <= i < j < |s| ==> s[i].token != s[j].token
  }

  predicate HasToken(s: Store, token: string) {
    exists i :: 0 <= i < |s| && s[i].token == token
  }

  /** `add`: inserts a token; a token already stored is an integrity error. */
  function Add(s: Store, t: RefreshToken): (r: Result<Store, Raised>)
    ensures r.Success? <==> !HasToken(s, t.token)
    ensures r.Success? ==> r.value == s + [t]
    ensures r.Failure? ==> r.error == IntegrityError
    ensures Keys(s) && r.Success? ==> Keys(r.value)
  {
    match FindFirst(s, (x: RefreshToken) => x.token == t.token)
    case Some(_) => Failure(IntegrityError)
    case None => Success(s + [t])
  }

  /** `revoke`: marks the row carrying `token` revoked; nothing happens when no
      row carries it. No other row changes. */
  function Revoke(s: Store, token: string): (r: Store)
    ensures |r| == |s|
    ensures !HasToken(s, token) ==> r == s
    ensures HasToken(s, token) ==> exists i :: 0 <= i < |s| && s[i].token == token && r == s[i := s[i].(revoked := true)]
  {
    match FindFirst(s, (x: RefreshToken) => x.token == token)
    case None => s
    case Some(i) => s[i := s[i].(revoked := true)]
  }

  /** `is_valid`: some row carries `token` and is not revoked. */
  function IsValid(s: Store, token: string): (r: bool)
    ensures r <==> exists i :: 0 <= i < |s| && s[i].token == token && !s[i].revoked
  {
    FindFirst(s, (x: RefreshToken) => x.token == token && !x.revoked).Some?
  }

  /** `get_by_token`: the row carrying `token`; with no such row the code reads a
      field of `None` and raises. */
  function GetByToken(s: Store, token: string): (r: Result<RefreshToken, Raised>)
    ensures r.Success? ==> r.value in s && r.value.token == token
    ensures r.Failure? <==> !HasToken(s, token)
    ensures r.Failure? ==> r.error == AttributeOfNone
  {
    match FindFirst(s, (x: RefreshToken) => x.token == token)
    case None => Failure(AttributeOfNone)
    case Some(i) => Success(s[i])
  }

  /** `get_by_user_id`: the user's tokens in table order. */
  function GetByUserId(s: Store, userId: string): (r: seq<RefreshToken>)
    ensures forall x :: x in r <==> x in s && x.userId == userId
    ensures forall x :: multiset(r)[x] == if x.userId == userId then multiset(s)[x] else 0
  {
    var r := Filter(s, (x: RefreshToken) => x.userId == userId);
    assert forall x :: x in r <==> x in s && x.userId == userId by {
      forall x ensures x in r <==> x in s && x.userId == userId {
        FilterMembership(s, (x: RefreshToken) => x.userId == userId, x);
      }
    }
    r
  }

  /** A token stored and revoked: the state logout leaves behind. */
  ghost predicate Dead(s: Store, token: string) {
    HasToken(s, token) && !IsValid(s, token)
  }

  /** Under the key constraint, revoking a stored token makes it dead. */
  lemma RevokeKills(s: Store, token: string)
    requires Keys(s) && HasToken(s, token)
    ensures Dead(Revoke(s, token), token)
    ensures Keys(Revoke(s, token))
  {
    var r := Revoke(s, token);
    var i :| 0 <= i < |s| && s[i].token == token && r == s[i := s[i].(revoked := true)];
    assert r[i].token == token;
    forall j | 0 <= j < |r| && r[j].token == token ensures r[j].revoked {
      if j != i {
        assert false;
      }
    }
  }

  /** A dead token stays dead: no later insertion (which fails on the stored
      token) or revocation of any token brings it back. */
  lemma DeadStaysDead(s: Store, token: string, t: RefreshToken, other: string)
    requires Dead(s, token)
    ensures Add(s, t).Success? ==> Dead(Add(s, t).value, token)
    ensures Dead(Revoke(s, other), token)
  {
    if Add(s, t).Success? {
      var r := Add(s, t).value;
      assert t.token != token;
      var i :| 0 <= i < |s| && s[i].token == token;
      assert r[i] == s[i];
    }
    var r := Revoke(s, other);
    var i :| 0 <= i < |s| && s[i].token == token;
    assert r[i].token == token;
    forall j | 0 <= j < |r| && r[j].token == token ensures r[j].revoked {
      assert s[j].token == token;
    }
  }
}

=== FILE: reset_code_store.dfy ===
/** The password-reset code repository as an in-memory table. Rows are kept in
    insertion order; a query's `.first()` is the first matching row. `id` is the
    primary key, so adding a row with an existing id fails. */
module ResetCodeStore {
  import opened Wrappers
  import opened Entities
  import opened Seqs

  type Store = seq<PasswordResetCode>

  /** The primary-key constraint: no two rows share an id. */
  ghost predicate UniqueIds(s: Store) {
    forall i, j :: 0 <= i < j < |s| ==> s[i].id != s[j].id
  }

  predicate HasId(s: Store, id: string) {
    exists i :: 0 <= i < |s| && s[i].id == id
  }

  /** Inserting a row, rejected with an integrity error when its id is taken. */
  function Add(s: Store, c: PasswordResetCode): (r: Result<Store, Raised>)
    ensures r.Success? <==> !HasId(s, c.id)
    ensures r.Success? ==> r.value == s + [c]
    ensures r.Failure? ==> r.error == IntegrityError
    ensures UniqueIds(s) && r.Success? ==> UniqueIds(r.value)
  {
    match FindFirst(s, (x: PasswordResetCode) => x.id == c.id)
    case Some(_) => Failure(IntegrityError)
    case None => Success(s + [c])
  }

  predicate IsUnusedWithCode(c: PasswordResetCode, code: string) {
    c.code == code && !c.used
  }

  /** The first unused row carrying `code`; expiry is not looked at. */
  function GetByCode(s: Store, code: string): (r: Option<PasswordResetCode>)
    ensures r.Some? ==> r.value in s && r.value.code == code && !r.value.used
    ensures r.None? <==> forall i :: 0 <= i < |s| ==> !IsUnusedWithCode(s[i], code)
    ensures r.Some? ==> (exists i :: 0 <= i < |s| && s[i] == r.value
                          && forall k :: 0 <= k < i ==> !IsUnusedWithCode(s[k], code))
  {
    match FindFirst(s, (x: PasswordResetCode) => IsUnusedWithCode(x, code))
    case None => None
    case Some(i) => Some(s[i])
  }

  predicate IsUnusedOf(c: PasswordResetCode, userId: string) {
    c.userId == userId && !c.used
  }

  /** Index of the row with the greatest `createdAt` among the user's unused rows
      of `s[from..]`, the earliest such row on ties. */
  function LatestUnusedFrom(s: Store, userId: string, from: nat): (r: Option<nat>)
    requires from <= |s|
    ensures r.Some? ==> from <= r.value < |s| && IsUnusedOf(s[r.value], userId)
    ensures r.Some? ==> (forall k :: from <= k < |s| && IsUnusedOf(s[k], userId)
                          ==> s[k].createdAt <= s[r.value].createdAt)
    ensures r.None? <==> forall k :: from <= k < |s| ==> !IsUnusedOf(s[k], userId)
    decreases |s| - from
  {
    if from == |s| then None
    else
      var rest := LatestUnusedFrom(s, userId, from + 1);
      if !IsUnusedOf(s[from], userId) then rest
      else if rest.Some? && s[rest.value].createdAt > s[from].createdAt then rest
      else Some(from)
  }

  /** The user's unused row with the greatest `createdAt`, or `None` when the user
      has no unused row. */
  function GetByUserId(s: Store, userId: string): (r: Option<PasswordResetCode>)
    ensures r.Some? ==> r.value in s && r.value.userId == userId && !r.value.used
    ensures r.Some? ==> (forall k :: 0 <= k < |s| && IsUnusedOf(s[k], userId)
                          ==> s[k].createdAt <= r.value.createdAt)
    ensures r.None? <==> forall k :: 0 <= k < |s| ==> !IsUnusedOf(s[k], userId)
  {
    match LatestUnusedFrom(s, userId, 0)
    case None => None
    case Some(i) => Some(s[i])
  }

  /** Sets `used` on the first row with this id; a no-op for an unknown id. */
  function MarkAsUsed(s: Store, id: string): (r: Store)
    ensures |r| == |s|
    ensures HasId(s, id) ==> (exists i :: 0 <= i < |s| && s[i].id == id && r[i] == s[i].(used := true)
                               && forall k :: 0 <= k < |s| && k != i ==> r[k] == s[k])
    ensures !HasId(s, id) ==> r == s
  {
    match FindFirst(s, (x: PasswordResetCode) => x.id == id)
    case None => s
    case Some(i) => s[i := s[i].(used := true)]
  }

  /** Keeps exactly the rows that have not expired (`expires_at < now` is expired). */
  function DeleteExpiredCodes(s: Store, now: int): (r: Store)
    ensures forall i :: 0 <= i < |r| ==> r[i].expiresAt >= now
    ensures forall c :: c in s && c.expiresAt >= now ==> c in r
    ensures forall c :: c in r ==> c in s
  {
    var r := Filter(s, (c: PasswordResetCode) => c.expiresAt >= now);
    assert forall c :: c in r <==> c in s && c.expiresAt >= now by {
      forall c {
        FilterMembership(s, (c: PasswordResetCode) => c.expiresAt >= now, c);
      }
    }
    r
  }

  /** `r` keeps every row of `s` that was used as used: no row with a used id in
      `s` appears unused in `r`. */
  ghost predicate UsedStaysUsed(s: Store, r: Store) {
    forall i, j :: 0 <= i < |s| && 0 <= j < |r| && s[i].id == r[j].id && s[i].used ==> r[j].used
  }

  /** Marking a code used is idempotent. */
  lemma MarkAsUsedIdempotent(s: Store, id: string)
    ensures MarkAsUsed(MarkAsUsed(s, id), id) == MarkAsUsed(s, id)
  {
    var p := (x: PasswordResetCode) => x.id == id;
    var once := MarkAsUsed(s, id);
    match FindFirst(s, p)
    case None =>
    case Some(i) =>
      assert once == s[i := s[i].(used := true)];
      assert forall k :: 0 <= k < |s| ==> once[k].id == s[k].id;
      assert p(once[i]);
      var j := FindFirst(once, p);
      assert j.Some? && j.value == i;
  }

  /** No operation of the store turns a used row back into an unused one. */
  lemma MarkAsUsedKeepsUsed(s: Store, id: string)
    requires UniqueIds(s)
    ensures UsedStaysUsed(s, MarkAsUsed(s, id))
    ensures UniqueIds(MarkAsUsed(s, id))
  {
  }

  lemma AddKeepsUsed(s: Store, c: PasswordResetCode)
    requires UniqueIds(s)
    requires Add(s, c).Success?
    ensures UsedStaysUsed(s, Add(s, c).value)
  {
    var r := Add(s, c).value;
    forall i, j | 0 <= i < |s| && 0 <= j < |r| && s[i].id == r[j].id && s[i].used
      ensures r[j].used
    {
      if j == |s| {
        assert false;
      }
    }
  }

  lemma DeleteExpiredKeepsUsed(s: Store, now: int)
    requires UniqueIds(s)
    ensures UsedStaysUsed(s, DeleteExpiredCodes(s, now))
  {
    var r := DeleteExpiredCodes(s, now);
    forall i, j | 0 <= i < |s| && 0 <= j < |r| && s[i].id == r[j].id && s[i].used
      ensures r[j].used
    {
      assert r[j] in s;
      var k :| 0 <= k < |s| && s[k] == r[j];
      assert k == i;
    }
  }

  /** Right after `add(c)`, looking up `c.code` finds `c` as long as no earlier
      unused row carries the same code, and `c` itself is unused. */
  lemma AddThenGetByCode(s: Store, c: PasswordResetCode)
    requires Add(s, c).Success?
    requires !c.used
    requires forall i :: 0 <= i < |s| ==> !IsUnusedWithCode(s[i], c.code)
    ensures GetByCode(Add(s, c).value, c.code) == Some(c)
  {
    var r := Add(s, c).value;
    var found := GetByCode(r, c.code);
    assert IsUnusedWithCode(r[|s|], c.code);
    var i :| 0 <= i < |r| && r[i] == found.value
      && forall k :: 0 <= k < i ==> !IsUnusedWithCode(r[k], c.code);
    assert i == |s|;
  }

  /** At most one code per user is still usable: requesting a new code retires
      the previous one. */
  ghost predicate OneLiveCodePerUser(s: Store) {
    forall i, j :: 0 <= i < j < |s| && !s[i].used && !s[j].used ==> s[i].userId != s[j].userId
  }

  /** Under the primary key, marking row `i`'s id marks exactly row `i`. */
  lemma MarkAsUsedAt(s: Store, i: nat)
    requires UniqueIds(s) && i < |s|
    ensures MarkAsUsed(s, s[i].id) == s[i := s[i].(used := true)]
  {
    var k := FindFirst(s, (x: PasswordResetCode) => x.id == s[i].id);
    assert k.Some?;
    if k.value != i {
      assert false;
    }
  }

  /** Marking a row used keeps both the primary key and the one-live-code rule. */
  lemma MarkAsUsedKeepsOneLive(s: Store, id: string)
    requires UniqueIds(s) && OneLiveCodePerUser(s)
    ensures UniqueIds(MarkAsUsed(s, id)) && OneLiveCodePerUser(MarkAsUsed(s, id))
  {
    var r := MarkAsUsed(s, id);
    forall i, j | 0 <= i < j < |r| && !r[i].used && !r[j].used
      ensures r[i].userId != r[j].userId
    {
      assert r[i] == s[i] && r[j] == s[j];
    }
  }
}

=== FILE: security.dfy ===
/** The password hasher and the token minter, both outside this model: bcrypt and
    the signed-token library are represented by functions passed in by the caller,
    so every property proved here holds whatever those functions compute. */
module Security {

  /** A password hashing scheme. A password verifies against a digest exactly when
      hashing it yields that digest. This is deterministic hashing: bcrypt salts
      every hash, so two hashes of one password differ while both verify; the
      model does not capture that. */
  datatype Hasher = Hasher(hash: string -> string) {
    predicate Verify(password: string, digest: string) {
      hash(password) == digest
    }
  }

  /** Token minting. `access(subject, expiresAt)` is an access token for `subject`
      valid until `expiresAt`; `refresh(subject, issuedAt)` is the refresh token
      minted for `subject` at `issuedAt`. */
  datatype TokenCodec = TokenCodec(
    access: (string, int) -> string,
    refresh: (string, int) -> string)

  /** Default lifetime of an access token, in minutes (ACCESS_TOKEN_EXPIRE_MINUTES). */
  const AccessTokenMinutes: int := 30

  /** Lifetime of an access token issued by a refresh, in minutes. */
  const RefreshedAccessTokenMinutes: int := 15
}

=== FILE: seqs.dfy ===
/** Sequence helpers shared by the in-memory stores: the first element matching a
    condition (SQL's `.first()` over a filtered query), order-preserving filtering
    (a list comprehension with an `if`), and sums of amounts. */
module Seqs {
  import opened Wrappers

  /** Index of the first element satisfying `p`, or `None`. */
  function FindFirst<T>(s: seq<T>, p: T -> bool): (r: Option<nat>)
    ensures r.Some? ==> r.value < |s| && p(s[r.value])
    ensures r.Some? ==> forall k :: 0 <= k < r.value ==> !p(s[k])
    ensures r.None? <==> forall k :: 0 <= k < |s| ==> !p(s[k])
  {
    if s == [] then None
    else if p(s[0]) then Some(0)
    else match FindFirst(s[1..], p)
      case None => None
      case Some(i) => Some(i + 1)
  }

  /** The elements satisfying `p`, in their original order. */
  function Filter<T(!new)>(s: seq<T>, p: T -> bool): (r: seq<T>)
    ensures |r| <= |s|
    ensures forall i :: 0 <= i < |r| ==> p(r[i])
    ensures forall x :: multiset(r)[x] == if p(x) then multiset(s)[x] else 0
  {
    if s == [] then []
    else
      assert s == [s[0]] + s[1..];
      (if p(s[0]) then [s[0]] else []) + Filter(s[1..], p)
  }

  /** The values `f` yields, in order: a loop that appends `f(x)` whenever it is
      not `None`. */
  function Collect<T, U>(s: seq<T>, f: T -> Option<U>): (r: seq<U>)
    ensures |r| <= |s|
  {
    if s == [] then []
    else (if f(s[0]).Some? then [f(s[0]).value] else []) + Collect(s[1..], f)
  }

  /** A value is collected exactly when some element yields it. */
  lemma {:induction false} CollectMembership<T, U>(s: seq<T>, f: T -> Option<U>, y: U)
    ensures y in Collect(s, f) <==> exists k :: 0 <= k < |s| && f(s[k]) == Some(y)
    decreases |s|
  {
    if s != [] {
      var tail := s[1..];
      CollectMembership(tail, f, y);
      if y in Collect(tail, f) {
        var k :| 0 <= k < |tail| && f(tail[k]) == Some(y);
        assert tail[k] == s[k + 1];
      }
      if k :| 0 <= k < |s| && f(s[k]) == Some(y) {
        if k > 0 {
          assert tail[k - 1] == s[k];
        }
      }
    }
  }

  /** Collecting over consecutive blocks collects each block, in order. */
  lemma {:induction false} CollectAppend<T, U>(a: seq<T>, b: seq<T>, f: T -> Option<U>)
    ensures Collect(a + b, f) == Collect(a, f) + Collect(b, f)
    decreases |a|
  {
    if a == [] {
      assert a + b == b;
    } else {
      var head := if f(a[0]).Some? then [f(a[0]).value] else [];
      var ab := a + b;
      assert ab[0] == a[0] && ab[1..] == a[1..] + b;
      assert Collect(ab, f) == head + Collect(a[1..] + b, f);
      CollectAppend(a[1..], b, f);
      assert head + (Collect(a[1..], f) + Collect(b, f)) == (head + Collect(a[1..], f)) + Collect(b, f);
    }
  }

  /** Membership in a filtered sequence. */
  lemma FilterMembership<T(!new)>(s: seq<T>, p: T -> bool, x: T)
    ensures x in Filter(s, p) <==> x in s && p(x)
  {
    assert x in Filter(s, p) <==> x in multiset(Filter(s, p));
    assert x in s <==> x in multiset(s);
  }

  /** `f` applied to every element, in order. */
  function Map<T, U>(s: seq<T>, f: T -> U): (r: seq<U>)
    ensures |r| == |s|
    ensures forall k :: 0 <= k < |s| ==> r[k] == f(s[k])
  {
    seq(|s|, k requires 0 <= k < |s| => f(s[k]))
  }

  /** Removing the element at `j` removes one copy of it from the multiset. */
  lemma RemoveAt<T>(s: seq<T>, j: nat)
    requires j < |s|
    ensures multiset(s[..j] + s[j + 1..]) == multiset(s) - multiset{s[j]}
  {
    assert s == s[..j] + [s[j]] + s[j + 1..];
  }

  /** Removing an element and then mapping removes one copy of its image. */
  lemma MapRemoveAt<T, U>(s: seq<T>, j: nat, f: T -> U)
    requires j < |s|
    ensures multiset(Map(s[..j] + s[j + 1..], f)) == multiset(Map(s, f)) - multiset{f(s[j])}
    ensures f(s[j]) in multiset(Map(s, f))
  {
    var m := Map(s, f);
    assert Map(s[..j] + s[j + 1..], f) == m[..j] + m[j + 1..];
    RemoveAt(m, j);
  }

  /** Two multisets that both hold `y` and agree once one copy of it is taken
      out are equal. */
  lemma Cancel<U>(m: multiset<U>, n: multiset<U>, y: U)
    requires y in m && y in n
    requires m - multiset{y} == n - multiset{y}
    ensures m == n
  {
    assert m == (m - multiset{y}) + multiset{y};
    assert n == (n - multiset{y}) + multiset{y};
  }

  /** Reordering the input reorders the image: the image of a permutation is a
      permutation of the image. */
  lemma {:induction false} MapPermutation<T, U>(a: seq<T>, b: seq<T>, f: T -> U)
    requires multiset(a) == multiset(b)
    ensures multiset(Map(a, f)) == multiset(Map(b, f))
  {
    if a == [] {
      assert |b| == |multiset(b)| == 0;
    } else {
      var x := a[0];
      assert x in multiset(b);
      var j :| 0 <= j < |b| && b[j] == x;
      RemoveAt(b, j);
      RemoveAt(a, 0);
      assert a[..0] + a[1..] == a[1..];
      MapPermutation(a[1..], b[..j] + b[j + 1..], f);
      MapMatchedHeads(a, b, j, f);
    }
  }

  /** The inductive step of `MapPermutation`: the images agree once the first
      element of `a` and its match in `b` are set aside. */
  lemma MapMatchedHeads<T, U>(a: seq<T>, b: seq<T>, j: nat, f: T -> U)
    requires 0 < |a| && j < |b| && b[j] == a[0]
    requires multiset(Map(a[1..], f)) == multiset(Map(b[..j] + b[j + 1..], f))
    ensures multiset(Map(a, f)) == multiset(Map(b, f))
  {
    MapRemoveAt(b, j, f);
    MapRemoveFirst(a, f);
    Cancel(multiset(Map(a, f)), multiset(Map(b, f)), f(a[0]));
  }

  /** Dropping the first element drops one copy of its image. */
  lemma MapRemoveFirst<T, U>(a: seq<T>, f: T -> U)
    requires 0 < |a|
    ensures multiset(Map(a[1..], f)) == multiset(Map(a, f)) - multiset{f(a[0])}
    ensures f(a[0]) in multiset(Map(a, f))
  {
    var m := Map(a, f);
    assert m == [m[0]] + Map(a[1..], f);
    assert multiset(m) == multiset{m[0]} + multiset(Map(a[1..], f));
  }

  /** At most `limit` elements of `s` starting at `skip`, clipped to the end:
      SQL's `OFFSET skip LIMIT limit` and JavaScript's `slice(skip, skip + limit)`. */
  function Window<T>(s: seq<T>, skip: nat, limit: nat): (r: seq<T>)
    ensures |r| == if skip >= |s| then 0 else if |s| - skip < limit then |s| - skip else limit
    ensures forall k :: 0 <= k < |r| ==> r[k] == s[skip + k]
  {
    if skip >= |s| then []
    else if |s| - skip < limit then s[skip..]
    else s[skip..skip + limit]
  }

  /** Two consecutive windows make one window: reading page after page visits
      every element once, in order. */
  lemma WindowsConcatenate<T>(s: seq<T>, skip: nat, m: nat, n: nat)
    ensures Window(s, skip, m) + Window(s, skip + m, n) == Window(s, skip, m + n)
  {
    var a := Window(s, skip, m);
    var b := Window(s, skip + m, n);
    var c := Window(s, skip, m + n);
    assert |a + b| == |c|;
    forall k | 0 <= k < |c| ensures (a + b)[k] == c[k] {
      if k < |a| {
        assert (a + b)[k] == a[k];
      } else {
        assert (a + b)[k] == b[k - |a|];
      }
    }
  }

  /** Filtering out at least one element shortens the sequence. */
  lemma {:induction false} FilterDrops<T(!new)>(s: seq<T>, p: T -> bool, i: nat)
    requires i < |s| && !p(s[i])
    ensures |Filter(s, p)| < |s|
    decreases |s|
  {
    var rest := Filter(s[1..], p);
    assert Filter(s, p) == (if p(s[0]) then [s[0]] else []) + rest;
    if i > 0 {
      assert s[1..][i - 1] == s[i];
      FilterDrops(s[1..], p, i - 1);
    }
  }

  /** Filtering distributes over concatenation. */
  lemma ConcatAssoc<T>(x: seq<T>, y: seq<T>, z: seq<T>)
    ensures x + (y + z) == (x + y) + z
  {
  }

  /** Filtering a sequence with a given first element. */
  lemma FilterCons<T(!new)>(x: T, s: seq<T>, p: T -> bool)
    ensures Filter([x] + s, p) == (if p(x) then [x] else []) + Filter(s, p)
  {
    assert ([x] + s)[0] == x && ([x] + s)[1..] == s;
  }

  lemma {:induction false} FilterAppend<T(!new)>(a: seq<T>, b: seq<T>, p: T -> bool)
    ensures Filter(a + b, p) == Filter(a, p) + Filter(b, p)
    decreases |a|
  {
    if a == [] {
      assert a + b == b;
    } else {
      var x, rest := a[0], a[1..];
      assert a == [x] + rest;
      assert a + b == [x] + (rest + b);
      FilterCons(x, rest + b, p);
      FilterCons(x, rest, p);
      FilterAppend(rest, b, p);
      ConcatAssoc(if p(x) then [x] else [], Filter(rest, p), Filter(b, p));
    }
  }

  /** Filtering twice by the same condition changes nothing the second time. */
  lemma {:induction false} FilterIdempotent<T(!new)>(s: seq<T>, p: T -> bool)
    ensures Filter(Filter(s, p), p) == Filter(s, p)
    decreases |s|
  {
    if s != [] {
      FilterIdempotent(s[1..], p);
      var rest := Filter(s[1..], p);
      if p(s[0]) {
        assert Filter(s, p) == [s[0]] + rest;
        assert ([s[0]] + rest)[1..] == rest;
      } else {
        assert Filter(s, p) == rest;
      }
    }
  }

  /** A filter whose condition holds everywhere keeps the whole sequence. */
  lemma {:induction false} FilterAll<T(!new)>(s: seq<T>, p: T -> bool)
    requires forall i :: 0 <= i < |s| ==> p(s[i])
    ensures Filter(s, p) == s
    decreases |s|
  {
    if s != [] {
      FilterAll(s[1..], p);
      assert s == [s[0]] + s[1..];
    }
  }

  /** The sum of `amount(x)` over the sequence. */
  function SumOf<T>(s: seq<T>, amount: T -> real): real
  {
    if s == [] then 0.0 else amount(s[0]) + SumOf(s[1..], amount)
  }

  /** Sums distribute over concatenation. */
  lemma {:induction false} SumOfAppend<T>(a: seq<T>, b: seq<T>, amount: T -> real)
    ensures SumOf(a + b, amount) == SumOf(a, amount) + SumOf(b, amount)
    decreases |a|
  {
    if a == [] {
      assert a + b == b;
    } else {
      assert (a + b)[1..] == a[1..] + b;
      SumOfAppend(a[1..], b, amount);
    }
  }

  /** `n` copies of the same amount sum to `n` times it. */
  lemma {:induction false} SumOfConstant<T>(s: seq<T>, amount: T -> real, v: real)
    requires forall i :: 0 <= i < |s| ==> amount(s[i]) == v
    ensures SumOf(s, amount) == |s| as real * v
    decreases |s|
  {
    if s != [] {
      SumOfConstant(s[1..], amount, v);
    }
  }
}

=== FILE: session_store.dfy ===
/** The session repository as an in-memory table in insertion order. `id` is the
    primary key and `refresh_token` is unique. The SQL repository raises
    `ValueError` where a lookup finds nothing; the `Find*` functions are the
    `None`-returning lookups the use cases are written against, and
    `FindMatchesGet` relates the two. */
module SessionStore {
  import opened Wrappers
  import opened Messages
  import opened Entities
  import opened Seqs
  import opened Sorting

  type Store = seq<Session>

  /** The table's key constraints: ids and refresh tokens are unique. */
  ghost predicate Keys(s: Store) {
    forall i, j :: 0 <= i < j < |s| ==> s[i].id != s[j].id && s[i].refreshToken != s[j].refreshToken
  }

  /** `r` is `s` with possibly more rows at the end, where every existing row keeps
      its id and owner and a revoked row stays revoked. */
  ghost predicate NeverUnrevokes(s: Store, r: Store) {
    && |s| <= |r|
    && forall i :: 0 <= i < |s| ==>
         (r[i].id == s[i].id && r[i].userId == s[i].userId && (s[i].revoked ==> r[i].revoked))
  }

  /** `r` is `s` with row `i` revoked and every other row untouched. */
  ghost predicate RevokedAt(s: Store, r: Store, i: int) {
    0 <= i < |s| && r == s[i := s[i].(revoked := true)]
  }

  function Add(s: Store, x: Session): (r: Result<Store, Raised>)
    ensures r.Success? <==> forall i :: 0 <= i < |s| ==> s[i].id != x.id && s[i].refreshToken != x.refreshToken
    ensures r.Success? ==> r.value == s + [x]
    ensures r.Failure? ==> r.error == IntegrityError
    ensures Keys(s) && r.Success? ==> Keys(r.value)
    ensures r.Success? ==> NeverUnrevokes(s, r.value)
  {
    match FindFirst(s, (y: Session) => y.id == x.id || y.refreshToken == x.refreshToken)
    case Some(_) => Failure(IntegrityError)
    case None => Success(s + [x])
  }

  function FindIndexByRefreshToken(s: Store, token: string): (r: Option<nat>)
    ensures r.Some? ==> r.value < |s| && s[r.value].refreshToken == token
    ensures r.Some? ==> forall k :: 0 <= k < r.value ==> s[k].refreshToken != token
    ensures r.None? <==> forall k :: 0 <= k < |s| ==> s[k].refreshToken != token
  {
    FindFirst(s, (x: Session) => x.refreshToken == token)
  }

  /** The session holding `token`, or `None`. */
  function FindByRefreshToken(s: Store, token: string): (r: Option<Session>)
    ensures r.Some? ==> r.value in s && r.value.refreshToken == token
    ensures r.None? <==> forall k :: 0 <= k < |s| ==> s[k].refreshToken != token
  {
    match FindIndexByRefreshToken(s, token)
    case None => None
    case Some(i) => Some(s[i])
  }

  /** `get_by_refresh_token`: the session, or "Session non trouvée". */
  function GetByRefreshToken(s: Store, token: string): (r: Result<Session, Raised>)
    ensures r.Success? ==> r.value in s && r.value.refreshToken == token
    ensures r.Failure? <==> forall k :: 0 <= k < |s| ==> s[k].refreshToken != token
    ensures r.Failure? ==> r.error == ValueError(SessionNotFound)
  {
    match FindByRefreshToken(s, token)
    case None => Failure(ValueError(SessionNotFound))
    case Some(x) => Success(x)
  }

  /** `revoke(token)`: revokes the session holding `token`; an unknown token raises
      through the lookup and changes nothing. */
  function Revoke(s: Store, token: string): (r: Result<Store, Raised>)
    ensures r.Failure? <==> forall k :: 0 <= k < |s| ==> s[k].refreshToken != token
    ensures r.Failure? ==> r.error == ValueError(SessionNotFound)
    ensures r.Success? ==> exists i :: RevokedAt(s, r.value, i) && s[i].refreshToken == token
    ensures r.Success? ==> NeverUnrevokes(s, r.value)
  {
    match FindIndexByRefreshToken(s, token)
    case None => Failure(ValueError(SessionNotFound))
    case Some(i) =>
      var r := s[i := s[i].(revoked := true)];
      assert RevokedAt(s, r, i);
      Success(r)
  }

  /** The user's sessions, newest first. */
  function SessionsOf(s: Store, userId: string): (r: seq<Session>)
    ensures SortedDesc(r, (x: Session) => x.createdAt)
    ensures forall x :: x in r <==> x in s && x.userId == userId
    // Each of the user's rows appears as often as in the table, no other row at all.
    ensures forall x :: multiset(r)[x] == if x.userId == userId then multiset(s)[x] else 0
  {
    var mine := Filter(s, (x: Session) => x.userId == userId);
    var sorted := SortDesc(mine, (x: Session) => x.createdAt);
    assert forall x :: x in sorted <==> x in s && x.userId == userId by {
      forall x ensures x in sorted <==> x in s && x.userId == userId {
        FilterMembership(s, (x: Session) => x.userId == userId, x);
        SortDescMembership(mine, (x: Session) => x.createdAt, x);
      }
    }
    sorted
  }

  /** `get_all_by_user_id`: the user's sessions, newest first, or "Aucune session
      trouvée" when there are none. */
  function GetAllByUserId(s: Store, userId: string): (r: Result<seq<Session>, Raised>)
    ensures r.Failure? <==> forall k :: 0 <= k < |s| ==> s[k].userId != userId
    ensures r.Failure? ==> r.error == ValueError(NoSessionFound)
    ensures r.Success? ==> SortedDesc(r.value, (x: Session) => x.createdAt)
    ensures r.Success? ==> forall x :: x in r.value <==> x in s && x.userId == userId
    ensures r.Success? ==> forall x :: multiset(r.value)[x] == if x.userId == userId then multiset(s)[x] else 0
  {
    var mine := SessionsOf(s, userId);
    if mine == [] then
      assert forall k :: 0 <= k < |s| ==> s[k].userId != userId by {
        forall k | 0 <= k < |s| ensures s[k].userId != userId {
          assert s[k] in s;
        }
      }
      Failure(ValueError(NoSessionFound))
    else
      assert mine[0] in mine;
      Success(mine)
  }

  function FindById(s: Store, id: string): (r: Option<Session>)
    ensures r.Some? ==> r.value in s && r.value.id == id
    ensures r.None? <==> forall k :: 0 <= k < |s| ==> s[k].id != id
  {
    match FindFirst(s, (x: Session) => x.id == id)
    case None => None
    case Some(i) => Some(s[i])
  }

  /** `get_by_id`: the session, or "Session non trouvée". */
  function GetById(s: Store, id: string): (r: Result<Session, Raised>)
    ensures r.Success? ==> r.value in s && r.value.id == id
    ensures r.Failure? <==> forall k :: 0 <= k < |s| ==> s[k].id != id
    ensures r.Failure? ==> r.error == ValueError(SessionNotFound)
  {
    match FindById(s, id)
    case None => Failure(ValueError(SessionNotFound))
    case Some(x) => Success(x)
  }

  /** The raising lookups fail exactly where the `None`-returning ones find nothing,
      and agree with them otherwise. */
  lemma FindMatchesGet(s: Store, token: string, id: string)
    ensures GetByRefreshToken(s, token).Success? <==> FindByRefreshToken(s, token).Some?
    ensures FindByRefreshToken(s, token).Some? ==> GetByRefreshToken(s, token).value == FindByRefreshToken(s, token).value
    ensures GetById(s, id).Success? <==> FindById(s, id).Some?
    ensures FindById(s, id).Some? ==> GetById(s, id).value == FindById(s, id).value
  {
  }

  /** `revoke_by_id`: revokes the session with this id owned by this user, or
      raises "Session non trouvée" and changes nothing. Revoking an already
      revoked session succeeds. */
  function RevokeById(s: Store, id: string, userId: string): (r: Result<Store, Raised>)
    ensures r.Failure? <==> forall k :: 0 <= k < |s| ==> !(s[k].id == id && s[k].userId == userId)
    ensures r.Failure? ==> r.error == ValueError(SessionNotFound)
    ensures r.Success? ==> exists i :: RevokedAt(s, r.value, i) && s[i].id == id && s[i].userId == userId
    ensures r.Success? ==> NeverUnrevokes(s, r.value)
  {
    match FindFirst(s, (x: Session) => x.id == id && x.userId == userId)
    case None => Failure(ValueError(SessionNotFound))
    case Some(i) =>
      var r := s[i := s[i].(revoked := true)];
      assert RevokedAt(s, r, i);
      Success(r)
  }

  /** Revoking keeps the key constraints. */
  lemma RevokedAtKeepsKeys(s: Store, r: Store, i: int)
    requires Keys(s) && RevokedAt(s, r, i)
    ensures Keys(r)
  {
    forall a, b | 0 <= a < b < |r| ensures r[a].id != r[b].id && r[a].refreshToken != r[b].refreshToken {
      assert r[a].id == s[a].id && r[a].refreshToken == s[a].refreshToken;
      assert r[b].id == s[b].id && r[b].refreshToken == s[b].refreshToken;
    }
  }

  /** Under the key constraints, `revoke_by_id` revokes exactly the session the
      lookup by id returns, when its owner matches. */
  lemma RevokeByIdTargetsFoundSession(s: Store, id: string, userId: string)
    requires Keys(s)
    requires FindById(s, id).Some? && FindById(s, id).value.userId == userId
    ensures RevokeById(s, id, userId).Success?
    ensures FindById(RevokeById(s, id, userId).value, id) == Some(FindById(s, id).value.(revoked := true))
  {
    var r := RevokeById(s, id, userId).value;
    var i :| RevokedAt(s, r, i) && s[i].id == id && s[i].userId == userId;
    var j := FindFirst(s, (x: Session) => x.id == id).value;
    assert s[j].id == id;
    if j != i {
      assert false;
    }
    var k := FindFirst(r, (x: Session) => x.id == id).value;
    assert r[i].id == id;
    if k != i {
      assert false;
    }
  }

  /** Under the key constraints, both lookups find row `i` by its own keys. */
  lemma FindsUnique(s: Store, i: nat)
    requires Keys(s) && i < |s|
    ensures FindById(s, s[i].id) == Some(s[i])
    ensures FindByRefreshToken(s, s[i].refreshToken) == Some(s[i])
  {
    var a := FindFirst(s, (x: Session) => x.id == s[i].id);
    if a.value != i {
      assert false;
    }
    var b := FindIndexByRefreshToken(s, s[i].refreshToken);
    if b.value != i {
      assert false;
    }
  }
}

=== FILE: sms.dfy ===
/** The development SMS service: it formats a random draw as a six-digit code and
    pretends to deliver messages. The random draw is a parameter. */
module Sms {
  import opened Text

  /** Largest value `random.randint(0, 999999)` can draw. */
  const MaxDraw: int := 999999

  /** A message handed to the SMS service. */
  datatype SmsMessage = SmsMessage(phoneNumber: string, text: string)

  /** `f"{draw:06d}"`: the draw written in decimal, left-padded with zeros to six
      characters. The code has exactly six decimal digits and reads back as the draw. */
  function GenerateCode(draw: int): (code: string)
    requires 0 <= draw <= MaxDraw
    ensures |code| == 6
    ensures AllDigits(code)
    ensures DigitsValue(code) == draw
  {
    var digits := NatToString(draw);
    assert Pow10(6) == 1000000;
    NatToStringLength(draw, 6);
    var code := PadLeft(digits, 6, '0');
    var zeros := code[..6 - |digits|];
    assert zeros == seq(6 - |digits|, _ => '0');
    assert code == zeros + digits;
    ZerosValue(6 - |digits|);
    DigitsValueAppend(zeros, digits);
    NatToStringRoundTrip(draw);
    code
  }

  /** Distinct draws give distinct codes. */
  lemma GenerateCodeInjective(a: int, b: int)
    requires 0 <= a <= MaxDraw && 0 <= b <= MaxDraw
    ensures GenerateCode(a) == GenerateCode(b) <==> a == b
  {
  }

  /** Small values are padded with zeros. */
  lemma GenerateCodePadsSmallValues()
    ensures GenerateCode(42) == "000042"
    ensures GenerateCode(0) == "000000"
  {
    assert NatToString(42) == "42" by {
      assert NatToString(4) == "4";
    }
  }

  /** The largest draw needs no padding. */
  lemma GenerateCodeLargestDraw()
    ensures GenerateCode(999999) == "999999"
  {
    assert NatToString(999999) == "999999" by {
      assert NatToString(9) == "9";
      assert NatToString(99) == "99";
      assert NatToString(999) == "999";
      assert NatToString(9999) == "9999";
      assert NatToString(99999) == "99999";
    }
  }

  /** The mock `send_sms` logs the message and always reports success. */
  function SendSms(message: SmsMessage): (delivered: bool)
    ensures delivered
  {
    true
  }

  /** The text of the reset SMS, which carries the code. */
  function ResetMessageText(code: string): (text: string)
    ensures Contains(text, code)
  {
    var prefix := "Votre code de vérification pour réinitialiser votre mot de passe est: ";
    var text := prefix + code + ". Ce code expire dans 10 minutes.";
    assert text[|prefix|..|prefix| + |code|] == code;
    assert OccursAt(text, code, |prefix|);
    text
  }
}

=== FILE: sorting.dfy ===
/** Ordering by a key, newest first: SQL's `ORDER BY created_at DESC` / `ORDER BY
    date DESC` and the frontend's `sort` by descending date. The result is a
    permutation of the input ordered by non-increasing key. How elements with
    equal keys are ordered is not stated. */
module Sorting {

  /** Keys never increase along the sequence. */
  ghost predicate SortedDesc<T>(s: seq<T>, key: T -> int) {
    forall i, j :: 0 <= i < j < |s| ==> key(s[i]) >= key(s[j])
  }

  /** Inserts `x` before the first element whose key is not larger than its own. */
  function InsertDesc<T>(x: T, s: seq<T>, key: T -> int): (r: seq<T>)
    requires SortedDesc(s, key)
    ensures SortedDesc(r, key)
    ensures multiset(r) == multiset(s) + multiset{x}
    ensures |r| == |s| + 1
    ensures r[0] == x || (|s| > 0 && r[0] == s[0])
  {
    if s == [] || key(x) >= key(s[0]) then
      [x] + s
    else
      var rest := InsertDesc(x, s[1..], key);
      assert s == [s[0]] + s[1..];
      assert key(s[0]) >= key(rest[0]);
      [s[0]] + rest
  }

  /** The sequence reordered by non-increasing key. */
  function SortDesc<T>(s: seq<T>, key: T -> int): (r: seq<T>)
    ensures SortedDesc(r, key)
    ensures multiset(r) == multiset(s)
    ensures |r| == |s|
  {
    if s == [] then []
    else
      assert s == [s[0]] + s[1..];
      InsertDesc(s[0], SortDesc(s[1..], key), key)
  }

  /** Sorting neither adds nor loses elements. */
  lemma SortDescMembership<T>(s: seq<T>, key: T -> int, x: T)
    ensures x in SortDesc(s, key) <==> x in s
  {
    assert x in SortDesc(s, key) <==> x in multiset(SortDesc(s, key));
    assert x in s <==> x in multiset(s);
  }
}

=== FILE: text.dfy ===
/** String helpers standing in for the Python and JavaScript string methods the
    source relies on: `upper`/`lower` (ASCII), `in`, `startswith`, `strip`,
    `replace`, decimal formatting with zero padding, and decimal parsing. */
module Text {

  // ---------------------------------------------------------------- characters

  predicate IsAsciiDigit(c: char) {
    '0' <= c <= '9'
  }

  predicate IsAsciiUpper(c: char) {
    'A' <= c <= 'Z'
  }

  predicate IsAsciiLower(c: char) {
    'a' <= c <= 'z'
  }

  predicate IsAsciiLetter(c: char) {
    IsAsciiUpper(c) || IsAsciiLower(c)
  }

  /** The characters Python's `str.isspace` accepts, which is what `str.strip()`
      removes when called without an argument. */
  predicate IsPyWhitespace(c: char) {
    || c == ' ' || c == '\t' || c == '\n' || c == '\r'
    || c == '\U{B}' || c == '\U{C}'
    || ('\U{1C}' <= c <= '\U{1F}')
    || c == '\U{85}' || c == '\U{A0}' || c == '\U{1680}'
    || ('\U{2000}' <= c <= '\U{200A}')
    || c == '\U{2028}' || c == '\U{2029}' || c == '\U{202F}' || c == '\U{205F}' || c == '\U{3000}'
  }

  function UpperChar(c: char): char {
    if IsAsciiLower(c) then (c as int - 32) as char else c
  }

  function LowerChar(c: char): char {
    if IsAsciiUpper(c) then (c as int + 32) as char else c
  }

  /** ASCII `str.upper()`: every lower-case ASCII letter becomes upper case. */
  function ToUpper(s: string): (r: string)
    ensures |r| == |s|
    ensures forall i :: 0 <= i < |s| ==> r[i] == UpperChar(s[i])
    ensures forall i :: 0 <= i < |r| ==> !IsAsciiLower(r[i])
  {
    seq(|s|, i requires 0 <= i < |s| => UpperChar(s[i]))
  }

  /** ASCII `str.lower()`: every upper-case ASCII letter becomes lower case. */
  function ToLower(s: string): (r: string)
    ensures |r| == |s|
    ensures forall i :: 0 <= i < |s| ==> r[i] == LowerChar(s[i])
    ensures forall i :: 0 <= i < |r| ==> !IsAsciiUpper(r[i])
  {
    seq(|s|, i requires 0 <= i < |s| => LowerChar(s[i]))
  }

  // ---------------------------------------------------------------- searching

  predicate StartsWith(s: string, prefix: string) {
    |prefix| <= |s| && s[..|prefix|] == prefix
  }

  /** `needle` occurs in `s` starting at index `i`. */
  predicate OccursAt(s: string, needle: string, i: int) {
    0 <= i && i + |needle| <= |s| && s[i..i + |needle|] == needle
  }

  /** `needle in s`, written as a scan from the left. */
  function Contains(s: string, needle: string): (r: bool)
    ensures r <==> exists i :: OccursAt(s, needle, i)
    decreases |s|
  {
    if |needle| > |s| then false
    else if s[..|needle|] == needle then assert OccursAt(s, needle, 0); true
    else
      var r := Contains(s[1..], needle);
      assert r ==> exists i :: OccursAt(s, needle, i) by {
        if r {
          var j :| OccursAt(s[1..], needle, j);
          assert s[j + 1..j + 1 + |needle|] == s[1..][j..j + |needle|];
          assert OccursAt(s, needle, j + 1);
        }
      }
      assert (exists i :: OccursAt(s, needle, i)) ==> r by {
        if exists i :: OccursAt(s, needle, i) {
          var i :| OccursAt(s, needle, i);
          assert i != 0;
          assert s[1..][i - 1..i - 1 + |needle|] == s[i..i + |needle|];
          assert OccursAt(s[1..], needle, i - 1);
        }
      }
      r
  }

  /** True iff one of the `keywords` occurs in `s` (Python's `any(k in s for k in keywords)`). */
  function ContainsAny(s: string, keywords: seq<string>): (r: bool)
    ensures r <==> exists k :: 0 <= k < |keywords| && Contains(s, keywords[k])
  {
    if keywords == [] then false
    else Contains(s, keywords[0]) || ContainsAny(s, keywords[1..])
  }

  // ---------------------------------------------------------------- trimming

  /** Length of the longest prefix of `s` whose characters all satisfy `drop`. */
  function LeadingRun(s: string, drop: char -> bool): (n: nat)
    ensures n <= |s|
    ensures forall i :: 0 <= i < n ==> drop(s[i])
    ensures n < |s| ==> !drop(s[n])
  {
    if s == [] || !drop(s[0]) then 0 else 1 + LeadingRun(s[1..], drop)
  }

  /** Length of the longest suffix of `s` whose characters all satisfy `drop`. */
  function TrailingRun(s: string, drop: char -> bool): (n: nat)
    ensures n <= |s|
    ensures forall i :: |s| - n <= i < |s| ==> drop(s[i])
    ensures n < |s| ==> !drop(s[|s| - n - 1])
  {
    if s == [] || !drop(s[|s| - 1]) then 0 else 1 + TrailingRun(s[..|s| - 1], drop)
  }

  /** `s[i..j]` is what is left of `s` once a leading part `s[..i]` and a trailing
      part `s[j..]`, both made only of characters satisfying `drop`, are cut off. */
  predicate TrimmedSlice(s: string, drop: char -> bool, i: int, j: int) {
    && 0 <= i <= j <= |s|
    && (forall k :: 0 <= k < i ==> drop(s[k]))
    && (forall k :: j <= k < |s| ==> drop(s[k]))
  }

  /** Python's `s.strip(chars)`: removes the longest leading and trailing runs of
      characters satisfying `drop`. The result is a slice of `s` that neither
      starts nor ends with such a character, and everything cut off satisfies `drop`. */
  function StripBy(s: string, drop: char -> bool): (r: string)
    ensures exists i, j :: TrimmedSlice(s, drop, i, j) && r == s[i..j]
    ensures |r| > 0 ==> !drop(r[0]) && !drop(r[|r| - 1])
    ensures (forall k :: 0 <= k < |s| ==> !drop(s[k])) ==> r == s
  {
    var i := LeadingRun(s, drop);
    var rest := s[i..];
    var t := TrailingRun(rest, drop);
    assert forall k :: i + |rest| - t <= k < |s| ==> drop(s[k]) by {
      forall k | i + |rest| - t <= k < |s| ensures drop(s[k]) {
        assert s[k] == rest[k - i];
      }
    }
    assert TrimmedSlice(s, drop, i, i + |rest| - t);
    assert rest[..|rest| - t] == s[i..i + |rest| - t];
    rest[..|rest| - t]
  }

  /** `s.strip()`: removes leading and trailing whitespace. */
  function Strip(s: string): (r: string)
    ensures |r| <= |s|
    ensures |r| > 0 ==> !IsPyWhitespace(r[0]) && !IsPyWhitespace(r[|r| - 1])
  {
    StripBy(s, IsPyWhitespace)
  }

  predicate IsQuote(c: char) {
    c == '"'
  }

  /** `s.strip('"')`: removes leading and trailing double quotes. */
  function StripQuotes(s: string): (r: string)
    ensures |r| <= |s|
    ensures |r| > 0 ==> r[0] != '"' && r[|r| - 1] != '"'
  {
    StripBy(s, IsQuote)
  }

  // ---------------------------------------------------------------- replacing

  /** `s.replace(c, "")`: every occurrence of `c` is removed, nothing else is. */
  function RemoveChar(s: string, c: char): (r: string)
    ensures c !in r
    ensures multiset(r) == multiset(s)[c := 0]
  {
    if s == [] then []
    else
      var rest := RemoveChar(s[1..], c);
      assert s == [s[0]] + s[1..];
      if s[0] == c then rest else [s[0]] + rest
  }

  /** `s.replace(a, b)` for single characters. */
  function ReplaceChar(s: string, a: char, b: char): (r: string)
    ensures |r| == |s|
    ensures a != b ==> a !in r
    ensures forall i :: 0 <= i < |s| && s[i] != a ==> r[i] == s[i]
  {
    seq(|s|, i requires 0 <= i < |s| => if s[i] == a then b else s[i])
  }

  // ---------------------------------------------------------------- decimal numbers

  function DigitChar(d: nat): char
    requires d < 10
  {
    ('0' as int + d) as char
  }

  function DigitValue(c: char): nat
    requires IsAsciiDigit(c)
  {
    c as int - '0' as int
  }

  predicate AllDigits(s: string) {
    forall i :: 0 <= i < |s| ==> IsAsciiDigit(s[i])
  }

  function Pow10(k: nat): (p: nat)
    ensures p >= 1
  {
    if k == 0 then 1 else 10 * Pow10(k - 1)
  }

  /** The number a string of decimal digits denotes (most significant digit first). */
  function DigitsValue(s: string): (v: nat)
    requires AllDigits(s)
    ensures v < Pow10(|s|)
  {
    if s == [] then 0 else DigitsValue(s[..|s| - 1]) * 10 + DigitValue(s[|s| - 1])
  }

  /** Decimal representation of `n` without leading zeros (Python's `str(n)`, JavaScript's `n.toString()`). */
  function NatToString(n: nat): (s: string)
    ensures |s| >= 1
    ensures AllDigits(s)
    decreases n
  {
    if n < 10 then [DigitChar(n)] else NatToString(n / 10) + [DigitChar(n % 10)]
  }

  /** Decimal representation of an integer, with a leading `-` when negative. */
  function IntToString(i: int): (s: string)
    ensures |s| >= 1
  {
    if i < 0 then "-" + NatToString(-i) else NatToString(i)
  }

  /** `s.padStart(width, pad)` / Python's zero-padded format: left-pads `s` to `width`. */
  function PadLeft(s: string, width: nat, pad: char): (r: string)
    ensures |r| == if |s| >= width then |s| else width
    ensures r[|r| - |s|..] == s
    ensures forall i :: 0 <= i < |r| - |s| ==> r[i] == pad
  {
    if |s| >= width then s else seq(width - |s|, _ => pad) + s
  }

  /** Formatting then reading back a natural number gives the number. */
  lemma {:induction false} NatToStringRoundTrip(n: nat)
    ensures DigitsValue(NatToString(n)) == n
    decreases n
  {
    var s := NatToString(n);
    if n >= 10 {
      NatToStringRoundTrip(n / 10);
      assert s[..|s| - 1] == NatToString(n / 10);
      assert DigitValue(s[|s| - 1]) == n % 10;
    }
  }

  /** Numbers below 10^k have at most k digits. */
  lemma {:induction false} NatToStringLength(n: nat, k: nat)
    requires k >= 1 && n < Pow10(k)
    ensures |NatToString(n)| <= k
    decreases k
  {
    if n >= 10 {
      assert k >= 2;
      assert n / 10 < Pow10(k - 1);
      NatToStringLength(n / 10, k - 1);
    }
  }

  /** The value of a concatenation of digit strings. */
  lemma {:induction false} DigitsValueAppend(a: string, b: string)
    requires AllDigits(a) && AllDigits(b)
    ensures AllDigits(a + b)
    ensures DigitsValue(a + b) == DigitsValue(a) * Pow10(|b|) + DigitsValue(b)
    decreases |b|
  {
    if b == [] {
      assert a + b == a;
    } else {
      var ab := a + b;
      var b' := b[..|b| - 1];
      assert ab[..|ab| - 1] == a + b';
      DigitsValueAppend(a, b');
      var last := DigitValue(b[|b| - 1]);
      assert ab[|ab| - 1] == b[|b| - 1];
      calc {
        DigitsValue(ab);
        DigitsValue(a + b') * 10 + last;
        (DigitsValue(a) * Pow10(|b'|) + DigitsValue(b')) * 10 + last;
        { MulAssoc(DigitsValue(a), Pow10(|b'|), 10); }
        DigitsValue(a) * (Pow10(|b'|) * 10) + (DigitsValue(b') * 10 + last);
        DigitsValue(a) * Pow10(|b|) + DigitsValue(b);
      }
    }
  }

  lemma MulAssoc(x: nat, y: nat, z: nat)
    ensures (x * y) * z == x * (y * z)
  {
  }

  /** A run of zeros denotes zero, so left zero-padding keeps the value. */
  lemma {:induction false} ZerosValue(k: nat)
    ensures AllDigits(seq(k, _ => '0'))
    ensures DigitsValue(seq(k, _ => '0')) == 0
    decreases k
  {
    if k > 0 {
      var z := seq(k, _ => '0');
      assert z[..k - 1] == seq(k - 1, _ => '0');
      ZerosValue(k - 1);
    }
  }
}

=== FILE: transaction_list.dfy ===
/** The pure parts of the transaction list view: the type, year and month
    filters, the date sort, pages of twenty, the page-number buttons, the
    Previous and Next buttons and the totals. The calendar readings of a date
    string (`getFullYear`, `getMonth`) are parameters, like its instant. */
module TransactionList {
  import opened Wrappers
  import opened Seqs
  import opened Sorting
  import opened Text
  import opened Transactions

  const ItemsPerPage: nat := 20

  /** How the browser reads a date string. `month` is `getMonth`, counted from 0. */
  datatype Calendar = Calendar(time: string -> int, year: string -> int, month: string -> nat)

  /** A select box: `'all'` or one chosen value. */
  datatype Choice = Any | Chosen(value: string)

  // ---------------------------------------------------------------------------
  // Filters

  /** The month as the select box spells it: one-based, padded to two digits. */
  function MonthCode(month: nat): string {
    PadLeft(NatToString(month + 1), 2, '0')
  }

  const MonthChoices: seq<string> := ["01", "02", "03", "04", "05", "06", "07", "08", "09", "10", "11", "12"]

  /** For the twelve months `getMonth` returns, the padded code is the select
      box's value for that month, so each month matches exactly one value. */
  lemma MonthCodeIsChoice(month: nat)
    requires month < 12
    ensures MonthCode(month) == MonthChoices[month]
  {
    ChoiceSpelling(month);
    if month < 9 {
      OneDigitMonthCode(month);
    } else {
      TwoDigitMonthCode(month);
    }
  }

  lemma OneDigitMonthCode(month: nat)
    requires month < 9
    ensures MonthCode(month) == ['0', DigitChar(month + 1)]
  {
    assert NatToString(month + 1) == [DigitChar(month + 1)];
  }

  lemma TwoDigitMonthCode(month: nat)
    requires 9 <= month < 99
    ensures MonthCode(month) == [DigitChar((month + 1) / 10), DigitChar((month + 1) % 10)]
  {
    assert NatToString((month + 1) / 10) == [DigitChar((month + 1) / 10)];
  }

  lemma ChoiceSpelling(month: nat)
    requires month < 12
    ensures MonthChoices[month] == [DigitChar((month + 1) / 10), DigitChar((month + 1) % 10)]
  {
  }

  /** Reading the code back as a decimal number gives the one-based month,
      so different months never share a code. */
  lemma MonthCodeValue(month: nat)
    requires month + 1 < 100
    ensures |MonthCode(month)| == 2 && AllDigits(MonthCode(month))
    ensures DigitsValue(MonthCode(month)) == month + 1
  {
    var digits := NatToString(month + 1);
    NatToStringRoundTrip(month + 1);
    NatToStringLength(month + 1, 2);
    var zeros := seq(2 - |digits|, _ => '0');
    assert MonthCode(month) == zeros + digits;
    ZerosValue(2 - |digits|);
    DigitsValueAppend(zeros, digits);
  }

  predicate YearMatches(t: Transaction, year: Choice, cal: Calendar) {
    year.Any? || IntToString(cal.year(t.date)) == year.value
  }

  predicate MonthMatches(t: Transaction, month: Choice, cal: Calendar) {
    month.Any? || MonthCode(cal.month(t.date)) == month.value
  }

  function InYear(year: Choice, cal: Calendar): Transaction -> bool {
    (t: Transaction) => YearMatches(t, year, cal)
  }

  function InMonth(month: Choice, cal: Calendar): Transaction -> bool {
    (t: Transaction) => MonthMatches(t, month, cal)
  }

  /** Whether a transaction passes the three filters. */
  predicate Shown(t: Transaction, kind: TypeFilter, year: Choice, month: Choice, cal: Calendar) {
    (kind.All? || t.kind == kind.kind) && YearMatches(t, year, cal) && MonthMatches(t, month, cal)
  }

  /** The filtered list: the transactions passing every filter, most recent first. */
  function Filtered(ts: seq<Transaction>, kind: TypeFilter, year: Choice, month: Choice, cal: Calendar): (r: seq<Transaction>)
    ensures SortedDesc(r, TimeKey(cal.time))
    ensures forall x :: multiset(r)[x] == if Shown(x, kind, year, month, cal) then multiset(ts)[x] else 0
  {
    var byKind := FilterTransactions(ts, kind);
    var byYear := if year.Any? then byKind else Filter(byKind, InYear(year, cal));
    var byMonth := if month.Any? then byYear else Filter(byYear, InMonth(month, cal));
    SortByDate(byMonth, cal.time)
  }

  /** With every filter on `all`, the list is every transaction, most recent first. */
  lemma NoFilterKeepsAll(ts: seq<Transaction>, cal: Calendar)
    ensures Filtered(ts, All, Any, Any, cal) == SortByDate(ts, cal.time)
  {
  }

  // ---------------------------------------------------------------------------
  // Pages

  /** `Math.ceil(n / 20)`. */
  function TotalPages(n: nat): (p: nat)
    ensures p * ItemsPerPage >= n
    ensures p == 0 || (p - 1) * ItemsPerPage < n
  {
    (n + ItemsPerPage - 1) / ItemsPerPage
  }

  /** `Array.prototype.slice(start, end)`: a negative bound counts from the end,
      and both bounds are clamped to the list. */
  function Slice<T>(s: seq<T>, start: int, end: int): (r: seq<T>)
    ensures 0 <= start <= end <= |s| ==> r == s[start..end]
  {
    var from := Clamp(if start < 0 then |s| + start else start, |s|);
    var to := Clamp(if end < 0 then |s| + end else end, |s|);
    if from < to then s[from..to] else []
  }

  function Clamp(i: int, n: nat): (r: nat)
    ensures r <= n
    ensures 0 <= i <= n ==> r == i
  {
    if i < 0 then 0 else if i > n then n else i
  }

  /** The items on page `page`. */
  function Page<T>(s: seq<T>, page: int): (r: seq<T>)
    ensures page >= 1 ==> r == Window(s, (page - 1) * ItemsPerPage, ItemsPerPage)
    ensures |r| <= ItemsPerPage
  {
    var start := (page - 1) * ItemsPerPage;
    Slice(s, start, start + ItemsPerPage)
  }

  /** Pages one to `k`, one after another. */
  function FirstPages<T>(s: seq<T>, k: nat): seq<T> {
    if k == 0 then [] else FirstPages(s, k - 1) + Page(s, k)
  }

  /** Reading the pages in order shows every item once, in the list's order. */
  lemma {:induction false} PagesCoverList<T>(s: seq<T>)
    ensures FirstPages(s, TotalPages(|s|)) == s
  {
    FirstPagesWindow(s, TotalPages(|s|));
    assert Window(s, 0, TotalPages(|s|) * ItemsPerPage) == s;
  }

  lemma {:induction false} FirstPagesWindow<T>(s: seq<T>, k: nat)
    ensures FirstPages(s, k) == Window(s, 0, k * ItemsPerPage)
  {
    if k > 0 {
      FirstPagesWindow(s, k - 1);
      WindowsConcatenate(s, 0, (k - 1) * ItemsPerPage, ItemsPerPage);
    } else {
      assert Window(s, 0, 0) == [];
    }
  }

  /** The page-number buttons: at most five consecutive pages, centred on the
      current page when it is away from either end. */
  function PageNumbers(totalPages: nat, current: int): (r: seq<int>)
    ensures |r| == if totalPages < 5 then totalPages else 5
    ensures forall i :: 0 <= i < |r| ==> r[i] == r[0] + i
    ensures forall i :: 0 <= i < |r| ==> 1 <= r[i] <= totalPages
    ensures 1 <= current <= totalPages ==> current in r
  {
    var n := if totalPages < 5 then totalPages else 5;
    var first :=
      if totalPages <= 5 then 1
      else if current <= 3 then 1
      else if current >= totalPages - 2 then totalPages - 4
      else current - 2;
    var r := seq(n, i requires 0 <= i < n => first + i);
    assert 1 <= current <= totalPages ==> r[current - first] == current;
    r
  }

  /** Previous: one page back, never before the first. */
  function Previous(page: int): (r: int)
    ensures 1 <= page ==> 1 <= r <= page && page - r <= 1
    ensures page > 1 ==> r == page - 1
  {
    if page - 1 > 1 then page - 1 else 1
  }

  /** Next: one page on, never past the last. */
  function Next(page: int, totalPages: nat): (r: int)
    ensures page <= totalPages ==> page <= r <= totalPages && r - page <= 1
    ensures page < totalPages ==> r == page + 1
  {
    if page + 1 < totalPages then page + 1 else totalPages
  }

  /** The buttons keep the current page within the pages there are. */
  lemma ButtonsStayInRange(page: int, totalPages: nat)
    requires 1 <= page <= totalPages
    ensures 1 <= Previous(page) <= totalPages
    ensures 1 <= Next(page, totalPages) <= totalPages
  {
  }

  // ---------------------------------------------------------------------------
  // Totals

  function Amount(t: Transaction): real {
    t.amount
  }

  /** Incomes count positively, expenses negatively. */
  function Signed(t: Transaction): real {
    if t.kind == IncomeKind then t.amount else -t.amount
  }

  /** The totals over the filtered list, and the balance they give. */
  datatype Totals = Totals(expenses: real, incomes: real, balance: real)

  function TotalsOf(ts: seq<Transaction>): (r: Totals)
    ensures r.balance == r.incomes - r.expenses
  {
    var expenses := SumOf(Filter(ts, OfKind(ExpenseKind)), Amount);
    var incomes := SumOf(Filter(ts, OfKind(IncomeKind)), Amount);
    Totals(expenses, incomes, incomes - expenses)
  }

  /** The balance is the signed sum of the amounts. */
  lemma {:induction false} BalanceIsSignedSum(ts: seq<Transaction>)
    ensures TotalsOf(ts).balance == SumOf(ts, Signed)
    decreases |ts|
  {
    if ts != [] {
      var rest := ts[1..];
      assert ts == [ts[0]] + rest;
      BalanceIsSignedSum(rest);
      FilterAppend([ts[0]], rest, OfKind(ExpenseKind));
      FilterAppend([ts[0]], rest, OfKind(IncomeKind));
      SumOfAppend(Filter([ts[0]], OfKind(ExpenseKind)), Filter(rest, OfKind(ExpenseKind)), Amount);
      SumOfAppend(Filter([ts[0]], OfKind(IncomeKind)), Filter(rest, OfKind(IncomeKind)), Amount);
      assert [ts[0]][1..] == [];
    }
  }
}

=== FILE: transactions.dfy ===
/** The browser's unified list of expenses and incomes: each record as the API
    returns it, tagged with its kind. Dates stay the strings the API sends;
    the instant a string denotes (`new Date(s).getTime()`) is the parameter
    `time`. */
module Transactions {
  import opened Wrappers
  import opened Seqs
  import opened Sorting

  datatype Kind = ExpenseKind | IncomeKind

  /** An expense or an income as the API returns it. */
  datatype Entry = Entry(
    id: string,
    userId: string,
    name: string,
    amount: real,
    date: string,
    category: string,
    description: Option<string>,
    isRecurring: bool,
    frequency: Option<string>,
    createdAt: string,
    updatedAt: string)

  /** An entry together with the kind it came from. */
  datatype Transaction = Transaction(
    id: string,
    userId: string,
    name: string,
    amount: real,
    date: string,
    category: string,
    description: Option<string>,
    isRecurring: bool,
    frequency: Option<string>,
    createdAt: string,
    updatedAt: string,
    kind: Kind)

  /** `{ ...entry, type: kind }`. */
  function Tag(e: Entry, kind: Kind): Transaction {
    Transaction(e.id, e.userId, e.name, e.amount, e.date, e.category, e.description,
      e.isRecurring, e.frequency, e.createdAt, e.updatedAt, kind)
  }

  /** The entry a transaction carries, without its kind. */
  function Untag(t: Transaction): Entry {
    Entry(t.id, t.userId, t.name, t.amount, t.date, t.category, t.description,
      t.isRecurring, t.frequency, t.createdAt, t.updatedAt)
  }

  /** Tagging loses nothing: the entry and the kind can be read back, and every
      transaction is the tagging of its own entry. */
  lemma TagRoundTrip(e: Entry, kind: Kind, t: Transaction)
    ensures Untag(Tag(e, kind)) == e && Tag(e, kind).kind == kind
    ensures Tag(Untag(t), t.kind) == t
  {
  }

  function ExpenseToTransaction(e: Entry): (t: Transaction)
    ensures t.kind == ExpenseKind && Untag(t) == e
  {
    Tag(e, ExpenseKind)
  }

  function IncomeToTransaction(e: Entry): (t: Transaction)
    ensures t.kind == IncomeKind && Untag(t) == e
  {
    Tag(e, IncomeKind)
  }

  /** The instant of a transaction's date, as the sort compares it. */
  function TimeKey(time: string -> int): Transaction -> int {
    (t: Transaction) => time(t.date)
  }

  /** `sortTransactionsByDate`: a sorted copy, most recent first. The order of
      transactions with the same instant is not stated. */
  function SortByDate(ts: seq<Transaction>, time: string -> int): (r: seq<Transaction>)
    ensures SortedDesc(r, TimeKey(time))
    ensures multiset(r) == multiset(ts)
  {
    SortDesc(ts, TimeKey(time))
  }

  /** A list already in date order (newest first) comes back unchanged: on
      sorted input the sort is the identity. */
  lemma {:induction false} SortByDateSorted(ts: seq<Transaction>, time: string -> int)
    requires SortedDesc(ts, TimeKey(time))
    ensures SortByDate(ts, time) == ts
    decreases |ts|
  {
    if ts != [] {
      SortByDateSorted(ts[1..], time);
      assert ts == [ts[0]] + ts[1..];
    }
  }

  datatype TypeFilter = All | Only(kind: Kind)

  function OfKind(kind: Kind): Transaction -> bool {
    (t: Transaction) => t.kind == kind
  }

  /** `filterTransactions`: the list itself for `all`, else the transactions
      of the chosen kind. */
  function FilterTransactions(ts: seq<Transaction>, f: TypeFilter): (r: seq<Transaction>)
    ensures f == All ==> r == ts
    ensures f.Only? ==> forall i :: 0 <= i < |r| ==> r[i].kind == f.kind
    ensures f.Only? ==> forall x :: multiset(r)[x] == if x.kind == f.kind then multiset(ts)[x] else 0
  {
    if f == All then ts else Filter(ts, OfKind(f.kind))
  }

  /** Filtering keeps the original order: the filter of a concatenation is the
      concatenation of the filters. */
  lemma FilterKeepsOrder(a: seq<Transaction>, b: seq<Transaction>, f: TypeFilter)
    ensures FilterTransactions(a + b, f) == FilterTransactions(a, f) + FilterTransactions(b, f)
  {
    if f.Only? {
      FilterAppend(a, b, OfKind(f.kind));
    }
  }

  /** Filtering twice is filtering once. */
  lemma FilterTransactionsIdempotent(ts: seq<Transaction>, f: TypeFilter)
    ensures FilterTransactions(FilterTransactions(ts, f), f) == FilterTransactions(ts, f)
  {
    if f.Only? {
      FilterIdempotent(ts, OfKind(f.kind));
    }
  }

  /** A list of one kind only is unchanged by the filter for that kind. */
  lemma FilterOwnKind(ts: seq<Transaction>, kind: Kind)
    requires forall i :: 0 <= i < |ts| ==> ts[i].kind == kind
    ensures FilterTransactions(ts, Only(kind)) == ts
  {
    FilterAll(ts, OfKind(kind));
  }
}

=== FILE: user_cases.dfy ===
/** The user-profile use cases: reading, updating and deleting a user. The
    update trims names and the email, lower-cases the email, checks it against
    the anchored pattern of `EmailRules`, and refuses an email another user
    already holds. */
module UserCases {
  import opened Wrappers
  import opened Entities
  import opened Messages
  import opened Text
  import opened EmailRules
  import Users = UserDirectory

  /** Names longer than this are refused. */
  const MaxNameLength: int := 100

  /** The keys of the update request: a field is `Some` exactly when its key is present. */
  datatype UpdateData = UpdateData(firstName: Option<string>, lastName: Option<string>, email: Option<string>)

  /** An optional name that validation accepts: absent, or non-blank and at most
      100 characters once trimmed. */
  predicate NameAccepted(name: Option<string>) {
    name.None? || (Strip(name.value) != [] && |Strip(name.value)| <= MaxNameLength)
  }

  /** The email as the update stores it: trimmed, then lower-cased. */
  function NormaliseEmail(raw: string): (r: string)
    ensures |r| <= |raw|
    ensures forall i :: 0 <= i < |r| ==> !IsAsciiUpper(r[i])
    ensures |r| > 0 ==> !IsPyWhitespace(r[0]) && !IsPyWhitespace(r[|r| - 1])
  {
    ToLower(Strip(raw))
  }

  /** A normalised email validation accepts for `owner`: non-empty, of the right
      shape, and either the owner's current email or held by no other user (as
      the lookup by email sees it). */
  predicate EmailAccepted(users: Users.Directory, owner: User, e: string) {
    && e != []
    && IsValidEmail(e)
    && (e == owner.email || Users.GetByEmail(users, e).None? || Users.GetByEmail(users, e).value.id == owner.id)
  }

  /** Trims an optional name and refuses it when blank or too long. */
  function CheckName(name: Option<string>, empty: Message, tooLong: Message): (r: Result<Option<string>, Raised>)
    ensures r.Success? <==> NameAccepted(name)
    ensures r.Success? ==> r.value == (if name.Some? then Some(Strip(name.value)) else None)
    ensures r.Failure? ==> r.error == ValueError(if Strip(name.value) == [] then empty else tooLong)
  {
    match name
    case None => Success(None)
    case Some(raw) =>
      var n := Strip(raw);
      if n == [] then Failure(ValueError(empty))
      else if |n| > MaxNameLength then Failure(ValueError(tooLong))
      else Success(Some(n))
  }

  /** Normalises an optional email and refuses it when empty, malformed, or held
      by another user. */
  function CheckEmail(users: Users.Directory, owner: User, email: Option<string>): (r: Result<Option<string>, Raised>)
    ensures r.Success? <==> (email.Some? ==> EmailAccepted(users, owner, NormaliseEmail(email.value)))
    ensures r.Success? ==> r.value == (if email.Some? then Some(NormaliseEmail(email.value)) else None)
    ensures r == Failure(ValueError(EmailEmpty)) <==> email.Some? && NormaliseEmail(email.value) == []
    ensures r == Failure(ValueError(InvalidEmail)) <==>
      email.Some? && NormaliseEmail(email.value) != [] && !IsValidEmail(NormaliseEmail(email.value))
    ensures r.Failure? ==> r.error in {ValueError(EmailEmpty), ValueError(InvalidEmail), ValueError(EmailTaken)}
  {
    match email
    case None => Success(None)
    case Some(raw) =>
      var e := NormaliseEmail(raw);
      if e == [] then Failure(ValueError(EmailEmpty))
      else if !IsValidEmail(e) then Failure(ValueError(InvalidEmail))
      else if e != owner.email && Users.GetByEmail(users, e).Some? && Users.GetByEmail(users, e).value.id != owner.id then
        Failure(ValueError(EmailTaken))
      else Success(Some(e))
  }

  /** `validate_and_prepare_data`: checks the first name, the last name and the
      email in that order; the validated data holds the trimmed names and the
      normalised email of the keys that were present. */
  function ValidateAndPrepare(users: Users.Directory, data: UpdateData, owner: User): (r: Result<UpdateData, Raised>)
    ensures !NameAccepted(data.firstName) ==>
      r == Failure(CheckName(data.firstName, FirstNameEmpty, FirstNameTooLong).error)
    ensures NameAccepted(data.firstName) && !NameAccepted(data.lastName) ==>
      r == Failure(CheckName(data.lastName, LastNameEmpty, LastNameTooLong).error)
    ensures NameAccepted(data.firstName) && NameAccepted(data.lastName) && CheckEmail(users, owner, data.email).Failure? ==>
      r == Failure(CheckEmail(users, owner, data.email).error)
    ensures r.Success? <==>
      NameAccepted(data.firstName) && NameAccepted(data.lastName)
      && (data.email.Some? ==> EmailAccepted(users, owner, NormaliseEmail(data.email.value)))
    ensures r.Failure? ==> r.error.ValueError?
    ensures r.Success? ==>
      && r.value.firstName == (if data.firstName.Some? then Some(Strip(data.firstName.value)) else None)
      && r.value.lastName == (if data.lastName.Some? then Some(Strip(data.lastName.value)) else None)
      && r.value.email == (if data.email.Some? then Some(NormaliseEmail(data.email.value)) else None)
  {
    match CheckName(data.firstName, FirstNameEmpty, FirstNameTooLong)
    case Failure(e) => Failure(e)
    case Success(firstName) =>
      match CheckName(data.lastName, LastNameEmpty, LastNameTooLong)
      case Failure(e) => Failure(e)
      case Success(lastName) =>
        match CheckEmail(users, owner, data.email)
        case Failure(e) => Failure(e)
        case Success(email) => Success(UpdateData(firstName, lastName, email))
  }

  /** `_update_user_entity`: the user rebuilt from the validated data. Absent keys
      keep their old values; id, password and creation time are copied; the
      update time is `now`. The constructor is not given a phone number. */
  function Rebuilt(owner: User, v: UpdateData, now: int): (u: User)
    ensures u.id == owner.id && u.password == owner.password && u.createdAt == owner.createdAt
    ensures u.firstName == v.firstName.GetOr(owner.firstName)
    ensures u.lastName == v.lastName.GetOr(owner.lastName)
    ensures u.email == v.email.GetOr(owner.email)
    ensures u.updatedAt == now && u.phoneNumber.None?
  {
    User(owner.id, v.firstName.GetOr(owner.firstName), v.lastName.GetOr(owner.lastName),
         v.email.GetOr(owner.email), None, owner.password, owner.createdAt, now)
  }

  datatype Updated = Updated(users: Users.Directory, result: Result<User, Raised>)

  /** `UpdateUser.execute`: an empty id, then an unknown user, then the data
      checks are refused without writing; otherwise the user's row is replaced by
      the rebuilt user, which is returned. */
  function UpdateUser(users: Users.Directory, userId: string, data: UpdateData, now: int): (o: Updated)
    ensures o.result.Failure? ==> o.users == users && o.result.error.ValueError?
    ensures o.result == Failure(ValueError(UserIdRequired)) <==> userId == ""
    ensures o.result == Failure(ValueError(UserDoesNotExist)) <==> userId != "" && !Users.HasId(users, userId)
    ensures userId != "" && Users.HasId(users, userId) ==>
      var owner := Users.GetById(users, userId).value;
      && (o.result.Success? <==> ValidateAndPrepare(users, data, owner).Success?)
      && (o.result.Failure? ==> o.result == Failure(ValidateAndPrepare(users, data, owner).error))
      && (o.result.Success? ==>
            && o.result.value == Rebuilt(owner, ValidateAndPrepare(users, data, owner).value, now)
            && exists i :: 0 <= i < |users| && users[i].id == userId && o.users == users[i := o.result.value])
  {
    if userId == "" then Updated(users, Failure(ValueError(UserIdRequired)))
    else
      match Users.GetById(users, userId)
      case None => Updated(users, Failure(ValueError(UserDoesNotExist)))
      case Some(owner) =>
        match ValidateAndPrepare(users, data, owner)
        case Failure(e) => Updated(users, Failure(e))
        case Success(v) =>
          var u := Rebuilt(owner, v, now);
          var (stored, returned) := Users.Update(users, userId, u);
          if returned.None? then
            assert false;
            Updated(users, Failure(ValueError(UserDoesNotExist)))
          else Updated(stored, Success(u))
  }

  /** An update keeps the table's key constraints: the new email is the user's own
      or held by nobody else. */
  lemma UpdateKeepsKeys(users: Users.Directory, userId: string, data: UpdateData, now: int)
    requires Users.Keys(users)
    ensures Users.Keys(UpdateUser(users, userId, data, now).users)
  {
    var o := UpdateUser(users, userId, data, now);
    if o.result.Success? {
      var owner := Users.GetById(users, userId).value;
      var v := ValidateAndPrepare(users, data, owner).value;
      var u := o.result.value;
      var i :| 0 <= i < |users| && users[i].id == userId && o.users == users[i := u];
      Users.GetByIdUnique(users, i);
      assert owner == users[i];
      forall j | 0 <= j < |users| && j != i ensures users[j].id != u.id && users[j].email != u.email {
        if v.email.Some? && v.email.value != owner.email {
          var e := v.email.value;
          if users[j].email == e {
            Users.GetByEmailUnique(users, j);
            assert false;
          }
        }
      }
      forall a, b | 0 <= a < b < |o.users| ensures o.users[a].id != o.users[b].id && o.users[a].email != o.users[b].email {
        if a != i && b != i {
          assert o.users[a] == users[a] && o.users[b] == users[b];
        }
      }
    }
  }

  /** `GetUser.execute`: an empty id is refused before the lookup; an unknown
      user is refused; otherwise the stored user is returned. */
  function GetUser(users: Users.Directory, userId: string): (r: Result<User, Raised>)
    ensures r == Failure(ValueError(UserIdRequired)) <==> userId == ""
    ensures r == Failure(ValueError(UserNotFound)) <==> userId != "" && !Users.HasId(users, userId)
    ensures r.Success? <==> userId != "" && Users.HasId(users, userId)
    ensures r.Success? ==> r.value in users && r.value.id == userId
  {
    if userId == "" then Failure(ValueError(UserIdRequired))
    else
      match Users.GetById(users, userId)
      case None => Failure(ValueError(UserNotFound))
      case Some(u) => Success(u)
  }

  /** `DeleteUser.execute`: an empty id, then an unknown user, are refused and
      nothing changes; otherwise the user's rows are removed. The answer is the
      table afterwards. */
  function DeleteUser(users: Users.Directory, userId: string): (r: Result<Users.Directory, Raised>)
    ensures r == Failure(ValueError(UserIdRequired)) <==> userId == ""
    ensures r == Failure(ValueError(UserDoesNotExist)) <==> userId != "" && !Users.HasId(users, userId)
    ensures r.Success? <==> userId != "" && Users.HasId(users, userId)
    ensures r.Success? ==> |r.value| < |users|
    ensures r.Success? ==> forall x :: x in r.value <==> x in users && x.id != userId
  {
    if userId == "" then Failure(ValueError(UserIdRequired))
    else if Users.GetById(users, userId).None? then Failure(ValueError(UserDoesNotExist))
    else
      Users.DeleteShrinks(users, userId);
      Success(Users.Delete(users, userId))
  }

  /** A deleted user can no longer be read. */
  lemma DeletedUserNotFound(users: Users.Directory, userId: string)
    requires DeleteUser(users, userId).Success?
    ensures GetUser(DeleteUser(users, userId).value, userId) == Failure(ValueError(UserNotFound))
  {
  }
}

=== FILE: user_directory.dfy ===
/** The user repository the use cases call, as an in-memory table in insertion
    order. A lookup returns the first matching row or `None`. `id` is the primary
    key and `email` is unique, so adding a row that clashes on either fails. */
module UserDirectory {
  import opened Wrappers
  import opened Entities
  import opened Seqs

  type Directory = seq<User>

  /** The table's key constraints: ids and emails are unique. */
  ghost predicate Keys(s: Directory) {
    forall i, j :: 0 <= i < j < |s| ==> s[i].id != s[j].id && s[i].email != s[j].email
  }

  predicate HasId(s: Directory, id: string) {
    exists i :: 0 <= i < |s| && s[i].id == id
  }

  predicate HasEmail(s: Directory, email: string) {
    exists i :: 0 <= i < |s| && s[i].email == email
  }

  function GetById(s: Directory, id: string): (r: Option<User>)
    ensures r.Some? ==> r.value in s && r.value.id == id
    ensures r.None? <==> !HasId(s, id)
  {
    match FindFirst(s, (u: User) => u.id == id)
    case None => None
    case Some(i) => Some(s[i])
  }

  function GetByEmail(s: Directory, email: string): (r: Option<User>)
    ensures r.Some? ==> r.value in s && r.value.email == email
    ensures r.None? <==> !HasEmail(s, email)
  {
    match FindFirst(s, (u: User) => u.email == email)
    case None => None
    case Some(i) => Some(s[i])
  }

  function GetByPhoneNumber(s: Directory, phone: string): (r: Option<User>)
    ensures r.Some? ==> r.value in s && r.value.phoneNumber == Some(phone)
    ensures r.None? <==> forall i :: 0 <= i < |s| ==> s[i].phoneNumber != Some(phone)
  {
    match FindFirst(s, (u: User) => u.phoneNumber == Some(phone))
    case None => None
    case Some(i) => Some(s[i])
  }

  /** Inserts a user; a taken id or email is an integrity error. */
  function Add(s: Directory, u: User): (r: Result<Directory, Raised>)
    ensures r.Success? <==> !HasId(s, u.id) && !HasEmail(s, u.email)
    ensures r.Success? ==> r.value == s + [u]
    ensures r.Failure? ==> r.error == IntegrityError
    ensures Keys(s) && r.Success? ==> Keys(r.value)
  {
    if GetById(s, u.id).Some? || GetByEmail(s, u.email).Some? then Failure(IntegrityError)
    else Success(s + [u])
  }

  /** Replaces the row carrying `id` with `u` and returns the stored user, or
      leaves the table alone and returns `None` when no row carries `id`. */
  function Update(s: Directory, id: string, u: User): (r: (Directory, Option<User>))
    ensures |r.0| == |s|
    ensures r.1.None? <==> !HasId(s, id)
    ensures r.1.None? ==> r.0 == s
    ensures r.1.Some? ==> r.1.value == u && u in r.0
    ensures r.1.Some? ==> exists i :: 0 <= i < |s| && s[i].id == id && r.0 == s[i := u]
  {
    match FindFirst(s, (x: User) => x.id == id)
    case None => (s, None)
    case Some(i) =>
      var r := s[i := u];
      assert r[i] == u;
      (r, Some(u))
  }

  /** Removes the rows carrying `id`; every other row stays, in order. */
  function Delete(s: Directory, id: string): (r: Directory)
    ensures !HasId(r, id)
    ensures forall x :: x in r <==> x in s && x.id != id
  {
    var r := Filter(s, (x: User) => x.id != id);
    assert forall x :: x in r <==> x in s && x.id != id by {
      forall x {
        FilterMembership(s, (x: User) => x.id != id, x);
      }
    }
    r
  }

  /** Deleting an id that is present removes at least one row. */
  lemma DeleteShrinks(s: Directory, id: string)
    requires HasId(s, id)
    ensures |Delete(s, id)| < |s|
  {
    var i :| 0 <= i < |s| && s[i].id == id;
    FilterDrops(s, (x: User) => x.id != id, i);
  }

  /** Under the key constraints, the lookup by id finds the one row with that id. */
  lemma GetByIdUnique(s: Directory, i: nat)
    requires Keys(s) && i < |s|
    ensures GetById(s, s[i].id) == Some(s[i])
  {
    var k := FindFirst(s, (u: User) => u.id == s[i].id);
    assert k.Some?;
    if k.value != i {
      assert false;
    }
  }

  /** Under the key constraints, the lookup by email finds the one row with that email. */
  lemma GetByEmailUnique(s: Directory, i: nat)
    requires Keys(s) && i < |s|
    ensures GetByEmail(s, s[i].email) == Some(s[i])
  {
    var k := FindFirst(s, (u: User) => u.email == s[i].email);
    assert k.Some?;
    if k.value != i {
      assert false;
    }
  }
}

=== FILE: wrappers.dfy ===
/** Option and Result, the two failure-carrying datatypes the model uses in place of
    Python's `None` and its raised exceptions. */
module Wrappers {

  /** A value that may be absent; `None` stands for Python's `None`. */
  datatype Option<+T> = None | Some(value: T) {

    predicate IsFailure() {
      None?
    }

    function PropagateFailure<U>(): Option<U>
      requires None?
    {
      None
    }

    function Extract(): T
      requires Some?
    {
      value
    }

    /** The value, or `default` when absent. */
    function GetOr(default: T): T {
      match this
      case Some(v) => v
      case None => default
    }
  }

  /** The outcome of an operation that either returns a value or raises an error. */
  datatype Result<+R, +E> = Success(value: R) | Failure(error: E) {

    predicate IsFailure() {
      Failure?
    }

    function PropagateFailure<U>(): Result<U, E>
      requires Failure?
    {
      Failure(error)
    }

    function Extract(): R
      requires Success?
    {
      value
    }
  }
}
